=== FILE: README.md ===
# OVH Snowflake provider and documentation site, modelled in Dafny

This project models the logic of the OVH-managed Snowflake Terraform provider
and of the offline service worker of its documentation site:

- the service worker `website/static/sw.js`: request classification
  (`CachePolicy`), the cache store with its expiry sweep and its size
  management (`CacheStore`), install, activation, messages and the two sync
  events (`CacheLifecycle`), and the four retrieval strategies with the fetch
  handler (`CacheStrategies`);
- the warehouse validators of the warehouse acceptance tests
  (`WarehouseValidators`);
- provider configuration: the plugin-framework `Configure`, `Metadata`,
  `Resources`, `DataSources` and `New` of `provider.go`
  (`ProviderConfigure`), and the client configuration of `config.go`
  (`ClientConfig`);
- the accounts data source's filter and projection (`AccountsDataSource`);
- the SDK-v2 resources for warehouses, accounts, resource monitors and grants
  (`WarehouseResource`, `AccountResource`, `ResourceMonitorResource`,
  `GrantResource`), built on a generic read/create/update/delete model
  (`ResourceCrud`) over JSON values (`Json`);
- the Tailwind helpers `flattenColorPalette` and `addVariablesForColors`
  (`ColorPalette`).

Effects become parameters:

- The network outcome of each fetch is a parameter. The worker's store of
  named caches is a map from cache name to a map from request URL to entry.
- The clock is a `now` argument. The enumeration order of `cache.keys()` is
  an argument, and the totals are proved not to depend on it.
- The OVH API's answers are `Result` values. `ovh.NewClient`, the DSN builder
  and `sql.Open` are function parameters.
- Go's run-time panics on `.(string)` assertions are explicit outcomes.

## Model

| member | source | states |
|---|---|---|
| CachePolicy.CacheNamesDistinct | website/static/sw.js:8-12 | the five versioned cache names are pairwise different, so each partition has exactly one name |
| CachePolicy.GetCacheName | website/static/sw.js:190-207 | a request goes to the images partition exactly when its path has an image extension, to the images or static partition exactly when it has any asset extension, to the API partition exactly when it is not an asset and contains `/api/`, and to the dynamic partition otherwise; never to the provider cache |
| CachePolicy.GetCacheStrategy | website/static/sw.js:166-208 | the strategy agrees with the partition chosen for the same path: cache-first exactly for the image and static partitions, network-first-short exactly for the API partition, stale-while-revalidate exactly for dynamic paths under `/docs/` or `/community/`, network-first for the other dynamic paths |
| CachePolicy.ExtensionComesFirst | website/static/sw.js:171-174 | a path ending in any asset extension is cache-first and never goes to the API or dynamic partition, even when it contains `/api/` or `/docs/` |
| CachePolicy.LogoIsCachedFirstAsImage | website/static/sw.js:190-196 | `/img/logo.svg` is cache-first in the images partition |
| CachePolicy.StylesheetIsCachedFirstAsStatic | website/static/sw.js:190-200 | `/assets/css/styles.css` is cache-first in the static partition |
| CachePolicy.DocsIntroIsRevalidated | website/static/sw.js:181-184 | `/docs/intro` is stale-while-revalidate in the dynamic partition |
| CachePolicy.ManifestIsNetworkFirst | website/static/sw.js:171-187 | `/manifest.json` is not a `.js` asset: it is network-first in the dynamic partition |
| CachePolicy.ApiStatusIsNetworkFirstShort | website/static/sw.js:176-179 | `/api/status` is network-first-short in the API partition |
| CachePolicy.IsCacheExpired | website/static/sw.js:79-85 | an entry is fresh exactly when it carries a timestamp no older than the maximum age |
| CachePolicy.ExpiryMonotoneInTime | website/static/sw.js:79-85 | an expired entry stays expired as time passes |
| CachePolicy.ExpiryAntitoneInMaxAge | website/static/sw.js:79-85 | an entry expired under a longer maximum age is expired under a shorter one |
| CachePolicy.ExpiryBoundary | website/static/sw.js:79-85 | an entry without a timestamp is always expired; an age of exactly the maximum is still fresh and one millisecond more is expired |
| CacheStore.Lookup | website/static/sw.js:217 | `cache.match` finds an entry exactly when one is stored under the URL, and returns that entry |
| CacheStore.Open | website/static/sw.js:89-90 | opening a cache creates it empty when missing and changes no existing cache |
| CacheStore.PutStamped | website/static/sw.js:66-76 | a stamped put stores the response under its URL with the current time and changes nothing else |
| CacheStore.CleanupExpiredCache | website/static/sw.js:88-103 | the sweep keeps exactly the entries that are not expired, unchanged |
| CacheStore.CleanupIdempotent | website/static/sw.js:88-103 | a second sweep at the same time deletes nothing |
| CacheStore.CleanupLaterSubsumes | website/static/sw.js:88-103 | a sweep followed by a later one equals the later one alone |
| CacheStore.Items | website/static/sw.js:113-125 | size management reads one item per enumerated key present in the cache, holding that entry's size and timestamp |
| CacheStore.TotalOfPermutation | website/static/sw.js:113-125 | the byte total of a set of items does not depend on their order |
| CacheStore.PartitionSizeOrderIndependent | website/static/sw.js:109-125 | the total a cache sums to does not depend on the order in which its keys are enumerated |
| CacheStore.TotalOfZero | website/static/sw.js:116-117 | a total is zero exactly when every item counts zero bytes |
| CacheStore.InsertKeepsSorted | website/static/sw.js:129-130 | inserting into an oldest-first sequence keeps it oldest-first |
| CacheStore.SortByAge | website/static/sw.js:129-130 | the sort is a permutation of its input, ordered oldest timestamp first |
| CacheStore.Without | website/static/sw.js:137 | deleting a list of keys removes exactly those keys and keeps every other entry |
| CacheStore.EvictionCount | website/static/sw.js:132-139 | the eviction loop deletes nothing when the cache is within budget; otherwise it stops at the first point where the rest fits, so the rest before the last deletion did not fit |
| CacheStore.ManageCacheSize | website/static/sw.js:106-144 | a cache within budget is untouched; otherwise the deleted keys are a prefix of the oldest-first order, every deleted entry is no younger than every kept one, and what is kept fits the budget |
| CacheStore.KeptSize | website/static/sw.js:106-144 | what size management keeps sums to the total of the oldest-first suffix it did not delete |
| CacheStore.TailMembers | website/static/sw.js:132-139 | the suffix left after deleting a prefix holds exactly the items whose keys were not deleted |
| CacheStore.EvictedAreOldest | website/static/sw.js:129-139 | every key deleted was stamped no later than every key kept |
| CacheLifecycle.PutAll | website/static/sw.js:338-340 | a successful `addAll` stores each URL with its own fetched response and leaves other entries unchanged |
| CacheLifecycle.AddAll | website/static/sw.js:338-340 | `addAll` is all-or-nothing: it succeeds exactly when every fetch gives an ok response that is not a 206 and no URL is listed twice; on success every listed URL is stored and every other entry is kept |
| CacheLifecycle.AddAllTo | website/static/sw.js:336-341 | `addAll` on a named cache touches only that cache; when the batch is accepted (every response ok and not a 206, no duplicate URL) it primes every listed URL, and otherwise it leaves the opened cache as it was |
| CacheLifecycle.PrimeBoth | website/static/sw.js:334-354 | priming touches only the dynamic and static caches; skipWaiting is called exactly when both `addAll` batches are accepted; each accepted list is stored even when the other is rejected, and the rejection is caught rather than failing the install |
| CacheLifecycle.InstallWith | website/static/sw.js:331-356 | install primes the essential URLs into the dynamic cache and the static assets into the static cache, and calls skipWaiting exactly when every fetch of both lists gives an ok response that is not a 206; neither list repeats a URL, so duplicates never reject it |
| CacheLifecycle.Install | website/static/sw.js:331-356 | as written, the primed entries carry no timestamp |
| CacheLifecycle.InstallStamped | website/static/sw.js:331-356 | the corrected install stamps every primed entry with the install time |
| CacheLifecycle.PrimedOfflinePageSweptAway | website/static/sw.js:338-340 | as written, the offline page primed at install is deleted by the first sweep of the dynamic cache, whatever its maximum age |
| CacheLifecycle.PrimedOfflinePageSurvivesSweep | website/static/sw.js:338-340 | stamped at install, the offline page survives every dynamic sweep within seven days |
| CacheLifecycle.Activate | website/static/sw.js:359-383 | activation keeps exactly the caches of the current version, unchanged |
| CacheLifecycle.ActivationKeepsCurrentCaches | website/static/sw.js:364-374 | no partition the fetch handler routes to is deleted, and a second activation changes nothing |
| CacheLifecycle.ActivationDropsPreviousVersion | website/static/sw.js:364-374 | a cache of the previous version is deleted and the current one kept |
| CacheLifecycle.PartitionSizeZero | website/static/sw.js:492-499 | a cache sums to zero exactly when each entry counts zero bytes |
| CacheLifecycle.SizeOverZero | website/static/sw.js:483-504 | the sum over several caches is zero exactly when every entry in them counts zero bytes |
| CacheLifecycle.GetCacheSize | website/static/sw.js:483-504 | the reported size is at least each cache's own total, and is zero exactly when every entry of every cache counts zero bytes |
| CacheLifecycle.SizeOverRemoveAt | website/static/sw.js:486-500 | each cache contributes its own total to the sum wherever it appears in the enumeration |
| CacheLifecycle.SizeOverPermutation | website/static/sw.js:486-500 | two duplicate-free enumerations of the same caches sum to the same total |
| CacheLifecycle.GetCacheSizeEnumerationIndependent | website/static/sw.js:483-504 | the reported size depends neither on the order the caches are enumerated in nor on the order of their keys |
| CacheLifecycle.PartitionSizeInsert | website/static/sw.js:113-117 | putting an entry under a new key raises a cache's total by exactly the entry's content-length |
| CacheLifecycle.GetCacheSizeAdditive | website/static/sw.js:483-504 | putting an entry under a new key of a cache raises the reported size by exactly the entry's content-length |
| CacheLifecycle.HandleMessage | website/static/sw.js:454-508 | SKIP_WAITING skips waiting; CLEAR_CACHE empties the store; GET_CACHE_SIZE replies with the total size `GetCacheSize` computes and is the only message that replies; CACHE_URLS touches only the dynamic cache, priming every listed URL when `addAll` accepts the batch and otherwise only opening the cache, and changes nothing without a URL list; any other message changes nothing |
| CacheLifecycle.ClearThenSizeIsZero | website/static/sw.js:473-504 | after CLEAR_CACHE, GET_CACHE_SIZE replies zero |
| CacheLifecycle.Sweep | website/static/sw.js:88-103 | a sweep touches only its cache, keeps a subset of it, and leaves it with no expired entry |
| CacheLifecycle.Shrink | website/static/sw.js:106-144 | size management touches only its cache, keeps a subset of it, and leaves it within a non-negative budget |
| CacheLifecycle.SweepList | website/static/sw.js:441-445 | sweeping a list of caches touches only those caches and leaves each free of entries expired for its own maximum age |
| CacheLifecycle.SweepAll | website/static/sw.js:441-444 | the four sweeps of the cleanup sync leave each cache free of entries expired for its maximum age |
| CacheLifecycle.SweepMaintained | website/static/sw.js:514-517 | the three sweeps of the maintenance sync leave the static, dynamic and API caches free of expired entries |
| CacheLifecycle.ShrinkToBudgets | website/static/sw.js:446-447 | the dynamic cache is brought within 40% and the images cache within 30% of 50MB |
| CacheLifecycle.CacheCleanupSync | website/static/sw.js:436-451 | the `cache-cleanup` sync leaves the four caches free of expired entries and the dynamic and images caches within their budgets; any other tag changes nothing |
| CacheLifecycle.CacheMaintenancePeriodicSync | website/static/sw.js:511-522 | the `cache-maintenance` sync leaves three caches free of expired entries and the dynamic cache within 50MB; any other tag changes nothing |
| CacheStrategies.FetchWithTimeout | website/static/sw.js:146-163 | a fetch succeeds exactly when the network answers before the timer fires |
| CacheStrategies.ApiTimeoutIsStricter | website/static/sw.js:271-276 | a response in time for the 3-second API timeout is in time for the 5-second default, but not conversely |
| CacheStrategies.CacheIfOk | website/static/sw.js:224-228 | only an ok response is cached, stamped, under the request URL in the routed cache |
| CacheStrategies.CachedCopy | website/static/sw.js:217 | the cache answers only a GET request, with the entry stored under its URL |
| CacheStrategies.CacheFirst | website/static/sw.js:214-237 | a fresh cached copy is served without the network; otherwise a network response that arrives in time and whose cache write does not reject is served, an ok one being stored stamped; failing that, the cached copy at any age is served and the strategy throws exactly when there is none; only the routed cache changes |
| CacheStrategies.NetworkFirst | website/static/sw.js:240-268 | a network response that arrives in time and whose cache write does not reject is served, an ok one being stored stamped; failing that, the cached copy at any age is served, else for a navigation the offline page of the same cache, and otherwise the strategy throws |
| CacheStrategies.NetworkFirstShort | website/static/sw.js:271-289 | with the 3-second timeout, a delivered network response is served and an ok one stored stamped in the API cache; failing that, the API cache answers exactly when it holds a copy younger than an hour, with that copy |
| CacheStrategies.StaleWhileRevalidateWith | website/static/sw.js:292-325 | any cached copy is served; with nothing cached, the delivered network response is served; an ok response refreshes the cache; with nothing cached and nothing delivered, the strategy as written resolves to no response and the corrected strategy throws |
| CacheStrategies.RunStrategy | website/static/sw.js:400-411 | the strategy run for a request writes only to the cache its path is routed to, and only stale-while-revalidate can leave the page without a response, only when the failure is not rethrown |
| CacheStrategies.HandleFetchWith | website/static/sw.js:386-432 | only http requests without a range header are intercepted; a strategy's reply that is not a failure reaches the page with the strategy's cache writes; a failure is answered, for a navigation, with the offline page of the dynamic cache when that cache holds it, and otherwise with the 503 offline response; so no failure escapes, and the page is left without a response only through stale-while-revalidate as written |
| CacheStrategies.HandleFetch | website/static/sw.js:386-432 | the fetch handler as written intercepts exactly the http requests without a range header |
| CacheStrategies.HandleFetchCorrected | website/static/sw.js:386-432 | with the failure rethrown, every intercepted request is answered with a response |
| CacheStrategies.AssetRoundTrip | website/static/sw.js:214-237 | an asset fetched once is served from the cache on any later request within thirty days, whatever the network does |
| CacheStrategies.CacheFirstServesStaleOnFailure | website/static/sw.js:230-235 | on a network failure, cache-first serves a cached copy however old |
| CacheStrategies.OfflineNavigationGetsOfflinePage | website/static/sw.js:249-264 | an offline network-first navigation with nothing cached is served the offline page |
| CacheStrategies.OkNonGetResponseIsLost | website/static/sw.js:224-236 | an ok response to a request that is not a GET never reaches the page: the rejected cache write sends a non-navigation to the 503 reply, and stale-while-revalidate to no response |
| CacheStrategies.UnanswerableRequestGets503 | website/static/sw.js:412-430 | a request that is not a navigation and can be answered neither from the cache nor from the network gets the 503 reply |
| CacheStrategies.DocsOfflineNavigationGetsNoResponse | website/static/sw.js:303-324 | as written, an offline documentation navigation with nothing cached gets no response, even with the offline page cached |
| CacheStrategies.DocsOfflineNavigationGetsOfflinePage | website/static/sw.js:412-421 | with the failure rethrown, the same navigation gets the offline page |
| CacheStrategies.DocsIntroOfflineAsWritten | website/static/sw.js:303-324 | the introduction page, requested offline with only the offline page cached, gets no response |
| CacheStrategies.DocsIntroOfflineCorrected | website/static/sw.js:412-421 | the same request gets the offline page once the failure is rethrown |
| CacheStrategies.StrategyFrame | website/static/sw.js:214-325 | every strategy touches only the cache its request is routed to |
| Strings.ContainsIffOccurs | website/static/sw.js:177-184 | `includes` holds exactly when the substring occurs at some position |
| WarehouseValidators.AllNameCharsIff | internal/provider/snowflake_warehouse_resource_test.go:384-388 | the recursive character scan accepts exactly the strings whose every character is a letter, digit or underscore |
| WarehouseValidators.IsValidWarehouseName | internal/provider/snowflake_warehouse_resource_test.go:373-391 | the validator accepts exactly the names of 1 to 64 characters that start with a letter or underscore and hold only letters, digits and underscores |
| WarehouseValidators.IsValidWarehouseSize | internal/provider/snowflake_warehouse_resource_test.go:353-367 | an accepted size has four to eight characters, all upper-case letters or digits: lower case and hyphenated spellings are rejected |
| WarehouseValidators.IsValidAutoSuspend | internal/provider/snowflake_warehouse_resource_test.go:369-371 | auto-suspend is accepted exactly from one minute to one day, both bounds included |
| WarehouseValidators.SizeTable | internal/provider/snowflake_warehouse_resource_test.go:232-253 | the ten listed sizes are accepted; `TINY`, `HUGE`, the empty string, `small` and `INVALID` are rejected |
| WarehouseValidators.AutoSuspendTable | internal/provider/snowflake_warehouse_resource_test.go:255-274 | 60, 300, 3600 and 86400 are accepted; -1, 0, 30 and 90000 are rejected; both bounds are inclusive |
| WarehouseValidators.ValidNameTable | internal/provider/snowflake_warehouse_resource_test.go:277 | every name of the valid-name table (`warehouse1`, `test_warehouse`, `PROD_WH`, `analytics_wh_123`) is accepted |
| WarehouseValidators.InvalidNameTable | internal/provider/snowflake_warehouse_resource_test.go:278 | the empty name, a leading digit, a hyphen, a space and a 73-character name are rejected |
| WarehouseValidators.NameLengthBoundary | internal/provider/snowflake_warehouse_resource_test.go:374-376 | among well-formed names, exactly those of at most 64 characters are valid |
| ProviderConfigure.Resolve | internal/provider/provider.go:109-160 | each of the ten settings, password included, is the configured attribute when set and the environment variable otherwise; the endpoint is that value, or the default when it is empty |
| ProviderConfigure.ConfigOverridesEnvironment | internal/provider/provider.go:109-160 | a provider whose every attribute is set ignores the environment |
| ProviderConfigure.EnvironmentFallback | internal/provider/provider.go:109-160 | with no attribute set, the settings come from the environment, and an empty endpoint is the default |
| ProviderConfigure.BuildDriverConfig | internal/provider/provider.go:206-222 | the driver gets the resolved account, user and password; a set private key assigns `AuthTypeSnowflake`, the zero value, so the authenticator stays user-and-password and no key is handed over |
| ProviderConfigure.DriverConfigFacts | internal/provider/provider.go:206-222 | the driver configuration carries the role and warehouse, and is the same for every private key, including none |
| ProviderConfigure.BuildDriverConfigKeyPair | internal/provider/provider.go:220-222 | corrected: a set private key selects JWT key-pair authentication and is handed to the driver; without one the configuration is the one built as written |
| ProviderConfigure.KeyPairReachesDriver | internal/provider/provider.go:220-222 | corrected: two different private keys give two different driver configurations |
| ProviderConfigure.CredentialError | internal/provider/provider.go:162-184 | configuration fails exactly when an OVH credential is empty, and reports the first missing one: key, then secret, then consumer key |
| ProviderConfigure.OpenSnowflake | internal/provider/provider.go:224-243 | the Snowflake connection is opened only when account and user are both set; it is the opened database when the DSN and open succeed; it fails exactly when account and user are set and the DSN or the open fails, with the `Unable to create Snowflake DSN` or `Unable to create Snowflake client` diagnostic carrying the error |
| ProviderConfigure.Configure | internal/provider/provider.go:99-254 | the provider reports at most one diagnostic; it hands a client to resources and data sources exactly when there is none; a credential error, an OVH client failure (`Unable to create OVH client`) or a Snowflake failure each fails configuration with its own diagnostic; on success the client holds the OVH client built from the resolved credentials and the Snowflake connection `OpenSnowflake` opened |
| ProviderConfigure.SnowflakeDsnFailureFailsConfigure | internal/provider/provider.go:224-233 | with account and user set, a DSN the driver cannot build fails the whole configuration, even though the OVH client was created |
| ProviderConfigure.EmptyAttributeHidesEnvironment | internal/provider/provider.go:117-168 | an attribute set to the empty string is not replaced by the environment and fails the credential check |
| ProviderConfigure.SnowflakeIsOptional | internal/provider/provider.go:224-251 | without a Snowflake account or user, configuration still succeeds, with no Snowflake connection |
| ProviderConfigure.New | internal/provider/provider.go:275-281 | the provider carries the version it was built with |
| ProviderConfigure.GetMetadata | internal/provider/provider.go:43-46 | the type name is `snowflake-ovh` and the version is the provider's |
| ProviderConfigure.MetadataReportsVersion | internal/provider/provider.go:43-46 | a new provider reports the version it was built with |
| ProviderConfigure.Resources | internal/provider/provider.go:256-267 | eight distinct resources are registered |
| ProviderConfigure.ResourcesComplete | internal/provider/provider.go:256-267 | every resource kind is registered |
| ProviderConfigure.DataSources | internal/provider/provider.go:269-273 | the accounts data source is the only data source |
| ClientConfig.NewConfig | internal/provider/config.go:35-37 | a new configuration has no clients and every one of its thirteen string settings is empty |
| ClientConfig.ConfigureOvhClient | internal/provider/config.go:40-62 | the OVH client is set exactly when the three credentials are non-empty and client creation succeeds; on failure the configuration is unchanged |
| ClientConfig.ConfigureSnowflakeClient | internal/provider/config.go:65-92 | the Snowflake check passes exactly when account and username are set and a password, private key or key path is given |
| ClientConfig.Load | internal/provider/config.go:95-128 | each of the ten attributes that is set overwrites its field, `snowflake_user` going to the username; clients and the fields without an attribute are kept |
| ClientConfig.NullModelLoadsNothing | internal/provider/config.go:95-128 | loading a model with no attribute set changes nothing |
| ClientConfig.LoadIdempotent | internal/provider/config.go:95-128 | loading the same model twice equals loading it once |
| ClientConfig.LoadConfiguration | internal/provider/config.go:95-140 | an OVH failure stops with the loaded configuration and a wrapped error; a Snowflake failure is wrapped after the OVH client is set; success means an OVH client exists |
| ClientConfig.SnowflakeFailureKeepsOvhClient | internal/provider/config.go:130-137 | once the OVH client is configured it stays, even when the Snowflake step fails |
| ClientConfig.ValidateConfiguration | internal/provider/config.go:143-164 | validation fails exactly when no OVH client is configured |
| ClientConfig.LoadedConfigurationValidates | internal/provider/config.go:95-164 | a configuration that loaded without error validates |
| ClientConfig.FreshConfigFails | internal/provider/config.go:35-62 | a fresh configuration does not validate, and loading an empty model into it fails for missing OVH credentials |
| AccountsDataSource.JudgeAgrees | internal/provider/data_source_snowflake_accounts.go:99-107 | the loop body panics exactly when a filter it reaches meets a non-string field, and keeps exactly the accounts matching both filters |
| AccountsDataSource.Filter | internal/provider/data_source_snowflake_accounts.go:96-108 | the filter loop never keeps more accounts than it was given |
| AccountsDataSource.Matching | internal/provider/data_source_snowflake_accounts.go:96-108 | the reference filter keeps at most the accounts it was given |
| AccountsDataSource.FilterKeepsMatching | internal/provider/data_source_snowflake_accounts.go:96-108 | when no account panics the loop, it keeps exactly the matching accounts, in their original order and multiplicity |
| AccountsDataSource.FilterCorrect | internal/provider/data_source_snowflake_accounts.go:96-108 | the filter panics exactly when some account panics it; otherwise it keeps exactly the accounts that match |
| AccountsDataSource.NoFilterKeepsAll | internal/provider/data_source_snowflake_accounts.go:96-108 | with neither filter set, every account is kept, in order |
| AccountsDataSource.Project | internal/provider/data_source_snowflake_accounts.go:110-127 | each listed account has the seven attributes, read from the API keys with `createdOn` renamed, plus the tags exactly when they are an object |
| AccountsDataSource.ProjectFields | internal/provider/data_source_snowflake_accounts.go:110-127 | each projected attribute equals the account's field under its API key |
| AccountsDataSource.ReadAccounts | internal/provider/data_source_snowflake_accounts.go:86-133 | a failed GET gives the wrapped diagnostic; the read panics exactly when some fetched account panics the filter; otherwise the listed accounts are, position by position, the projections of the matching accounts in fetch order, each with an id and a creation time |
| AccountsDataSource.ListedAccountsMatch | internal/provider/data_source_snowflake_accounts.go:96-127 | every listed account has the requested region and status and is the projection of a fetched account |
| AccountsDataSource.RegionSkipShieldsStatus | internal/provider/data_source_snowflake_accounts.go:101-105 | an account of another region is skipped before its non-string status can panic |
| ResourceCrud.PartialPayload | internal/provider/resource_snowflake_warehouse.go:215-245 | the update payload holds exactly the API keys of the changed attributes, each with that attribute's value |
| ResourceCrud.SingleChangePayload | internal/provider/resource_snowflake_warehouse.go:215-245 | a change of one attribute sends exactly that attribute |
| ResourceCrud.FullPayload | internal/provider/resource_snowflake_warehouse.go:143-158 | the create payload holds exactly the listed API keys, each with its attribute's value |
| ResourceCrud.SetFields | internal/provider/resource_snowflake_warehouse.go:185-200 | a read sets the listed attributes and keeps every other attribute unchanged |
| ResourceCrud.SetFieldsValue | internal/provider/resource_snowflake_warehouse.go:185-200 | each listed attribute is set to the API field it is read from, a missing field reading as null |
| ResourceCrud.Read | internal/provider/resource_snowflake_warehouse.go:172-207 | a failed GET clears the ID and wraps the error; a successful one keeps the ID, sets each listed attribute from its API field and keeps the others |
| ResourceCrud.Delete | internal/provider/resource_snowflake_warehouse.go:255-268 | a successful delete clears the ID; a failed one keeps the state and wraps the error |
| ResourceCrud.Update | internal/provider/resource_snowflake_warehouse.go:209-253 | a PUT is sent exactly when a listed attribute changed, carrying exactly the changed attributes; a failed PUT wraps the error; otherwise the update ends with a read |
| ResourceCrud.Create | internal/provider/resource_snowflake_warehouse.go:139-170 | the POST body is the full payload of the listed fields; a failed POST is an error, a reply without a string ID panics, and otherwise the ID is set and the resource is read |
| ResourceCrud.EchoReadBack | internal/provider/resource_snowflake_warehouse.go:139-207 | reading back what was created gives each sent attribute its own value |
| WarehouseResource.Resolve | internal/provider/resource_snowflake_warehouse.go:25-135 | each optional attribute left unset takes its schema default |
| WarehouseResource.ResolvedSettingsValid | internal/provider/resource_snowflake_warehouse.go:25-135 | a configuration that passes the schema validators resolves to valid settings |
| WarehouseResource.ClusterCountsUnrelated | internal/provider/resource_snowflake_warehouse.go:42-55 | the schema accepts a minimum cluster count above the maximum |
| WarehouseResource.AutoSuspendUnbounded | internal/provider/resource_snowflake_warehouse.go:56-62 | the schema accepts an auto-suspend above the 86400 that the test helper rejects |
| WarehouseResource.CreateWarehouse | internal/provider/resource_snowflake_warehouse.go:139-170 | a warehouse is created exactly when the POST succeeds with a string ID, which the resource then carries unless the read-back fails |
| WarehouseResource.CreatePayloadCarries | internal/provider/resource_snowflake_warehouse.go:143-158 | the POST carries the resolved size, cluster count, auto-suspend, scaling policy and resource monitor |
| WarehouseResource.CreatePayloadDefaults | internal/provider/resource_snowflake_warehouse.go:32-158 | with those attributes unset, the POST carries `X-SMALL`, 1, 60, `STANDARD` and the empty monitor |
| WarehouseResource.CreateEchoRoundTrip | internal/provider/resource_snowflake_warehouse.go:139-207 | if the API echoes the payload, every created attribute reads back as configured, under the returned ID |
| WarehouseResource.ReadWarehouse | internal/provider/resource_snowflake_warehouse.go:172-207 | a failed GET clears the ID; a successful one sets all sixteen attributes from their API fields |
| WarehouseResource.DeleteWarehouse | internal/provider/resource_snowflake_warehouse.go:255-268 | the ID is cleared exactly when the delete succeeds (or was already empty), and an error is reported exactly when it fails |
| WarehouseResource.UpdateWarehouse | internal/provider/resource_snowflake_warehouse.go:209-253 | a PUT is sent exactly when one of the nine listed attributes changed |
| WarehouseResource.FlagChangesAreNotSent | internal/provider/resource_snowflake_warehouse.go:215 | a change only to the OVH flags or `initially_suspended` sends nothing |
| WarehouseResource.SizeChangeSendsOnlySize | internal/provider/resource_snowflake_warehouse.go:215-220 | a size change sends exactly the new size |
| WarehouseResource.SizeVocabulariesDiffer | internal/provider/resource_snowflake_warehouse.go:32-41 | the schema's hyphenated sizes and the test helper's sizes share only `SMALL`, `MEDIUM` and `LARGE` |
| AccountResource.Resolve | internal/provider/resource_snowflake_account.go:70-110 | each optional attribute left unset takes its schema default |
| AccountResource.ResolvedSettingsValid | internal/provider/resource_snowflake_account.go:25-110 | a configuration that passes the schema validators resolves to valid settings |
| AccountResource.RegionExamples | internal/provider/resource_snowflake_account.go:32-40 | regions are matched case-sensitively against the listed OVH regions |
| AccountResource.ReadFieldsOmit | internal/provider/resource_snowflake_account.go:182-218 | the read never sets the admin password or the tags through the field list |
| AccountResource.CreateAccount | internal/provider/resource_snowflake_account.go:149-180 | creation fails exactly when the POST fails and succeeds exactly when the reply has a string ID |
| AccountResource.CreateSendsPassword | internal/provider/resource_snowflake_account.go:153-168 | the POST carries the admin password |
| AccountResource.ReadAccount | internal/provider/resource_snowflake_account.go:182-218 | a failed GET clears the ID; a successful one sets the read attributes and keeps the stored admin password |
| AccountResource.CreateEchoRoundTrip | internal/provider/resource_snowflake_account.go:149-218 | if the API echoes the payload, every attribute read back equals the one sent |
| AccountResource.UpdateAccount | internal/provider/resource_snowflake_account.go:220-249 | a PUT is sent exactly when the comment, auto-suspend, auto-resume or tags changed |
| AccountResource.NonUpdatableChangesAreNotSent | internal/provider/resource_snowflake_account.go:226 | a change of the edition, admin fields, connectors or flags sends nothing |
| AccountResource.DeleteAccount | internal/provider/resource_snowflake_account.go:251-264 | the ID is cleared exactly when the delete succeeds (or was already empty) |
| ResourceMonitorResource.Resolve | internal/provider/resource_snowflake_resource_monitor.go:32-46 | the frequency defaults to `MONTHLY`; an unset credit quota reads as 0 |
| ResourceMonitorResource.ResolvedSettings | internal/provider/resource_snowflake_resource_monitor.go:32-83 | a valid configuration resolves to a listed frequency and triggers between 1 and 100, and its quota is at least 1 exactly when one is set |
| ResourceMonitorResource.CreateMonitor | internal/provider/resource_snowflake_resource_monitor.go:111-138 | creation fails exactly when the POST fails and succeeds exactly when the reply has a string ID |
| ResourceMonitorResource.UnsetQuotaIsSentAsZero | internal/provider/resource_snowflake_resource_monitor.go:115-126 | an unset credit quota is sent as 0, a value the schema would reject if configured |
| ResourceMonitorResource.ReadMonitor | internal/provider/resource_snowflake_resource_monitor.go:140-167 | a failed GET clears the ID; a successful one sets every read attribute from its API field |
| ResourceMonitorResource.CreateEchoRoundTrip | internal/provider/resource_snowflake_resource_monitor.go:111-167 | if the API echoes the payload, every attribute read back equals the one sent |
| ResourceMonitorResource.UpdateMonitor | internal/provider/resource_snowflake_resource_monitor.go:169-213 | a PUT is sent exactly when a listed attribute changed, and never carries the name |
| ResourceMonitorResource.UpdateCoversCreate | internal/provider/resource_snowflake_resource_monitor.go:175 | every created attribute except the name can be updated |
| ResourceMonitorResource.DeleteMonitor | internal/provider/resource_snowflake_resource_monitor.go:215-228 | the ID is cleared exactly when the delete succeeds (or was already empty) |
| GrantResource.GranteeNotRequired | internal/provider/resource_snowflake_grant.go:47-63 | a grant with neither role nor user passes the schema |
| GrantResource.Payload | internal/provider/resource_snowflake_grant.go:95-102 | the POST carries exactly the six grant fields, each set field with its configured value, unset strings empty and an unset grant option false |
| GrantResource.ReadGrant | internal/provider/resource_snowflake_grant.go:116-140 | a failed GET clears the ID; a successful one sets all nine attributes from their API fields |
| GrantResource.InputsAreRead | internal/provider/resource_snowflake_grant.go:116-140 | every input attribute of the grant is read back |
| GrantResource.CreateGrant | internal/provider/resource_snowflake_grant.go:91-114 | the POST body is the grant payload; a grant is created exactly when the POST succeeds with a string ID, and is then read under that ID |
| GrantResource.CreateEchoRoundTrip | internal/provider/resource_snowflake_grant.go:91-140 | if the API echoes the payload, every input reads back as sent |
| GrantResource.UpdateGrant | internal/provider/resource_snowflake_grant.go:142-144 | an update is a read, since every input forces replacement: a failed GET clears the id with the read diagnostic, and a successful one reads every attribute back from its API key |
| GrantResource.DeleteGrant | internal/provider/resource_snowflake_grant.go:146-159 | the ID is cleared exactly when the delete succeeds (or was already empty) |
| ColorPalette.JoinKeyInjective | website/tailwind.config.js:21-23 | under one colour, different shade names give different keys |
| ColorPalette.Flatten | website/tailwind.config.js:16-27 | a null palette flattens to nothing; entry-by-entry behaviour is given by AppendEntry and NestedKeys |
| ColorPalette.JoinAll | website/tailwind.config.js:21-23 | each nested key is prefixed with the colour, `DEFAULT` naming the colour itself, and nothing else is produced |
| ColorPalette.ValuesAreLeaves | website/tailwind.config.js:16-27 | every flattened value is a scalar leaf of the palette |
| ColorPalette.PrefixOnly | website/tailwind.config.js:16-27 | the flattening of a prefix of the entries depends only on that prefix |
| ColorPalette.AppendEntry | website/tailwind.config.js:16-27 | a further scalar entry overrides its key, a null entry adds nothing, and a nested entry adds its joined keys, later keys winning |
| ColorPalette.LastScalarWins | website/tailwind.config.js:16-27 | the last scalar given for a colour is its value |
| ColorPalette.NullEntryIsIgnored | website/tailwind.config.js:19-20 | a null colour flattens to nothing, since `typeof null` is `'object'` |
| ColorPalette.NestedKeys | website/tailwind.config.js:20-23 | each key of a nested palette appears under the joined key with its value |
| ColorPalette.CardDefaultExample | website/tailwind.config.js:103-106 | `card.DEFAULT` flattens to the key `card` |
| ColorPalette.SpectrumPurpleExample | website/tailwind.config.js:72-85 | `spectrum.purple.500` flattens to `spectrum-purple-500` |
| ColorPalette.AddVariables | website/tailwind.config.js:5-14 | each flattened colour becomes a `--` variable with its value, and every variable comes from a colour |
| ColorPalette.VariablesRoundTrip | website/tailwind.config.js:5-14 | stripping `--` from the variables gives back the flattened palette |

## Left out

- Network, clock, logging and `console` output: each fetch outcome, the current time and the key enumeration order are parameters, and log calls are dropped.
- The background write of stale-while-revalidate is modelled as finished in the returned store. The page sees the cached copy either way.
- `Promise.all` in install, the sync events and activation is modelled as sequential steps; the interleaving of concurrent steps is not modelled. In the `cache-cleanup` sync the dynamic and images sweeps run concurrently with size management of the same two caches, and the `cache-maintenance` sync does the same for the dynamic cache.
- CacheLifecycle.CacheCleanupSync: its freshness, subset and budget results are stated for the sweeps followed by size management, one cache operation after another, not for every interleaving of the concurrent promises.
- CacheLifecycle.CacheMaintenancePeriodicSync: likewise stated for the sequential order only.
- `self.skipWaiting`, `clients.claim` and the message port are observable only as flags and replies.
- The error and unhandled-rejection listeners only log.
- URL resolution: cache keys are the request URLs as written. The relative install URLs and the offline page path are not resolved against an origin.
- CacheStore.SortByAge: states that the result is sorted and a permutation of its input, but not that the sort is stable. The timestamps decide the eviction order, and equal timestamps are not told apart in any stated property.
- `parseInt` of the size and timestamp headers is modelled as an already parsed optional number. A missing or malformed header counts 0 in size management, and a missing timestamp makes an entry expired. A malformed non-empty timestamp is not representable: in the worker it parses to `NaN`, the age comparison is false, and such an entry never expires.
- The Cache API's other reasons to reject `cache.put` and `cache.addAll` (a `Vary: *` header, a non-http scheme, a non-GET request inside `addAll`) are not modelled. A put of a request that is not a GET, a 206 response, and an `addAll` batch that lists a URL twice are.
- CacheStrategies.HandleFetch: its own contract states only which requests are intercepted. What it answers is stated by the lemmas about it (AssetRoundTrip, OfflineNavigationGetsOfflinePage, UnanswerableRequestGets503, DocsOfflineNavigationGetsNoResponse).
- The plugin-framework resource and data-source constructors registered in `provider.go` are modelled as a list of names. Their schemas and CRUD handlers are not part of this model; the SDK-v2 resources are.
- The provider's schema and `req.Config.Get` diagnostics are left out: the configured model is an input.
- `provider.go` and `config.go` each declare a configuration type, and they are modelled separately.
- `ovh.NewClient`, the DSN builder and `sql.Open` are opaque function parameters, and so is the OVH `GET /me` call of `ValidateConfiguration`, whose failure only logs.
- The accounts data source's ID is the current Unix time, which is an effect and is left out. The listed accounts are modelled.
- Terraform's handling of `ForceNew`, `Computed` and the plan/apply cycle is left out. A resource's state is a map from attribute to JSON value, and `HasChange` is a set of changed attribute names.
- ColorPalette.Flatten: states only that a null palette flattens to nothing. Its behaviour is stated entry by entry by AppendEntry, NestedKeys and the lemmas built on them.
- Palette children that are `undefined`, arrays or functions are not modelled: the palette is strings, nulls and nested objects.
- The insertion order of JavaScript object keys is not modelled. Objects are maps, and the flattening's right-biased `Object.assign` is modelled as later entries winning.
- Go's byte-versus-rune difference in `isValidWarehouseName` is not modelled: names are sequences of characters. Any name with a non-ASCII character is rejected either way.

The comment above `addCacheTimestamp` (website/static/sw.js:65) says entries get a timestamp for expiration management, and the expiry check treats an entry without one as expired (website/static/sw.js:81). The install handler and the `CACHE_URLS` message do not stamp, and the model follows the code (see Findings).

## Findings

| source | as written | input that shows it | evidently intended | confidence | as-written member | corrected member |
|---|---|---|---|---|---|---|
| website/static/sw.js:338-340 | install primes the dynamic cache with `cache.addAll`, which stores the responses without the `sw-cache-timestamp` header, so they count as expired | install with every essential URL fetched with an ok, complete response, then any `cache-cleanup` sweep of the dynamic cache: the offline page has no timestamp and is deleted | primed entries carry the install time like every other write, and the offline page survives the dynamic maximum age | not executed | CacheLifecycle.PrimedOfflinePageSweptAway | CacheLifecycle.PrimedOfflinePageSurvivesSweep |
| website/static/sw.js:303-324 | stale-while-revalidate turns a failed fetch into `null` and returns it when nothing is cached, so the fetch handler's offline fallback never runs | a navigation to `/docs/intro` while offline, with only the offline page cached | the failure reaches the fetch handler, which serves the cached offline page | not executed | CacheStrategies.DocsIntroOfflineAsWritten | CacheStrategies.DocsIntroOfflineCorrected |
| internal/provider/provider.go:220-222 | a set private key only assigns `gosnowflake.AuthTypeSnowflake`, the first constant of the authenticator enumeration and so its zero value; the key itself is never placed in the driver configuration | `SNOWFLAKE_PRIVATE_KEY` set and no password: the driver is configured for user-and-password authentication with an empty password | a set private key selects key-pair (JWT) authentication and is handed to the driver | not executed; medium, since the intent is read from the guard on the key | ProviderConfigure.DriverConfigFacts | ProviderConfigure.KeyPairReachesDriver |

=== FILE: account_resource.dfy ===
/**
 * The SDK-v2 account resource (internal/provider/resource_snowflake_account.go):
 * schema constraints and defaults, and the payloads of its handlers.
 */
module AccountResource {
  import opened Wrappers
  import opened Json
  import opened ResourceCrud

  const Regions: set<string> := {"GRA", "SBG", "RBX", "BHS", "WAW", "DE", "UK", "SGP", "SYD", "US-EAST", "US-WEST"}
  const Editions: set<string> := {"STANDARD", "ENTERPRISE", "BUSINESS_CRITICAL", "VPS"}
  const Connectors: set<string> := {"ethereum", "bitcoin", "polygon", "avalanche", "solana"}

  /** The user's configuration; required attributes are plain, optional ones `None` when unset. */
  datatype AccountConfig = AccountConfig(
    name: string, region: string, edition: string,
    adminName: string, adminPassword: string, adminEmail: string,
    comment: Option<string>, autoSuspend: Option<int>, autoResume: Option<bool>, web3Analytics: Option<bool>,
    blockchainConnectors: seq<string>, costOptimization: Option<bool>, privateConnectivity: Option<bool>,
    tags: Option<map<string, string>>)

  /** The values `d.Get` returns, defaults applied. */
  datatype AccountSettings = AccountSettings(
    name: string, region: string, edition: string,
    adminName: string, adminPassword: string, adminEmail: string,
    comment: string, autoSuspend: int, autoResume: bool, web3Analytics: bool,
    blockchainConnectors: seq<string>, costOptimization: bool, privateConnectivity: bool,
    tags: map<string, string>)

  /** The schema validators. */
  predicate ValidConfig(c: AccountConfig) {
    && c.region in Regions
    && c.edition in Editions
    && (c.autoSuspend.Some? ==> 1 <= c.autoSuspend.value <= 10080)
    && (forall i :: 0 <= i < |c.blockchainConnectors| ==> c.blockchainConnectors[i] in Connectors)
  }

  predicate ValidSettings(s: AccountSettings) {
    && s.region in Regions
    && s.edition in Editions
    && 1 <= s.autoSuspend <= 10080
    && (forall i :: 0 <= i < |s.blockchainConnectors| ==> s.blockchainConnectors[i] in Connectors)
  }

  function Resolve(c: AccountConfig): (s: AccountSettings)
    ensures c.autoSuspend.None? ==> s.autoSuspend == 60
    ensures c.autoResume.None? ==> s.autoResume
    ensures c.web3Analytics.None? ==> !s.web3Analytics
    ensures c.costOptimization.None? ==> s.costOptimization
    ensures c.privateConnectivity.None? ==> !s.privateConnectivity
    ensures c.comment.None? ==> s.comment == ""
  {
    AccountSettings(
      c.name, c.region, c.edition, c.adminName, c.adminPassword, c.adminEmail,
      c.comment.GetOr(""), c.autoSuspend.GetOr(60), c.autoResume.GetOr(true), c.web3Analytics.GetOr(false),
      c.blockchainConnectors, c.costOptimization.GetOr(true), c.privateConnectivity.GetOr(false), c.tags.GetOr(map[]))
  }

  /** The 60-minute default lies inside the accepted range of one minute to one week. */
  lemma ResolvedSettingsValid(c: AccountConfig)
    requires ValidConfig(c)
    ensures ValidSettings(Resolve(c))
  {
  }

  /** The region list is case-sensitive and closed: lower-case codes and unlisted regions are refused. */
  lemma RegionExamples()
    ensures "GRA" in Regions && "US-EAST" in Regions
    ensures "gra" !in Regions && "US-CENTRAL" !in Regions
  {
  }

  function Strs(xs: seq<string>): seq<Json> {
    seq(|xs|, i requires 0 <= i < |xs| => JStr(xs[i]))
  }

  function Values(s: AccountSettings): Object {
    map[
      "name" := JStr(s.name), "region" := JStr(s.region), "edition" := JStr(s.edition),
      "admin_name" := JStr(s.adminName), "admin_password" := JStr(s.adminPassword), "admin_email" := JStr(s.adminEmail),
      "comment" := JStr(s.comment), "auto_suspend" := JInt(s.autoSuspend), "auto_resume" := JBool(s.autoResume),
      "web3_analytics" := JBool(s.web3Analytics), "blockchain_connectors" := JList(Strs(s.blockchainConnectors)),
      "cost_optimization" := JBool(s.costOptimization), "private_connectivity" := JBool(s.privateConnectivity),
      "tags" := JObject(map k | k in s.tags :: JStr(s.tags[k]))]
  }

  /** The attributes a read copies, in source order; the first twelve are also sent on create. */
  const ReadFields: seq<FieldMap> := [
    FieldMap("name", "name"), FieldMap("region", "region"), FieldMap("edition", "edition"),
    FieldMap("admin_name", "adminName"), FieldMap("admin_email", "adminEmail"), FieldMap("comment", "comment"),
    FieldMap("auto_suspend", "autoSuspend"), FieldMap("auto_resume", "autoResume"),
    FieldMap("web3_analytics", "web3Analytics"), FieldMap("blockchain_connectors", "blockchainConnectors"),
    FieldMap("cost_optimization", "costOptimization"), FieldMap("private_connectivity", "privateConnectivity"),
    FieldMap("account_locator", "accountLocator"), FieldMap("account_url", "accountUrl"),
    FieldMap("organization_name", "organizationName"), FieldMap("status", "status"), FieldMap("created_on", "createdOn")
  ]

  /** The create payload's fields: the twelve read-back inputs, then the password and the tags. */
  const CreateFields: seq<FieldMap> :=
    ReadFields[..12] + [FieldMap("admin_password", "adminPassword"), FieldMap("tags", "tags")]

  /** The four attributes an update sends. */
  const UpdateFields: seq<FieldMap> := [
    FieldMap("comment", "comment"), FieldMap("auto_suspend", "autoSuspend"),
    FieldMap("auto_resume", "autoResume"), FieldMap("tags", "tags")
  ]

  const Kind: string := "account"

  // Distinctness of a literal table is proved piecewise: three slices and their pairwise disjointness.

  lemma ReadFieldsPiece0()
    ensures DistinctFields(ReadFields[..6])
  {
  }

  lemma ReadFieldsPiece1()
    ensures DistinctFields(ReadFields[6..12])
  {
  }

  lemma ReadFieldsPiece2()
    ensures DistinctFields(ReadFields[12..])
  {
  }

  lemma ReadFieldsApart01()
    ensures Disjoint(ReadFields[..6], ReadFields[6..12])
  {
  }

  lemma ReadFieldsApart02()
    ensures Disjoint(ReadFields[..6], ReadFields[12..])
  {
  }

  lemma ReadFieldsApart12()
    ensures Disjoint(ReadFields[6..12], ReadFields[12..])
  {
  }

  lemma ReadFieldsDistinct()
    ensures DistinctFields(ReadFields)
  {
    ReadFieldsPiece0(); ReadFieldsPiece1(); ReadFieldsPiece2();
    ReadFieldsApart01(); ReadFieldsApart02(); ReadFieldsApart12();
    ChunkedDistinct(ReadFields, 6, 12);
  }

  /** Neither the password nor the tags are among the read fields. */
  lemma ReadFieldsOmit()
    ensures forall i :: 0 <= i < |ReadFields| ==> ReadFields[i].attr != "admin_password" && ReadFields[i].attr != "tags"
    ensures forall i :: 0 <= i < |ReadFields| ==> ReadFields[i].apiKey != "adminPassword" && ReadFields[i].apiKey != "tags"
  {
  }

  lemma CreateFieldsDistinct()
    ensures DistinctFields(CreateFields)
    ensures |CreateFields| == 14
    ensures forall i :: 0 <= i < 12 ==> CreateFields[i] == ReadFields[i]
  {
    ReadFieldsDistinct();
    ReadFieldsOmit();
    PrefixDistinct(ReadFields, 12);
    AppendDistinct(ReadFields[..12], FieldMap("admin_password", "adminPassword"));
    AppendDistinct(ReadFields[..12] + [FieldMap("admin_password", "adminPassword")], FieldMap("tags", "tags"));
    assert CreateFields == ReadFields[..12] + [FieldMap("admin_password", "adminPassword")] + [FieldMap("tags", "tags")];
  }

  lemma CreateFieldsAt()
    ensures CreateFields[12] == FieldMap("admin_password", "adminPassword")
  {
  }

  function CreateAccount(c: AccountConfig, data: ResourceData, posted: Result<Object, string>, fetched: Result<Object, string>): (r: CreateOutcome)
    ensures r.CreateFailed? <==> posted.Err?
    ensures r.Created? <==> posted.Ok? && Get(posted.value, "id").JStr?
    ensures r.sent == FullPayload(CreateFields, Values(Resolve(c)))
  {
    Create(Kind, data, CreateFields, Values(Resolve(c)), posted, fetched, ReadFields, true)
  }

  lemma PasswordValue(s: AccountSettings)
    ensures Get(Values(s), "admin_password") == JStr(s.adminPassword)
  {
  }

  /** The password is sent on create under `adminPassword`. */
  lemma CreateSendsPassword(s: AccountSettings)
    ensures Get(FullPayload(CreateFields, Values(s)), "adminPassword") == JStr(s.adminPassword)
  {
    CreateFieldsAt();
    CreateFieldsDistinct();
    PasswordValue(s);
    FullPayloadEntry(CreateFields, Values(s), 12, "admin_password", "adminPassword");
  }

  /**
   * The read handler. It never writes `admin_password`, so the password in
   * the state is whatever the configuration put there.
   */
  function ReadAccount(data: ResourceData, fetched: Result<Object, string>): (r: Outcome)
    ensures fetched.Err? ==> r.data.id == "" && r.diag == Some("failed to read Snowflake " + Kind + ": " + fetched.error)
    ensures fetched.Ok? ==> r.data.id == data.id && r.diag.None?
    ensures fetched.Ok? ==> forall i :: 0 <= i < |ReadFields| ==>
      ReadFields[i].attr in r.data.state && r.data.state[ReadFields[i].attr] == Get(fetched.value, ReadFields[i].apiKey)
    ensures "admin_password" in data.state ==> "admin_password" in r.data.state && r.data.state["admin_password"] == data.state["admin_password"]
  {
    ReadFieldsDistinct();
    ReadFieldsOmit();
    NotInAttrs(ReadFields, "admin_password");
    assert "admin_password"[0] != "tags"[0];
    Read(Kind, data, fetched, ReadFields, true)
  }

  /**
   * Round trip: when the API echoes the create payload, the read that follows
   * gives each of the twelve read-back inputs the value sent; the password
   * keeps its configured value although the API is never asked for it.
   */
  lemma CreateEchoRoundTrip(s: AccountSettings, data: ResourceData, i: nat)
    requires i < 12
    ensures var obj := FullPayload(CreateFields, Values(s));
      var r := ReadAccount(data, Ok(obj));
      && CreateFields[i].attr in r.data.state
      && r.data.state[CreateFields[i].attr] == Get(Values(s), CreateFields[i].attr)
  {
    CreateFieldsDistinct();
    ReadFieldsDistinct();
    EchoReadBack(Kind, data, CreateFields, ReadFields, Values(s), true, i);
  }

  function UpdateAccount(data: ResourceData, changed: set<string>, s: AccountSettings, putError: Option<string>, fetched: Result<Object, string>): (r: UpdateOutcome)
    ensures r.sent.Some? <==> exists i :: 0 <= i < |UpdateFields| && UpdateFields[i].attr in changed
  {
    Update(Kind, data, UpdateFields, changed, Values(s), putError, fetched, ReadFields, true)
  }

  lemma NoUpdatableChange(changed: set<string>)
    requires "comment" !in changed && "auto_suspend" !in changed && "auto_resume" !in changed && "tags" !in changed
    ensures !AnyChanged(UpdateFields, changed)
  {
    forall i | 0 <= i < |UpdateFields|
      ensures UpdateFields[i].attr !in changed
    {
    }
  }

  /**
   * `edition`, `admin_name`, `admin_email`, the feature flags and the
   * connectors are neither replaced on change nor sent by an update: a change
   * to them alone makes no API call.
   */
  lemma NonUpdatableChangesAreNotSent(data: ResourceData, changed: set<string>, s: AccountSettings, putError: Option<string>, fetched: Result<Object, string>)
    requires changed <= {"edition", "admin_name", "admin_password", "admin_email", "web3_analytics",
      "blockchain_connectors", "cost_optimization", "private_connectivity"}
    ensures UpdateAccount(data, changed, s, putError, fetched).sent.None?
  {
    NoUpdatableChange(changed);
  }

  function DeleteAccount(data: ResourceData, deleteError: Option<string>): (r: Outcome)
    ensures r.data.id == "" <==> deleteError.None? || data.id == ""
    ensures r.diag.Some? <==> deleteError.Some?
  {
    Delete(Kind, data, deleteError)
  }
}

=== FILE: accounts_data_source.dfy ===
/**
 * The accounts data source (internal/provider/data_source_snowflake_accounts.go):
 * list the accounts, keep those matching the optional region and status
 * filters, and project each kept account onto the data source's attributes.
 */
module AccountsDataSource {
  import opened Wrappers
  import opened Json

  /** What one account does in the filter loop. */
  datatype Verdict = Keep | Skip | Panic

  /**
   * The loop body. A non-empty filter asserts the account's field is a
   * string, which panics on anything else (an absent key included); the
   * status is not looked at once the region has excluded the account.
   */
  function Judge(a: Object, region: string, status: string): Verdict {
    if region != "" && !Get(a, "region").JStr? then Panic
    else if region != "" && Get(a, "region").s != region then Skip
    else if status != "" && !Get(a, "status").JStr? then Panic
    else if status != "" && Get(a, "status").s != status then Skip
    else Keep
  }

  /** The filters as a predicate: each non-empty filter equals the account's string field. */
  predicate Matches(a: Object, region: string, status: string) {
    && (region != "" ==> Get(a, "region") == JStr(region))
    && (status != "" ==> Get(a, "status") == JStr(status))
  }

  /** The loop panics on `a` exactly when a filter it reaches meets a non-string field. */
  predicate Panics(a: Object, region: string, status: string) {
    || (region != "" && !Get(a, "region").JStr?)
    || ((Get(a, "region") == JStr(region) || region == "") && status != "" && !Get(a, "status").JStr?)
  }

  lemma JudgeAgrees(a: Object, region: string, status: string)
    ensures Judge(a, region, status) == Panic <==> Panics(a, region, status)
    ensures Judge(a, region, status) == Keep <==> Matches(a, region, status)
  {
  }

  datatype Filtered = Panicked | Kept(accounts: seq<Object>)

  /** The filter loop over the accounts in order. */
  function Filter(accounts: seq<Object>, region: string, status: string): (r: Filtered)
    ensures r.Kept? ==> |r.accounts| <= |accounts|
    decreases |accounts|
  {
    if accounts == [] then Kept([])
    else
      match Filter(accounts[1..], region, status)
      case Panicked => Panicked
      case Kept(rest) =>
        match Judge(accounts[0], region, status)
        case Panic => Panicked
        case Skip => Kept(rest)
        case Keep => Kept([accounts[0]] + rest)
  }

  /** The loop panics exactly when some account panics it; otherwise it keeps exactly the matching accounts. */
  lemma {:induction false} FilterCorrect(accounts: seq<Object>, region: string, status: string)
    ensures Filter(accounts, region, status).Panicked? <==> exists i :: 0 <= i < |accounts| && Panics(accounts[i], region, status)
    ensures Filter(accounts, region, status).Kept? ==>
      forall a :: a in Filter(accounts, region, status).accounts <==> a in accounts && Matches(a, region, status)
    decreases |accounts|
  {
    if accounts != [] {
      var tail := accounts[1..];
      FilterCorrect(tail, region, status);
      JudgeAgrees(accounts[0], region, status);
      assert forall i :: 0 <= i < |tail| ==> tail[i] == accounts[i + 1];
      if exists i :: 0 <= i < |tail| && Panics(tail[i], region, status) {
        var i :| 0 <= i < |tail| && Panics(tail[i], region, status);
        assert Panics(accounts[i + 1], region, status);
      }
      if exists i :: 0 <= i < |accounts| && Panics(accounts[i], region, status) {
        var i :| 0 <= i < |accounts| && Panics(accounts[i], region, status);
        if i > 0 {
          assert Panics(tail[i - 1], region, status);
        }
      }
      assert forall a :: a in accounts <==> a == accounts[0] || a in tail;
    }
  }

  /** The accounts that satisfy both filters, in their original order and multiplicity. */
  function Matching(accounts: seq<Object>, region: string, status: string): (r: seq<Object>)
    ensures |r| <= |accounts|
  {
    if accounts == [] then []
    else (if Matches(accounts[0], region, status) then [accounts[0]] else []) + Matching(accounts[1..], region, status)
  }

  /** When no account panics the loop, it keeps exactly the matching accounts, in order, each as often as it occurs. */
  lemma {:induction false} FilterKeepsMatching(accounts: seq<Object>, region: string, status: string)
    ensures (forall i :: 0 <= i < |accounts| ==> !Panics(accounts[i], region, status)) ==>
      Filter(accounts, region, status) == Kept(Matching(accounts, region, status))
    decreases |accounts|
  {
    if accounts != [] && forall i :: 0 <= i < |accounts| ==> !Panics(accounts[i], region, status) {
      var tail := accounts[1..];
      assert forall i :: 0 <= i < |tail| ==> tail[i] == accounts[i + 1];
      FilterKeepsMatching(tail, region, status);
      JudgeAgrees(accounts[0], region, status);
      assert !Panics(accounts[0], region, status);
    }
  }

  /** With neither filter set, every account is kept, in order. */
  lemma {:induction false} NoFilterKeepsAll(accounts: seq<Object>)
    ensures Filter(accounts, "", "") == Kept(accounts)
    decreases |accounts|
  {
    if accounts != [] {
      NoFilterKeepsAll(accounts[1..]);
      assert [accounts[0]] + accounts[1..] == accounts;
    }
  }

  /** The attributes every listed account carries. */
  const ProjectedKeys: set<string> := {"id", "name", "region", "edition", "url", "status", "created_on"}

  /** The API key an attribute is read from: `created_on` comes from `createdOn`, the rest keep their names. */
  function SourceKey(k: string): string {
    if k == "created_on" then "createdOn" else k
  }

  /** The data source's view of one account: seven fields, `createdOn` renamed, and the tags when they are an object. */
  function Project(a: Object): (r: Object)
    ensures "tags" in r <==> Get(a, "tags").JObject?
    ensures "tags" in r ==> r["tags"] == Get(a, "tags")
    ensures r.Keys - {"tags"} == ProjectedKeys
    ensures forall k :: k in ProjectedKeys ==> k in r && r[k] == Get(a, SourceKey(k))
  {
    assert "tags" !in ProjectedKeys;
    var base := map k | k in ProjectedKeys :: Get(a, SourceKey(k));
    if Get(a, "tags").JObject? then base["tags" := Get(a, "tags")] else base
  }

  /** Each projected attribute, spelled out. */
  lemma ProjectFields(a: Object)
    ensures Get(Project(a), "created_on") == Get(a, "createdOn")
    ensures Get(Project(a), "id") == Get(a, "id") && Get(Project(a), "name") == Get(a, "name")
    ensures Get(Project(a), "region") == Get(a, "region") && Get(Project(a), "edition") == Get(a, "edition")
    ensures Get(Project(a), "url") == Get(a, "url") && Get(Project(a), "status") == Get(a, "status")
  {
  }

  /** The outcome of the read: a diagnostic, a panic, or the projected list. */
  datatype ReadOutcome = FetchFailed(diag: string) | ReadPanicked | Listed(accounts: seq<Object>)

  /** The read handler; `fetched` is the outcome of the GET of the account list. */
  function ReadAccounts(fetched: Result<seq<Object>, string>, region: string, status: string): (r: ReadOutcome)
    ensures fetched.Err? <==> r.FetchFailed?
    ensures fetched.Err? ==> r.diag == "failed to read Snowflake accounts: " + fetched.error
    ensures r.ReadPanicked? <==> fetched.Ok? && exists i :: 0 <= i < |fetched.value| && Panics(fetched.value[i], region, status)
    ensures r.Listed? ==>
      var k := Matching(fetched.value, region, status);
      |r.accounts| == |k| && forall i :: 0 <= i < |k| ==> r.accounts[i] == Project(k[i])
    ensures r.Listed? ==> forall i :: 0 <= i < |r.accounts| ==> "created_on" in r.accounts[i] && "id" in r.accounts[i]
  {
    match fetched
    case Err(e) => FetchFailed("failed to read Snowflake accounts: " + e)
    case Ok(accounts) =>
      FilterCorrect(accounts, region, status);
      FilterKeepsMatching(accounts, region, status);
      match Filter(accounts, region, status)
      case Panicked => ReadPanicked
      case Kept(kept) => Listed(seq(|kept|, i requires 0 <= i < |kept| => Project(kept[i])))
  }

  /**
   * Filter and projection together: every listed account carries the region
   * and status the filters asked for, and each comes from a fetched account.
   */
  lemma ListedAccountsMatch(accounts: seq<Object>, region: string, status: string)
    ensures var r := ReadAccounts(Ok(accounts), region, status);
      r.Listed? ==> forall i :: 0 <= i < |r.accounts| ==>
        && (region != "" ==> r.accounts[i]["region"] == JStr(region))
        && (status != "" ==> r.accounts[i]["status"] == JStr(status))
        && exists j :: 0 <= j < |accounts| && r.accounts[i] == Project(accounts[j])
  {
    FilterCorrect(accounts, region, status);
    var r := ReadAccounts(Ok(accounts), region, status);
    if r.Listed? {
      var kept := Filter(accounts, region, status).accounts;
      forall i | 0 <= i < |r.accounts|
        ensures region != "" ==> r.accounts[i]["region"] == JStr(region)
        ensures status != "" ==> r.accounts[i]["status"] == JStr(status)
        ensures exists j :: 0 <= j < |accounts| && r.accounts[i] == Project(accounts[j])
      {
        assert r.accounts[i] == Project(kept[i]);
        assert kept[i] in kept;
        assert kept[i] in accounts && Matches(kept[i], region, status);
        var j :| 0 <= j < |accounts| && accounts[j] == kept[i];
      }
    }
  }

  /** A region filter skips an account of another region even when its status is not a string. */
  lemma RegionSkipShieldsStatus()
    ensures Filter([map["region" := JStr("GRA"), "status" := JInt(1)]], "SBG", "ACTIVE") == Kept([])
    ensures Filter([map["region" := JStr("GRA"), "status" := JInt(1)]], "GRA", "ACTIVE") == Panicked
  {
  }
}

=== FILE: cache_lifecycle.dfy ===
/**
 * Life-cycle events of the service worker (website/static/sw.js): install-time
 * priming, activation-time pruning, the control messages from the page and
 * the two maintenance events. Events that run several cache operations
 * concurrently are modelled as running them one after another.
 */
module CacheLifecycle {
  import opened Wrappers
  import opened CachePolicy
  import opened CacheStore

  /** Routes primed into the dynamic cache at install time. */
  const EssentialUrls: seq<string> := [
    "/terraform-provider-ovh-snowflake/",
    "/terraform-provider-ovh-snowflake/docs/intro",
    "/terraform-provider-ovh-snowflake/docs/getting-started/installation",
    "/terraform-provider-ovh-snowflake/docs/getting-started/authentication",
    "/terraform-provider-ovh-snowflake/manifest.json",
    OfflinePageUrl
  ]

  /** Font, icon and brand assets primed into the static cache at install time. */
  const StaticAssets: seq<string> := [
    "/fonts/Mona-Sans.var.woff2",
    "/favicon.ico",
    "/img/favicon-16x16.png",
    "/img/favicon-32x32.png",
    "/img/icon-192x192.png",
    "/img/icon-384x384.png",
    "/img/icon-512x512.png",
    "/img/apple-touch-icon.png",
    "/img/icon.svg",
    "/img/transparent-icon.png",
    "/img/spectrumwebco-light.png",
    "/img/spectrumwebco-dark.png",
    "/img/logo.svg",
    "/img/logo-dark.svg"
  ]

  /** The cache names of the current version; activation deletes every other cache. */
  const ValidCacheNames: set<string> := {ProviderCacheName, StaticCacheName, DynamicCacheName, ApiCacheName, ImagesCacheName}

  // ---------------------------------------------------------------------------
  // store frames

  /** `r` still holds every cache of `store`, and every cache outside `touched` is unchanged. */
  predicate Frame(store: Store, r: Store, touched: set<string>) {
    && (forall n :: n in store ==> n in r)
    && (forall n :: n in store && n !in touched ==> r[n] == store[n])
  }

  /** Frames compose: the touched sets add up. */
  lemma FrameTrans(a: Store, b: Store, c: Store, t1: set<string>, t2: set<string>)
    requires Frame(a, b, t1) && Frame(b, c, t2)
    ensures Frame(a, c, t1 + t2)
  {
  }

  /** Every entry of `q` is an entry of `p`, unchanged. */
  predicate SubPartition(q: Partition, p: Partition) {
    forall k :: k in q ==> k in p && q[k] == p[k]
  }

  // ---------------------------------------------------------------------------
  // cache.addAll

  /** Every fetch produced an ok response that is complete: `addAll` rejects a 206 response. */
  predicate AllFetchedOk(outcomes: seq<NetOutcome>) {
    forall i :: 0 <= i < |outcomes| ==> outcomes[i].Fetched? && outcomes[i].resp.Ok() && outcomes[i].resp.status != 206
  }

  /** `addAll` accepts the batch: every response is ok and complete, and no URL is requested twice. */
  predicate AddAllAccepts(urls: seq<string>, outcomes: seq<NetOutcome>) {
    AllFetchedOk(outcomes) && Distinct(urls)
  }

  /** Stores each fetched response under its URL with timestamp `stamp`. */
  function PutAll(p: Partition, urls: seq<string>, outcomes: seq<NetOutcome>, stamp: Option<int>): (r: Partition)
    requires |outcomes| == |urls| && AllFetchedOk(outcomes)
    ensures forall k :: k in r <==> k in p || k in urls
    ensures forall k :: k in p && k !in urls ==> r[k] == p[k]
    ensures forall k :: k in urls ==> r[k].timestamp == stamp
    ensures forall k :: k in urls ==> exists j :: 0 <= j < |urls| && urls[j] == k && r[k].response == outcomes[j].resp
    decreases |urls|
  {
    if urls == [] then p
    else
      var r := PutAll(p[urls[0] := Entry(stamp, outcomes[0].resp)], urls[1..], outcomes[1..], stamp);
      assert forall k :: k in urls[1..] ==> k in urls;
      assert forall j :: 0 <= j < |urls| - 1 ==> urls[1..][j] == urls[j + 1] && outcomes[1..][j] == outcomes[j + 1];
      r
  }

  /**
   * `cache.addAll(urls)`: all-or-nothing. When every fetch produced an ok,
   * complete response and no URL occurs twice, every one is stored;
   * otherwise the call rejects and nothing is stored. The platform
   * stores the raw responses, so `stamp` is `None` in the worker as written.
   */
  function AddAll(p: Partition, urls: seq<string>, outcomes: seq<NetOutcome>, stamp: Option<int>): (r: Result<Partition, string>)
    requires |outcomes| == |urls|
    ensures r.Ok? <==> AddAllAccepts(urls, outcomes)
    ensures r.Ok? ==> forall k :: k in r.value <==> k in p || k in urls
    ensures r.Ok? ==> forall k :: k in p && k !in urls ==> r.value[k] == p[k]
    ensures r.Ok? ==> forall k :: k in urls ==> r.value[k].timestamp == stamp
  {
    if AddAllAccepts(urls, outcomes) then Ok(PutAll(p, urls, outcomes, stamp)) else Err("addAll rejected")
  }

  /** Every URL of `urls` is stored in `p` with timestamp `stamp`. */
  predicate Primed(p: Partition, urls: seq<string>, stamp: Option<int>) {
    forall k :: k in urls ==> k in p && p[k].timestamp == stamp
  }

  /** Applies an `addAll` to the named cache, which is opened first. */
  function AddAllTo(store: Store, name: string, urls: seq<string>, outcomes: seq<NetOutcome>, stamp: Option<int>): (r: Store)
    requires |outcomes| == |urls|
    ensures name in r && Frame(store, r, {name})
    ensures AddAllAccepts(urls, outcomes) ==> Primed(r[name], urls, stamp)
    ensures !AddAllAccepts(urls, outcomes) ==> r == Open(store, name)
  {
    var s := Open(store, name);
    match AddAll(s[name], urls, outcomes, stamp)
    case Ok(p) => s[name := p]
    case Err(_) => s
  }

  // ---------------------------------------------------------------------------
  // install

  /** No install-time route is listed twice, so `addAll` never rejects the list for a duplicate. */
  lemma EssentialUrlsDistinct()
    ensures Distinct(EssentialUrls)
  {
  }

  /** Two lists without duplicates and without a common URL concatenate to one without duplicates. */
  lemma ConcatDistinct(a: seq<string>, b: seq<string>)
    requires Distinct(a) && Distinct(b)
    requires forall x :: x in a ==> x !in b
    ensures Distinct(a + b)
  {
    forall i, j | 0 <= i < j < |a + b|
      ensures (a + b)[i] != (a + b)[j]
    {
      if j >= |a| && i < |a| {
        assert (a + b)[i] in a && (a + b)[j] in b;
      }
    }
  }

  lemma StaticAssetsPiecesDistinct()
    ensures Distinct(StaticAssets[..5]) && Distinct(StaticAssets[5..10]) && Distinct(StaticAssets[10..])
  {
  }

  lemma StaticAssetsPiecesDisjoint()
    ensures forall x :: x in StaticAssets[..5] ==> x !in StaticAssets[5..10] + StaticAssets[10..]
    ensures forall x :: x in StaticAssets[5..10] ==> x !in StaticAssets[10..]
  {
  }

  /** No static asset is listed twice. */
  lemma StaticAssetsDistinct()
    ensures Distinct(StaticAssets)
  {
    StaticAssetsPiecesDistinct();
    StaticAssetsPiecesDisjoint();
    ConcatDistinct(StaticAssets[5..10], StaticAssets[10..]);
    ConcatDistinct(StaticAssets[..5], StaticAssets[5..10] + StaticAssets[10..]);
    assert StaticAssets == StaticAssets[..5] + (StaticAssets[5..10] + StaticAssets[10..]);
  }

  datatype InstallResult = InstallResult(store: Store, skipWaiting: bool)

  /** Primes the dynamic cache with one list and then the static cache with another. */
  function PrimeBoth(
    store: Store, dynamicUrls: seq<string>, dynamicOutcomes: seq<NetOutcome>,
    staticUrls: seq<string>, staticOutcomes: seq<NetOutcome>, stamp: Option<int>
  ): (r: InstallResult)
    requires |dynamicOutcomes| == |dynamicUrls| && |staticOutcomes| == |staticUrls|
    ensures r.skipWaiting <==> AddAllAccepts(dynamicUrls, dynamicOutcomes) && AddAllAccepts(staticUrls, staticOutcomes)
    ensures DynamicCacheName in r.store && StaticCacheName in r.store
    ensures Frame(store, r.store, {DynamicCacheName, StaticCacheName})
    ensures AddAllAccepts(dynamicUrls, dynamicOutcomes) ==> Primed(r.store[DynamicCacheName], dynamicUrls, stamp)
    ensures AddAllAccepts(staticUrls, staticOutcomes) ==> Primed(r.store[StaticCacheName], staticUrls, stamp)
  {
    assert DynamicCacheName[14] != StaticCacheName[14];
    var s := AddAllTo(store, DynamicCacheName, dynamicUrls, dynamicOutcomes, stamp);
    var s' := AddAllTo(s, StaticCacheName, staticUrls, staticOutcomes, stamp);
    InstallResult(s', AddAllAccepts(dynamicUrls, dynamicOutcomes) && AddAllAccepts(staticUrls, staticOutcomes))
  }

  /** Install with a given stamp for the primed entries; the worker as written passes none. */
  function InstallWith(store: Store, essential: seq<NetOutcome>, assets: seq<NetOutcome>, stamp: Option<int>): (r: InstallResult)
    requires |essential| == |EssentialUrls| && |assets| == |StaticAssets|
    ensures r.skipWaiting <==> AllFetchedOk(essential) && AllFetchedOk(assets)
    ensures DynamicCacheName in r.store && StaticCacheName in r.store
    ensures Frame(store, r.store, {DynamicCacheName, StaticCacheName})
    ensures AllFetchedOk(essential) ==> Primed(r.store[DynamicCacheName], EssentialUrls, stamp)
    ensures AllFetchedOk(assets) ==> Primed(r.store[StaticCacheName], StaticAssets, stamp)
  {
    EssentialUrlsDistinct();
    StaticAssetsDistinct();
    PrimeBoth(store, EssentialUrls, essential, StaticAssets, assets, stamp)
  }

  /** The install handler as written: primes both caches with unstamped responses. */
  function Install(store: Store, essential: seq<NetOutcome>, assets: seq<NetOutcome>): (r: InstallResult)
    requires |essential| == |EssentialUrls| && |assets| == |StaticAssets|
    ensures DynamicCacheName in r.store
    ensures AllFetchedOk(essential) ==> Primed(r.store[DynamicCacheName], EssentialUrls, None)
  {
    InstallWith(store, essential, assets, None)
  }

  /** The install handler with the primed entries stamped at install time `now`. */
  function InstallStamped(store: Store, essential: seq<NetOutcome>, assets: seq<NetOutcome>, now: int): (r: InstallResult)
    requires |essential| == |EssentialUrls| && |assets| == |StaticAssets|
    ensures DynamicCacheName in r.store
    ensures AllFetchedOk(essential) ==> Primed(r.store[DynamicCacheName], EssentialUrls, Some(now))
  {
    InstallWith(store, essential, assets, Some(now))
  }

  /**
   * As written, the primed offline page carries no timestamp, so the first
   * age sweep of the dynamic cache deletes it, whatever the time and age limit.
   */
  lemma PrimedOfflinePageSweptAway(store: Store, essential: seq<NetOutcome>, assets: seq<NetOutcome>, maxAge: int, now: int)
    requires |essential| == |EssentialUrls| && |assets| == |StaticAssets|
    requires AllFetchedOk(essential)
    ensures OfflinePageUrl in Install(store, essential, assets).store[DynamicCacheName]
    ensures OfflinePageUrl !in CleanupExpiredCache(Install(store, essential, assets).store[DynamicCacheName], maxAge, now)
  {
    assert OfflinePageUrl in EssentialUrls;
  }

  /** Stamped at install time, the offline page survives every dynamic-cache sweep for seven days. */
  lemma PrimedOfflinePageSurvivesSweep(store: Store, essential: seq<NetOutcome>, assets: seq<NetOutcome>, now: int, later: int)
    requires |essential| == |EssentialUrls| && |assets| == |StaticAssets|
    requires AllFetchedOk(essential)
    requires now <= later <= now + DynamicMaxAge
    ensures OfflinePageUrl in CleanupExpiredCache(InstallStamped(store, essential, assets, now).store[DynamicCacheName], DynamicMaxAge, later)
  {
    assert OfflinePageUrl in EssentialUrls;
  }

  // ---------------------------------------------------------------------------
  // activate

  /** Deletes every cache whose name is not one of the current version's. */
  function Activate(store: Store): (r: Store)
    ensures forall n :: n in r <==> n in store && n in ValidCacheNames
    ensures forall n :: n in r ==> r[n] == store[n]
  {
    map n | n in store && n in ValidCacheNames :: store[n]
  }

  /** Activation never deletes a cache the fetch handler routes to, and a second activation changes nothing. */
  lemma ActivationKeepsCurrentCaches(store: Store, c: CacheId)
    ensures c.Name() in store ==> c.Name() in Activate(store) && Activate(store)[c.Name()] == store[c.Name()]
    ensures Activate(Activate(store)) == Activate(store)
  {
  }

  /** A cache of the previous version is deleted; the current version's survives untouched. */
  lemma ActivationDropsPreviousVersion(previous: Partition, current: Partition)
    ensures var r := Activate(map["ovh-snowflake-dynamic-v0.9.0" := previous, DynamicCacheName := current]);
      r == map[DynamicCacheName := current]
  {
  }

  // ---------------------------------------------------------------------------
  // messages

  /** The byte total of cache `n`, zero when there is no such cache. */
  function CacheSize(store: Store, n: string, order: seq<string>): nat {
    if n in store then PartitionSize(order, store[n]) else 0
  }

  /** Sum of the partition sizes of the caches listed in `names`. */
  function SizeOver(store: Store, names: seq<string>, order: seq<string>): nat {
    if names == [] then 0 else CacheSize(store, names[0], order) + SizeOver(store, names[1..], order)
  }

  /** The content-length an entry counts for (0 when absent). */
  function EntrySize(e: Entry): nat {
    e.response.contentLength.GetOr(0)
  }

  /** A partition sums to zero exactly when each of its entries counts zero bytes. */
  lemma PartitionSizeZero(order: seq<string>, p: Partition)
    requires Covers(order, p)
    ensures PartitionSize(order, p) == 0 <==> forall k :: k in p ==> EntrySize(p[k]) == 0
  {
    var items := Items(order, p);
    TotalOfZero(items);
    ItemsMembers(order, p);
    if PartitionSize(order, p) == 0 {
      forall k | k in p
        ensures EntrySize(p[k]) == 0
      {
        assert ItemOf(k, p[k]) in items;
      }
    }
  }

  lemma {:induction false} SizeOverZero(store: Store, names: seq<string>, order: seq<string>)
    requires forall n :: n in store ==> Covers(order, store[n])
    ensures SizeOver(store, names, order) == 0 <==>
      forall n, k :: n in names && n in store && k in store[n] ==> EntrySize(store[n][k]) == 0
  {
    if names != [] {
      SizeOverZero(store, names[1..], order);
      if names[0] in store {
        PartitionSizeZero(order, store[names[0]]);
      }
    }
  }

  /** The cache at position `i` contributes its own total to the sum, whatever its position. */
  lemma {:induction false} SizeOverRemoveAt(store: Store, names: seq<string>, order: seq<string>, i: nat)
    requires i < |names|
    ensures SizeOver(store, names, order) == CacheSize(store, names[i], order) + SizeOver(store, names[..i] + names[i + 1..], order)
  {
    if i == 0 {
      assert names[..0] + names[1..] == names[1..];
    } else {
      var rest := names[1..];
      SizeOverRemoveAt(store, rest, order, i - 1);
      assert names[..i] + names[i + 1..] == [names[0]] + (rest[..i - 1] + rest[i..]);
    }
  }

  /** Taking the name at `i` out of a duplicate-free enumeration leaves exactly the other names, each once. */
  lemma RemoveAtDistinct(b: seq<string>, i: nat)
    requires Distinct(b) && i < |b|
    ensures Distinct(b[..i] + b[i + 1..])
    ensures forall n :: n in b[..i] + b[i + 1..] <==> n in b && n != b[i]
  {
    var b' := b[..i] + b[i + 1..];
    forall p, q | 0 <= p < q < |b'|
      ensures b'[p] != b'[q]
    {
      var p0 := if p < i then p else p + 1;
      var q0 := if q < i then q else q + 1;
      assert b'[p] == b[p0] && b'[q] == b[q0] && p0 < q0;
    }
    forall n
      ensures n in b' <==> n in b && n != b[i]
    {
      if n in b && n != b[i] {
        var k :| 0 <= k < |b| && b[k] == n;
        if k < i { assert b'[k] == n; } else { assert b'[k - 1] == n; }
      }
      if n in b' {
        var k :| 0 <= k < |b'| && b'[k] == n;
        var k0 := if k < i then k else k + 1;
        assert b[k0] == n && k0 != i;
      }
    }
  }

  lemma FirstIsMember(b: seq<string>)
    ensures b != [] ==> b[0] in b
  {
  }

  /** Two duplicate-free enumerations of the same caches give the same sum. */
  lemma {:induction false} SizeOverPermutation(store: Store, a: seq<string>, b: seq<string>, order: seq<string>)
    requires Distinct(a) && Distinct(b)
    requires forall n :: n in a <==> n in b
    ensures SizeOver(store, a, order) == SizeOver(store, b, order)
    decreases |a|
  {
    if a == [] {
      FirstIsMember(b);
    } else {
      assert a[0] in a;
      var i :| 0 <= i < |b| && b[i] == a[0];
      var a' := a[..0] + a[1..];
      var b' := b[..i] + b[i + 1..];
      RemoveAtDistinct(b, i);
      RemoveAtDistinct(a, 0);
      forall n
        ensures n in a' <==> n in b'
      {
        assert (n in a') == (n in a && n != a[0]);
        assert (n in b') == (n in b && n != b[i]);
      }
      assert a' == a[1..];
      SizeOverPermutation(store, a', b', order);
      SizeOverRemoveAt(store, b, order, i);
    }
  }

  /** A partition gains exactly the size of an entry put under a key it did not hold. */
  lemma {:induction false} PartitionSizeInsert(order: seq<string>, p: Partition, k: string, e: Entry)
    requires Distinct(order) && k !in p
    ensures PartitionSize(order, p[k := e]) == PartitionSize(order, p) + (if k in order then EntrySize(e) else 0)
  {
    if order != [] {
      var p' := p[k := e];
      var rest := order[1..];
      assert Distinct(rest) by {
        forall i, j | 0 <= i < j < |rest|
          ensures rest[i] != rest[j]
        {
          assert rest[i] == order[i + 1] && rest[j] == order[j + 1];
        }
      }
      PartitionSizeInsert(rest, p, k, e);
      var head := if order[0] in p' then [ItemOf(order[0], p'[order[0]])] else [];
      var head0 := if order[0] in p then [ItemOf(order[0], p[order[0]])] else [];
      TotalOfAppend(head, Items(rest, p'));
      TotalOfAppend(head0, Items(rest, p));
      assert TotalOf([ItemOf(k, e)]) == EntrySize(e) by {
        assert [ItemOf(k, e)][..0] == [];
      }
      if order[0] == k {
        assert k !in rest by {
          forall j | 0 <= j < |rest|
            ensures rest[j] != k
          {
            assert rest[j] == order[j + 1] && order[0] != order[j + 1];
          }
        }
      } else {
        assert k in order <==> k in rest;
        assert head == head0;
      }
    }
  }

  /**
   * `GET_CACHE_SIZE`: the content-length total over every cache of the origin.
   * `names` is the platform's enumeration of the caches, `order` of each cache's keys.
   */
  function GetCacheSize(store: Store, names: seq<string>, order: seq<string>): (totalSize: nat)
    requires Distinct(names) && forall n :: n in names <==> n in store
    requires Distinct(order) && forall n :: n in store ==> Covers(order, store[n])
    ensures totalSize == 0 <==> forall n, k :: n in store && k in store[n] ==> EntrySize(store[n][k]) == 0
    ensures forall n :: n in store ==> PartitionSize(order, store[n]) <= totalSize
    ensures store == map[] ==> totalSize == 0
  {
    SizeOverZero(store, names, order);
    forall n | n in store
      ensures PartitionSize(order, store[n]) <= SizeOver(store, names, order)
    {
      var i :| 0 <= i < |names| && names[i] == n;
      SizeOverRemoveAt(store, names, order, i);
    }
    SizeOver(store, names, order)
  }

  /** The reply depends neither on how the caches nor on how their keys are enumerated. */
  lemma GetCacheSizeEnumerationIndependent(store: Store, names1: seq<string>, names2: seq<string>, order1: seq<string>, order2: seq<string>)
    requires Distinct(names1) && forall n :: n in names1 <==> n in store
    requires Distinct(names2) && forall n :: n in names2 <==> n in store
    requires Distinct(order1) && forall n :: n in store ==> Covers(order1, store[n])
    requires Distinct(order2) && forall n :: n in store ==> Covers(order2, store[n])
    ensures GetCacheSize(store, names1, order1) == GetCacheSize(store, names2, order2)
  {
    SizeOverPermutation(store, names1, names2, order1);
    SizeOverOrderIndependent(store, names2, order1, order2);
  }

  lemma {:induction false} SizeOverOrderIndependent(store: Store, names: seq<string>, order1: seq<string>, order2: seq<string>)
    requires Distinct(order1) && forall n :: n in store ==> Covers(order1, store[n])
    requires Distinct(order2) && forall n :: n in store ==> Covers(order2, store[n])
    ensures SizeOver(store, names, order1) == SizeOver(store, names, order2)
  {
    if names != [] {
      SizeOverOrderIndependent(store, names[1..], order1, order2);
      if names[0] in store {
        PartitionSizeOrderIndependent(store[names[0]], order1, order2);
      }
    }
  }

  /** Putting an entry under a new key of an existing cache raises the reply by exactly the entry's size. */
  lemma GetCacheSizeAdditive(store: Store, names: seq<string>, order: seq<string>, name: string, k: string, e: Entry)
    requires Distinct(names) && forall n :: n in names <==> n in store
    requires Distinct(order) && forall n :: n in store ==> Covers(order, store[n])
    requires name in store && k !in store[name] && Covers(order, store[name][k := e])
    ensures var grown := store[name := store[name][k := e]];
      GetCacheSize(grown, names, order) == GetCacheSize(store, names, order) + EntrySize(e)
  {
    var grown := store[name := store[name][k := e]];
    var i :| 0 <= i < |names| && names[i] == name;
    var others := names[..i] + names[i + 1..];
    RemoveAtDistinct(names, i);
    SizeOverRemoveAt(store, names, order, i);
    SizeOverRemoveAt(grown, names, order, i);
    SizeOverFrame(store, grown, others, order, name);
    PartitionSizeInsert(order, store[name], k, e);
    assert CacheSize(grown, name, order) == CacheSize(store, name, order) + EntrySize(e);
  }

  /** Caches other than `name` that are equal in both stores give the same sum. */
  lemma {:induction false} SizeOverFrame(s1: Store, s2: Store, names: seq<string>, order: seq<string>, name: string)
    requires name !in names
    requires forall n :: n != name ==> (n in s1 <==> n in s2) && (n in s1 ==> s1[n] == s2[n])
    ensures SizeOver(s1, names, order) == SizeOver(s2, names, order)
  {
    if names != [] {
      assert names[0] in names;
      SizeOverFrame(s1, s2, names[1..], order, name);
    }
  }

  /** A control message posted by the page. */
  datatype Message = SkipWaitingMessage | CacheUrlsMessage(urls: Option<seq<string>>) | ClearCacheMessage | GetCacheSizeMessage | OtherMessage

  datatype MessageResult = MessageResult(store: Store, reply: Option<nat>, skipWaiting: bool)

  /**
   * The message handler. `fetched` holds the fetch outcomes of a `CACHE_URLS`
   * list; `names` and `order` are the platform's enumerations for `GET_CACHE_SIZE`.
   */
  function HandleMessage(store: Store, msg: Message, fetched: seq<NetOutcome>, names: seq<string>, order: seq<string>): (r: MessageResult)
    requires msg.CacheUrlsMessage? && msg.urls.Some? ==> |fetched| == |msg.urls.value|
    requires Distinct(names) && forall n :: n in names <==> n in store
    requires Distinct(order) && forall n :: n in store ==> Covers(order, store[n])
    ensures r.skipWaiting <==> msg.SkipWaitingMessage?
    ensures r.reply.Some? <==> msg.GetCacheSizeMessage?
    ensures msg.ClearCacheMessage? ==> r.store == map[]
    ensures !msg.ClearCacheMessage? && !msg.CacheUrlsMessage? ==> r.store == store
    ensures msg.CacheUrlsMessage? ==> Frame(store, r.store, {DynamicCacheName})
    ensures msg.GetCacheSizeMessage? ==> r.reply == Some(GetCacheSize(store, names, order))
    ensures msg.CacheUrlsMessage? && msg.urls.None? ==> r.store == store
    ensures msg.CacheUrlsMessage? && msg.urls.Some? && AddAllAccepts(msg.urls.value, fetched) ==>
      DynamicCacheName in r.store && Primed(r.store[DynamicCacheName], msg.urls.value, None)
    ensures msg.CacheUrlsMessage? && msg.urls.Some? && !AddAllAccepts(msg.urls.value, fetched) ==>
      r.store == Open(store, DynamicCacheName)
  {
    match msg
    case SkipWaitingMessage => MessageResult(store, None, true)
    case CacheUrlsMessage(urls) =>
      if urls.Some? then MessageResult(AddAllTo(store, DynamicCacheName, urls.value, fetched, None), None, false)
      else MessageResult(store, None, false)
    case ClearCacheMessage => MessageResult(map[], None, false)
    case GetCacheSizeMessage => MessageResult(store, Some(GetCacheSize(store, names, order)), false)
    case OtherMessage => MessageResult(store, None, false)
  }

  /** After `CLEAR_CACHE`, `GET_CACHE_SIZE` replies zero. */
  lemma ClearThenSizeIsZero(store: Store, fetched: seq<NetOutcome>, names: seq<string>, order: seq<string>)
    requires Distinct(names) && forall n :: n in names <==> n in store
    requires Distinct(order) && forall n :: n in store ==> Covers(order, store[n])
    ensures var cleared := HandleMessage(store, ClearCacheMessage, fetched, names, order).store;
      HandleMessage(cleared, GetCacheSizeMessage, fetched, [], order).reply == Some(0)
  {
  }

  // ---------------------------------------------------------------------------
  // maintenance events

  /** No entry of `p` is expired at `now` for the age limit `maxAge`. */
  predicate AllFresh(p: Partition, maxAge: int, now: int) {
    forall k :: k in p ==> !IsCacheExpired(p[k], maxAge, now)
  }

  /** Every cache of the store is covered by the key enumeration. */
  predicate Enumerated(store: Store, order: seq<string>) {
    Distinct(order) && forall n :: n in store ==> Covers(order, store[n])
  }

  /** Every cache of `r` is a sub-partition of the same cache in `store`, or new and empty. */
  predicate Shrunk(store: Store, r: Store) {
    forall n :: n in r ==> (n in store && SubPartition(r[n], store[n])) || r[n] == map[]
  }

  lemma ShrunkTrans(a: Store, b: Store, c: Store)
    requires Shrunk(a, b) && Shrunk(b, c)
    ensures Shrunk(a, c)
  {
    forall n | n in c
      ensures (n in a && SubPartition(c[n], a[n])) || c[n] == map[]
    {
      if c[n] != map[] {
        var k :| k in c[n];
        assert n in b && SubPartition(c[n], b[n]);
        assert b[n] != map[] by { assert k in b[n]; }
      }
    }
  }

  lemma ShrunkEnumerated(store: Store, r: Store, order: seq<string>)
    requires Enumerated(store, order) && Shrunk(store, r)
    ensures Enumerated(r, order)
  {
  }

  /** `cleanupExpiredCache(name, maxAge)` on the store; opening creates the cache. */
  function Sweep(store: Store, name: string, maxAge: int, now: int): (r: Store)
    ensures name in r && Frame(store, r, {name})
    ensures AllFresh(r[name], maxAge, now)
    ensures name in store ==> SubPartition(r[name], store[name])
    ensures name !in store ==> r[name] == map[]
    ensures Shrunk(store, r)
  {
    var s := Open(store, name);
    s[name := CleanupExpiredCache(s[name], maxAge, now)]
  }

  /** `manageCacheSize(name, maxSize)` on the store. */
  method Shrink(store: Store, name: string, maxSize: int, order: seq<string>) returns (r: Store)
    requires Enumerated(store, order)
    ensures name in r && Frame(store, r, {name}) && Enumerated(r, order)
    ensures name in store ==> SubPartition(r[name], store[name])
    ensures name !in store ==> r[name] == map[]
    ensures maxSize >= 0 ==> PartitionSize(order, r[name]) <= maxSize
  {
    var s := Open(store, name);
    var p, evicted := ManageCacheSize(s[name], order, maxSize);
    ReplaceFacts(s, name, p, order);
    r := s[name := p];
  }

  /** Replacing a cache by a sub-partition of it keeps the frame and the enumeration. */
  lemma ReplaceFacts(s: Store, name: string, p: Partition, order: seq<string>)
    requires Enumerated(s, order) && name in s && SubPartition(p, s[name])
    ensures Enumerated(s[name := p], order) && Frame(s, s[name := p], {name})
  {
  }

  /** A sub-partition of a fresh partition is fresh. */
  lemma FreshSub(q: Partition, p: Partition, maxAge: int, now: int)
    requires SubPartition(q, p) && AllFresh(p, maxAge, now)
    ensures AllFresh(q, maxAge, now)
  {
  }

  /** The cache names of a list of sweeps. */
  function SweepNames(jobs: seq<(string, int)>): set<string> {
    set i | 0 <= i < |jobs| :: jobs[i].0
  }

  /**
   * Sweeps the listed caches one after another, each with its own age limit.
   * Every listed cache ends up fresh for its limit: a later sweep only deletes.
   */
  function SweepList(store: Store, jobs: seq<(string, int)>, now: int): (r: Store)
    ensures Frame(store, r, SweepNames(jobs))
    ensures Shrunk(store, r)
    ensures forall i :: 0 <= i < |jobs| ==> jobs[i].0 in r && AllFresh(r[jobs[i].0], jobs[i].1, now)
    decreases |jobs|
  {
    if jobs == [] then store
    else
      var s := Sweep(store, jobs[0].0, jobs[0].1, now);
      var r := SweepList(s, jobs[1..], now);
      ShrunkTrans(store, s, r);
      assert SweepNames(jobs) == {jobs[0].0} + SweepNames(jobs[1..]) by {
        assert forall i :: 0 < i < |jobs| ==> jobs[i] == jobs[1..][i - 1];
      }
      FrameTrans(store, s, r, {jobs[0].0}, SweepNames(jobs[1..]));
      assert r[jobs[0].0] == map[] || SubPartition(r[jobs[0].0], s[jobs[0].0]);
      r
  }

  /** Sweeps the four caches with their age limits. */
  function SweepAll(store: Store, now: int): (r: Store)
    ensures Frame(store, r, {StaticCacheName, DynamicCacheName, ApiCacheName, ImagesCacheName})
    ensures Shrunk(store, r)
    ensures StaticCacheName in r && AllFresh(r[StaticCacheName], StaticMaxAge, now)
    ensures DynamicCacheName in r && AllFresh(r[DynamicCacheName], DynamicMaxAge, now)
    ensures ApiCacheName in r && AllFresh(r[ApiCacheName], ApiMaxAge, now)
    ensures ImagesCacheName in r && AllFresh(r[ImagesCacheName], ImagesMaxAge, now)
  {
    var jobs := [(StaticCacheName, StaticMaxAge), (DynamicCacheName, DynamicMaxAge), (ApiCacheName, ApiMaxAge), (ImagesCacheName, ImagesMaxAge)];
    assert SweepNames(jobs) == {StaticCacheName, DynamicCacheName, ApiCacheName, ImagesCacheName} by {
      assert jobs[0].0 == StaticCacheName && jobs[1].0 == DynamicCacheName;
      assert jobs[2].0 == ApiCacheName && jobs[3].0 == ImagesCacheName;
    }
    var r := SweepList(store, jobs, now);
    assert jobs[0] == (StaticCacheName, StaticMaxAge) && jobs[1] == (DynamicCacheName, DynamicMaxAge);
    assert jobs[2] == (ApiCacheName, ApiMaxAge) && jobs[3] == (ImagesCacheName, ImagesMaxAge);
    r
  }

  /** Sweeps the static, dynamic and API caches with their age limits. */
  function SweepMaintained(store: Store, now: int): (r: Store)
    ensures Frame(store, r, {StaticCacheName, DynamicCacheName, ApiCacheName})
    ensures Shrunk(store, r)
    ensures StaticCacheName in r && AllFresh(r[StaticCacheName], StaticMaxAge, now)
    ensures DynamicCacheName in r && AllFresh(r[DynamicCacheName], DynamicMaxAge, now)
    ensures ApiCacheName in r && AllFresh(r[ApiCacheName], ApiMaxAge, now)
  {
    var jobs := [(StaticCacheName, StaticMaxAge), (DynamicCacheName, DynamicMaxAge), (ApiCacheName, ApiMaxAge)];
    assert SweepNames(jobs) == {StaticCacheName, DynamicCacheName, ApiCacheName} by {
      assert jobs[0].0 == StaticCacheName && jobs[1].0 == DynamicCacheName && jobs[2].0 == ApiCacheName;
    }
    var r := SweepList(store, jobs, now);
    assert jobs[0] == (StaticCacheName, StaticMaxAge) && jobs[1] == (DynamicCacheName, DynamicMaxAge);
    assert jobs[2] == (ApiCacheName, ApiMaxAge);
    r
  }

  /** The size step of the `cache-cleanup` sync: dynamic cache to 40%, images cache to 30% of 50MB. */
  method ShrinkToBudgets(s: Store, order: seq<string>) returns (r: Store)
    requires Enumerated(s, order) && DynamicCacheName in s && ImagesCacheName in s
    ensures Frame(s, r, {DynamicCacheName, ImagesCacheName})
    ensures SubPartition(r[DynamicCacheName], s[DynamicCacheName]) && SubPartition(r[ImagesCacheName], s[ImagesCacheName])
    ensures PartitionSize(order, r[DynamicCacheName]) <= DynamicSizeBudget
    ensures PartitionSize(order, r[ImagesCacheName]) <= ImagesSizeBudget
  {
    CacheNamesDistinct();
    var s' := Shrink(s, DynamicCacheName, DynamicSizeBudget, order);
    r := Shrink(s', ImagesCacheName, ImagesSizeBudget, order);
    assert r[DynamicCacheName] == s'[DynamicCacheName];
    assert s'[ImagesCacheName] == s[ImagesCacheName];
    FrameTrans(s, s', r, {DynamicCacheName}, {ImagesCacheName});
    assert {DynamicCacheName} + {ImagesCacheName} == {DynamicCacheName, ImagesCacheName};
  }

  /**
   * The `cache-cleanup` background sync: age sweeps of all four caches, then
   * the dynamic cache held to 40% and the images cache to 30% of 50MB.
   * Any other tag changes nothing.
   */
  method CacheCleanupSync(store: Store, tag: string, now: int, order: seq<string>) returns (r: Store)
    requires Enumerated(store, order)
    ensures tag != "cache-cleanup" ==> r == store
    ensures Frame(store, r, {StaticCacheName, DynamicCacheName, ApiCacheName, ImagesCacheName})
    ensures tag == "cache-cleanup" ==>
      && StaticCacheName in r && AllFresh(r[StaticCacheName], StaticMaxAge, now)
      && DynamicCacheName in r && AllFresh(r[DynamicCacheName], DynamicMaxAge, now)
      && ApiCacheName in r && AllFresh(r[ApiCacheName], ApiMaxAge, now)
      && ImagesCacheName in r && AllFresh(r[ImagesCacheName], ImagesMaxAge, now)
      && PartitionSize(order, r[DynamicCacheName]) <= DynamicSizeBudget
      && PartitionSize(order, r[ImagesCacheName]) <= ImagesSizeBudget
  {
    if tag != "cache-cleanup" {
      return store;
    }
    CacheNamesDistinct();
    var s := SweepAll(store, now);
    ShrunkEnumerated(store, s, order);
    r := ShrinkToBudgets(s, order);
    assert r[StaticCacheName] == s[StaticCacheName] && r[ApiCacheName] == s[ApiCacheName];
    FreshSub(r[DynamicCacheName], s[DynamicCacheName], DynamicMaxAge, now);
    FreshSub(r[ImagesCacheName], s[ImagesCacheName], ImagesMaxAge, now);
    FrameTrans(store, s, r, {StaticCacheName, DynamicCacheName, ApiCacheName, ImagesCacheName}, {DynamicCacheName, ImagesCacheName});
    assert {StaticCacheName, DynamicCacheName, ApiCacheName, ImagesCacheName} + {DynamicCacheName, ImagesCacheName}
      == {StaticCacheName, DynamicCacheName, ApiCacheName, ImagesCacheName};
  }

  /**
   * The `cache-maintenance` periodic sync: age sweeps of the static, dynamic
   * and API caches, then the dynamic cache held to the full 50MB.
   */
  method CacheMaintenancePeriodicSync(store: Store, tag: string, now: int, order: seq<string>) returns (r: Store)
    requires Enumerated(store, order)
    ensures tag != "cache-maintenance" ==> r == store
    ensures Frame(store, r, {StaticCacheName, DynamicCacheName, ApiCacheName})
    ensures tag == "cache-maintenance" ==>
      && StaticCacheName in r && AllFresh(r[StaticCacheName], StaticMaxAge, now)
      && DynamicCacheName in r && AllFresh(r[DynamicCacheName], DynamicMaxAge, now)
      && ApiCacheName in r && AllFresh(r[ApiCacheName], ApiMaxAge, now)
      && PartitionSize(order, r[DynamicCacheName]) <= MaxCacheSize
  {
    if tag != "cache-maintenance" {
      return store;
    }
    CacheNamesDistinct();
    var s := SweepMaintained(store, now);
    ShrunkEnumerated(store, s, order);
    r := Shrink(s, DynamicCacheName, MaxCacheSize, order);
    FreshSub(r[DynamicCacheName], s[DynamicCacheName], DynamicMaxAge, now);
    assert r[StaticCacheName] == s[StaticCacheName] && r[ApiCacheName] == s[ApiCacheName];
    FrameTrans(store, s, r, {StaticCacheName, DynamicCacheName, ApiCacheName}, {DynamicCacheName});
    assert {StaticCacheName, DynamicCacheName, ApiCacheName} + {DynamicCacheName}
      == {StaticCacheName, DynamicCacheName, ApiCacheName};
  }
}

=== FILE: cache_policy.dfy ===
/**
 * Classification of intercepted requests and the expiry predicate of the
 * documentation site's offline service worker (website/static/sw.js).
 *
 * A request is classified by its URL path alone into one of four cache
 * partitions and one of four retrieval strategies. Every cached entry carries
 * the insertion timestamp the worker stamps on it; an entry without one is
 * treated as expired.
 */
module CachePolicy {
  import opened Wrappers
  import opened Strings

  /** Versioned cache names (sw.js lines 8-12). */
  const ProviderCacheName: string := "ovh-snowflake-provider-v1.0.0"
  const StaticCacheName: string := "ovh-snowflake-static-v1.0.0"
  const DynamicCacheName: string := "ovh-snowflake-dynamic-v1.0.0"
  const ApiCacheName: string := "ovh-snowflake-api-v1.0.0"
  const ImagesCacheName: string := "ovh-snowflake-images-v1.0.0"

  /** Maximum ages in milliseconds (sw.js lines 15-20). */
  const StaticMaxAge: int := 30 * 24 * 60 * 60 * 1000
  const DynamicMaxAge: int := 7 * 24 * 60 * 60 * 1000
  const ApiMaxAge: int := 1 * 60 * 60 * 1000
  const ImagesMaxAge: int := 30 * 24 * 60 * 60 * 1000

  /** The 50MB budget and the two fractions the cleanup sync applies to it; both products are exact in doubles. */
  const MaxCacheSize: int := 50 * 1024 * 1024
  const DynamicSizeBudget: int := 20971520
  const ImagesSizeBudget: int := 15728640

  /** The offline fallback page looked up for failed navigations. */
  const OfflinePageUrl: string := "/terraform-provider-ovh-snowflake/offline.html"

  /** The four cache partitions a request can be routed to. */
  datatype CacheId = StaticCache | DynamicCache | ApiCache | ImagesCache {
    function Name(): string {
      match this
      case StaticCache => StaticCacheName
      case DynamicCache => DynamicCacheName
      case ApiCache => ApiCacheName
      case ImagesCache => ImagesCacheName
    }
  }

  /** The four retrieval strategies. */
  datatype Strategy = CacheFirst | NetworkFirstShort | StaleWhileRevalidate | NetworkFirst

  /** A response: its status, its body and its parsed content-length header, if any. */
  datatype Response = Response(status: int, body: string, contentLength: Option<nat>) {
    /** The Fetch standard's `ok`: a status in the range 200-299. */
    predicate Ok() {
      200 <= status <= 299
    }
  }

  /** A stored response together with its parsed `sw-cache-timestamp` header, if any. */
  datatype Entry = Entry(timestamp: Option<int>, response: Response)

  /** What a fetch settled with: a response of any status, or a rejection. */
  datatype NetOutcome = Fetched(resp: Response) | Fail

  /** One named cache: request URL to stored entry. */
  type Partition = map<string, Entry>

  /** All named caches of the origin. */
  type Store = map<string, Partition>

  /** The parts of an intercepted request the worker and the Cache API look at (`verb` is `request.method`). */
  datatype Request = Request(url: string, verb: string, path: string, navigate: bool, range: Option<string>)

  const ImageExtensions: seq<string> := [".png", ".jpg", ".jpeg", ".gif", ".svg", ".ico"]
  const StaticExtensions: seq<string> := [".css", ".js", ".woff", ".woff2"]

  /** `path` ends with one of the dotted extensions `exts`: one anchored regular-expression alternation. */
  predicate EndsWithAny(path: string, exts: seq<string>) {
    |exts| > 0 && (EndsWith(path, exts[0]) || EndsWithAny(path, exts[1..]))
  }

  /** Ending with any listed extension is what the alternation tests. */
  lemma {:induction false} EndsWithListed(path: string, exts: seq<string>, ext: string)
    requires ext in exts && EndsWith(path, ext)
    ensures EndsWithAny(path, exts)
  {
    if exts[0] != ext {
      EndsWithListed(path, exts[1..], ext);
    }
  }

  /** The extension test of the strategy classifier: `\.(css|js|woff2?|png|jpg|jpeg|gif|svg|ico)$`. */
  predicate IsAssetPath(path: string) {
    EndsWithAny(path, StaticExtensions) || EndsWithAny(path, ImageExtensions)
  }

  predicate IsApiPath(path: string) {
    Contains(path, "/api/")
  }

  predicate IsDocsPath(path: string) {
    Contains(path, "/docs/") || Contains(path, "/community/")
  }

  /** The five cache names differ (at the first letter after "ovh-snowflake-"). */
  lemma CacheNamesDistinct()
    ensures ProviderCacheName != StaticCacheName && ProviderCacheName != DynamicCacheName
    ensures ProviderCacheName != ApiCacheName && ProviderCacheName != ImagesCacheName
    ensures StaticCacheName != DynamicCacheName && StaticCacheName != ApiCacheName && StaticCacheName != ImagesCacheName
    ensures DynamicCacheName != ApiCacheName && DynamicCacheName != ImagesCacheName
    ensures ApiCacheName != ImagesCacheName
    ensures forall a: CacheId, b: CacheId :: a.Name() == b.Name() ==> a == b
  {
    assert ProviderCacheName[14] == 'p' && StaticCacheName[14] == 's' && DynamicCacheName[14] == 'd';
    assert ApiCacheName[14] == 'a' && ImagesCacheName[14] == 'i';
  }

  /** Partition choice: images, then static assets, then API, else dynamic. */
  function GetCacheName(path: string): (r: CacheId)
    ensures r.Name() != ProviderCacheName
    ensures r == ImagesCache <==> EndsWithAny(path, ImageExtensions)
    ensures r == ImagesCache || r == StaticCache <==> IsAssetPath(path)
    ensures r == ApiCache <==> !IsAssetPath(path) && IsApiPath(path)
    ensures r == DynamicCache <==> !IsAssetPath(path) && !IsApiPath(path)
  {
    CacheNamesDistinct();
    if EndsWithAny(path, ImageExtensions) then ImagesCache
    else if EndsWithAny(path, StaticExtensions) then StaticCache
    else if IsApiPath(path) then ApiCache
    else DynamicCache
  }

  /**
   * Strategy choice: the extension test comes first, then `/api/`, then
   * `/docs/` or `/community/`, else network-first. The contract relates the
   * strategy to the partition the same path is routed to.
   */
  function GetCacheStrategy(path: string): (r: Strategy)
    ensures r == CacheFirst <==> GetCacheName(path) in {ImagesCache, StaticCache}
    ensures r == NetworkFirstShort <==> GetCacheName(path) == ApiCache
    ensures r == StaleWhileRevalidate <==> GetCacheName(path) == DynamicCache && IsDocsPath(path)
    ensures r == NetworkFirst <==> GetCacheName(path) == DynamicCache && !IsDocsPath(path)
  {
    if IsAssetPath(path) then CacheFirst
    else if IsApiPath(path) then NetworkFirstShort
    else if IsDocsPath(path) then StaleWhileRevalidate
    else NetworkFirst
  }

  /** An asset extension wins over every path segment, `/api/` and `/docs/` included. */
  lemma ExtensionComesFirst(path: string, ext: string)
    requires ext in StaticExtensions + ImageExtensions
    requires EndsWith(path, ext)
    ensures GetCacheStrategy(path) == CacheFirst
    ensures GetCacheName(path) != ApiCache && GetCacheName(path) != DynamicCache
  {
    if ext in StaticExtensions {
      EndsWithListed(path, StaticExtensions, ext);
    } else {
      EndsWithListed(path, ImageExtensions, ext);
    }
  }

  // Worked classifications of typical paths.

  lemma LogoIsCachedFirstAsImage()
    ensures GetCacheName("/img/logo.svg") == ImagesCache
    ensures GetCacheStrategy("/img/logo.svg") == CacheFirst
  {
    assert EndsWith("/img/logo.svg", ".svg");
    EndsWithListed("/img/logo.svg", ImageExtensions, ".svg");
  }

  lemma StylesheetIsCachedFirstAsStatic()
    ensures GetCacheName("/assets/css/styles.css") == StaticCache
    ensures GetCacheStrategy("/assets/css/styles.css") == CacheFirst
  {
    assert EndsWith("/assets/css/styles.css", ".css");
    EndsWithListed("/assets/css/styles.css", StaticExtensions, ".css");
    assert !EndsWithAny("/assets/css/styles.css", ImageExtensions);
  }

  lemma DocsIntroIsNotAsset()
    ensures !IsAssetPath("/docs/intro")
  {
    assert !EndsWithAny("/docs/intro", StaticExtensions);
    assert !EndsWithAny("/docs/intro", ImageExtensions);
  }

  lemma DocsIntroIsNotApi()
    ensures !IsApiPath("/docs/intro")
  {
    MissingCharNotContained("/docs/intro", "/api/", 'a');
  }

  lemma DocsIntroIsDocs()
    ensures IsDocsPath("/docs/intro")
  {
    assert StartsWith("/docs/intro", "/docs/");
  }

  lemma DocsIntroIsRevalidated()
    ensures GetCacheName("/docs/intro") == DynamicCache
    ensures GetCacheStrategy("/docs/intro") == StaleWhileRevalidate
  {
    DocsIntroIsNotAsset();
    DocsIntroIsNotApi();
    DocsIntroIsDocs();
  }

  lemma ManifestIsNotAsset()
    ensures !IsAssetPath("/manifest.json")
  {
    assert !EndsWithAny("/manifest.json", StaticExtensions);
    assert !EndsWithAny("/manifest.json", ImageExtensions);
  }

  lemma ManifestIsNotApi()
    ensures !IsApiPath("/manifest.json")
  {
    MissingCharNotContained("/manifest.json", "/api/", 'p');
  }

  lemma ManifestIsNotDocs()
    ensures !Contains("/manifest.json", "/docs/")
  {
    MissingCharNotContained("/manifest.json", "/docs/", 'd');
  }

  lemma ManifestIsNotCommunity()
    ensures !Contains("/manifest.json", "/community/")
  {
    MissingCharNotContained("/manifest.json", "/community/", 'c');
  }

  /** `.json` is not `.js`: the manifest goes network-first into the dynamic cache. */
  lemma ManifestIsNetworkFirst()
    ensures GetCacheName("/manifest.json") == DynamicCache
    ensures GetCacheStrategy("/manifest.json") == NetworkFirst
  {
    ManifestIsNotAsset();
    ManifestIsNotApi();
    ManifestIsNotDocs();
    ManifestIsNotCommunity();
  }

  lemma ApiStatusIsNetworkFirstShort()
    ensures GetCacheName("/api/status") == ApiCache
    ensures GetCacheStrategy("/api/status") == NetworkFirstShort
  {
    assert !EndsWithAny("/api/status", StaticExtensions);
    assert !EndsWithAny("/api/status", ImageExtensions);
    assert StartsWith("/api/status", "/api/");
  }

  /**
   * Expiry: an entry without a timestamp is always expired; otherwise it is
   * expired exactly when its age strictly exceeds `maxAge`.
   */
  predicate IsCacheExpired(e: Entry, maxAge: int, now: int): (expired: bool)
    ensures !expired <==> e.timestamp.Some? && now - maxAge <= e.timestamp.value
  {
    e.timestamp.None? || now - e.timestamp.value > maxAge
  }

  /** Expiry is stable as time passes: an expired entry never becomes fresh again. */
  lemma ExpiryMonotoneInTime(e: Entry, maxAge: int, now: int, later: int)
    requires now <= later
    requires IsCacheExpired(e, maxAge, now)
    ensures IsCacheExpired(e, maxAge, later)
  {
  }

  /** A shorter maximum age expires at least as much as a longer one. */
  lemma ExpiryAntitoneInMaxAge(e: Entry, shorter: int, longer: int, now: int)
    requires shorter <= longer
    requires IsCacheExpired(e, longer, now)
    ensures IsCacheExpired(e, shorter, now)
  {
  }

  /** The boundary is strict: an entry aged exactly `maxAge` is still fresh, one millisecond more is not. */
  lemma ExpiryBoundary(resp: Response, ts: int, maxAge: int)
    ensures !IsCacheExpired(Entry(Some(ts), resp), maxAge, ts + maxAge)
    ensures IsCacheExpired(Entry(Some(ts), resp), maxAge, ts + maxAge + 1)
    ensures IsCacheExpired(Entry(None, resp), maxAge, ts)
  {
  }
}

=== FILE: cache_store.dfy ===
/**
 * Maintenance of the service worker's named caches (website/static/sw.js):
 * the age sweep, oldest-first size eviction, the total reported for
 * `GET_CACHE_SIZE`, activation-time pruning of other versions' caches, and
 * the `addAll` priming used at install time and by `CACHE_URLS`.
 *
 * The platform enumerates a cache's keys (`cache.keys()`) in an order of its
 * own; the model takes that order as a parameter `order`, a duplicate-free
 * sequence listing at least every key of the partition.
 */
module CacheStore {
  import opened Wrappers
  import opened CachePolicy

  /** `caches.open(name)`: an absent cache is created empty. */
  function Open(store: Store, name: string): (r: Store)
    ensures name in r && r.Keys == store.Keys + {name}
    ensures name in store ==> r == store
    ensures name !in store ==> r[name] == map[]
    ensures forall n :: n in store ==> r[n] == store[n]
  {
    if name in store then store else store[name := map[]]
  }

  /** `cache.match(url)`: the entry stored under the URL, if any. */
  function Lookup(p: Partition, url: string): (r: Option<Entry>)
    ensures r.Some? <==> url in p
    ensures r.Some? ==> r.value == p[url]
  {
    if url in p then Some(p[url]) else None
  }

  /** `cache.put` of a response the worker has stamped with `now`. */
  function PutStamped(store: Store, name: string, url: string, resp: Response, now: int): (r: Store)
    requires name in store
    ensures r.Keys == store.Keys
    ensures r[name] == store[name][url := Entry(Some(now), resp)]
    ensures forall n :: n in store && n != name ==> r[n] == store[n]
  {
    store[name := store[name][url := Entry(Some(now), resp)]]
  }

  // ---------------------------------------------------------------------------
  // Age sweep (cleanupExpiredCache)

  /** Deletes every entry `IsCacheExpired` flags for `maxAge` at time `now`. */
  function CleanupExpiredCache(p: Partition, maxAge: int, now: int): (r: Partition)
    ensures forall k :: k in r <==> k in p && !IsCacheExpired(p[k], maxAge, now)
    ensures forall k :: k in r ==> r[k] == p[k]
  {
    map k | k in p && !IsCacheExpired(p[k], maxAge, now) :: p[k]
  }

  /** A second sweep at the same time deletes nothing. */
  lemma CleanupIdempotent(p: Partition, maxAge: int, now: int)
    ensures CleanupExpiredCache(CleanupExpiredCache(p, maxAge, now), maxAge, now)
         == CleanupExpiredCache(p, maxAge, now)
  {
  }

  /** A later sweep subsumes an earlier one with the same maximum age. */
  lemma CleanupLaterSubsumes(p: Partition, maxAge: int, now: int, later: int)
    requires now <= later
    ensures CleanupExpiredCache(CleanupExpiredCache(p, maxAge, now), maxAge, later)
         == CleanupExpiredCache(p, maxAge, later)
  {
    var a := CleanupExpiredCache(CleanupExpiredCache(p, maxAge, now), maxAge, later);
    var b := CleanupExpiredCache(p, maxAge, later);
    forall k | k in p && !IsCacheExpired(p[k], maxAge, later)
      ensures !IsCacheExpired(p[k], maxAge, now)
    {
      if IsCacheExpired(p[k], maxAge, now) {
        ExpiryMonotoneInTime(p[k], maxAge, now, later);
      }
    }
    assert a.Keys == b.Keys;
  }

  // ---------------------------------------------------------------------------
  // Size accounting

  /** A key is listed at most once. */
  predicate Distinct(order: seq<string>) {
    forall i, j :: 0 <= i < j < |order| ==> order[i] != order[j]
  }

  /** The enumeration lists every key of the partition. */
  predicate Covers(order: seq<string>, p: Partition) {
    forall k :: k in p ==> k in order
  }

  /** What size management reads from one entry: key, content-length (0 when absent) and timestamp (0 when absent). */
  datatype SizedItem = SizedItem(key: string, size: nat, timestamp: int)

  function ItemOf(key: string, e: Entry): SizedItem {
    SizedItem(key, e.response.contentLength.GetOr(0), e.timestamp.GetOr(0))
  }

  /** The items of the partition's keys, in enumeration order. */
  function Items(order: seq<string>, p: Partition): (r: seq<SizedItem>)
    ensures |r| <= |order|
    ensures forall i :: 0 <= i < |r| ==> r[i].key in p && r[i] == ItemOf(r[i].key, p[r[i].key])
    ensures forall k :: k in order && k in p ==> ItemOf(k, p[k]) in r
    ensures forall x :: x in r ==> x.key in order
  {
    if order == [] then []
    else (if order[0] in p then [ItemOf(order[0], p[order[0]])] else []) + Items(order[1..], p)
  }

  /** Sum of the sizes of `items`. */
  function TotalOf(items: seq<SizedItem>): nat {
    if items == [] then 0 else TotalOf(items[..|items| - 1]) + items[|items| - 1].size
  }

  /** The keys of `items`, in order. */
  function KeysOf(items: seq<SizedItem>): (r: seq<string>)
    ensures |r| == |items|
    ensures forall i :: 0 <= i < |items| ==> r[i] == items[i].key
  {
    if items == [] then [] else KeysOf(items[..|items| - 1]) + [items[|items| - 1].key]
  }

  lemma {:induction false} TotalOfAppend(a: seq<SizedItem>, b: seq<SizedItem>)
    ensures TotalOf(a + b) == TotalOf(a) + TotalOf(b)
    decreases |b|
  {
    if b != [] {
      assert (a + b)[..|a + b| - 1] == a + b[..|b| - 1];
      TotalOfAppend(a, b[..|b| - 1]);
    } else {
      assert a + b == a;
    }
  }

  /** Taking out the item at `i` removes one copy of it. */
  lemma RemoveAtMultiset(b: seq<SizedItem>, i: nat)
    requires i < |b|
    ensures multiset(b[..i] + b[i + 1..]) == multiset(b) - multiset{b[i]}
  {
    assert b == b[..i] + [b[i]] + b[i + 1..];
    assert multiset(b) == multiset(b[..i]) + multiset{b[i]} + multiset(b[i + 1..]);
  }

  /** Taking out the item at `i` removes its size from the total. */
  lemma RemoveAtTotal(b: seq<SizedItem>, i: nat)
    requires i < |b|
    ensures TotalOf(b) == TotalOf(b[..i] + b[i + 1..]) + b[i].size
  {
    var x := b[i];
    assert b == b[..i] + [x] + b[i + 1..];
    TotalOfAppend(b[..i] + [x], b[i + 1..]);
    TotalOfAppend(b[..i], [x]);
    TotalOfAppend(b[..i], b[i + 1..]);
    assert TotalOf([x]) == x.size by {
      assert [x][..0] == [];
    }
  }

  /** The total does not depend on the order in which the entries are summed. */
  lemma {:induction false} TotalOfPermutation(a: seq<SizedItem>, b: seq<SizedItem>)
    requires multiset(a) == multiset(b)
    ensures TotalOf(a) == TotalOf(b)
    decreases |a|
  {
    if a == [] {
      assert |b| == |multiset(b)| == 0;
    } else {
      var x := a[|a| - 1];
      var init := a[..|a| - 1];
      assert a == init + [x];
      assert multiset(init) == multiset(a) - multiset{x};
      assert x in multiset(b);
      var i :| 0 <= i < |b| && b[i] == x;
      RemoveAtMultiset(b, i);
      RemoveAtTotal(b, i);
      TotalOfPermutation(init, b[..i] + b[i + 1..]);
    }
  }

  /** The byte total of a partition as the worker sums it, in enumeration order. */
  function PartitionSize(order: seq<string>, p: Partition): nat {
    TotalOf(Items(order, p))
  }

  /** No item occurs twice. */
  ghost predicate NoDuplicates(s: seq<SizedItem>) {
    forall x :: multiset(s)[x] <= 1
  }

  /** Two positions holding the same item make it occur twice. */
  lemma TwoPositionsCountTwice(s: seq<SizedItem>, i: int, j: int)
    requires 0 <= i < j < |s|
    ensures s[i] == s[j] ==> multiset(s)[s[i]] >= 2
  {
    assert s == s[..j] + s[j..];
    assert s[i] in s[..j];
    assert s[j] in s[j..];
    assert multiset(s) == multiset(s[..j]) + multiset(s[j..]);
  }

  /** Duplicate-free sequences with the same members are permutations of each other. */
  lemma SameMembersPermutation(a: seq<SizedItem>, b: seq<SizedItem>)
    requires NoDuplicates(a) && NoDuplicates(b)
    requires forall x :: x in a <==> x in b
    ensures multiset(a) == multiset(b)
  {
    forall x
      ensures multiset(a)[x] == multiset(b)[x]
    {
      if x in a {
        assert x in multiset(a) && x in multiset(b);
      } else {
        assert x !in multiset(a) && x !in multiset(b);
      }
    }
  }

  /** A duplicate-free enumeration yields each entry's item once. */
  lemma {:induction false} ItemsNoDuplicates(order: seq<string>, p: Partition)
    requires Distinct(order)
    ensures NoDuplicates(Items(order, p))
  {
    if order != [] {
      var rest := Items(order[1..], p);
      ItemsNoDuplicates(order[1..], p);
      if order[0] in p {
        var x := ItemOf(order[0], p[order[0]]);
        forall y | y in rest
          ensures y != x
        {
          var i :| 0 < i < |order| && order[i] == y.key;
          assert order[0] != order[i];
        }
        assert x !in multiset(rest);
        assert multiset(Items(order, p)) == multiset{x} + multiset(rest);
      } else {
        assert Items(order, p) == rest;
      }
    }
  }

  /** The sum does not depend on the order the platform enumerates the keys in. */
  lemma PartitionSizeOrderIndependent(p: Partition, order1: seq<string>, order2: seq<string>)
    requires Distinct(order1) && Covers(order1, p)
    requires Distinct(order2) && Covers(order2, p)
    ensures PartitionSize(order1, p) == PartitionSize(order2, p)
  {
    var a := Items(order1, p);
    var b := Items(order2, p);
    ItemsNoDuplicates(order1, p);
    ItemsNoDuplicates(order2, p);
    forall x
      ensures x in a <==> x in b
    {
      if x in a {
        assert x.key in order2;
      }
      if x in b {
        assert x.key in order1;
      }
    }
    SameMembersPermutation(a, b);
    TotalOfPermutation(a, b);
  }

  /** A total is zero exactly when every item has size zero. */
  lemma {:induction false} TotalOfZero(items: seq<SizedItem>)
    ensures TotalOf(items) == 0 <==> forall i :: 0 <= i < |items| ==> items[i].size == 0
  {
    if items != [] {
      TotalOfZero(items[..|items| - 1]);
    }
  }

  // ---------------------------------------------------------------------------
  // Oldest-first ordering (`entries.sort((a, b) => a.timestamp - b.timestamp)`)

  predicate SortedByAge(s: seq<SizedItem>) {
    forall i, j :: 0 <= i < j < |s| ==> s[i].timestamp <= s[j].timestamp
  }

  /** Inserts `x` before the first item that is not older than it. */
  function InsertByAge(x: SizedItem, s: seq<SizedItem>): (r: seq<SizedItem>)
    ensures multiset(r) == multiset(s) + multiset{x}
  {
    if s == [] || x.timestamp <= s[0].timestamp then [x] + s
    else
      assert s == [s[0]] + s[1..];
      [s[0]] + InsertByAge(x, s[1..])
  }

  /** Every item of an insertion is the inserted one or was already there. */
  lemma InsertMembers(x: SizedItem, s: seq<SizedItem>)
    ensures forall y :: y in InsertByAge(x, s) ==> y == x || y in s
  {
    forall y | y in InsertByAge(x, s)
      ensures y == x || y in s
    {
      assert y in multiset(InsertByAge(x, s));
    }
  }

  /** An item no younger than anything in an oldest-first sequence can go in front of it. */
  lemma SortedCons(a: SizedItem, rest: seq<SizedItem>)
    requires SortedByAge(rest)
    requires forall y :: y in rest ==> a.timestamp <= y.timestamp
    ensures SortedByAge([a] + rest)
  {
    forall i, j | 0 <= i < j < |[a] + rest|
      ensures ([a] + rest)[i].timestamp <= ([a] + rest)[j].timestamp
    {
      assert ([a] + rest)[j] == rest[j - 1];
      if i > 0 {
        assert ([a] + rest)[i] == rest[i - 1];
      }
    }
  }

  /** Insertion keeps an oldest-first sequence oldest-first. */
  lemma {:induction false} InsertKeepsSorted(x: SizedItem, s: seq<SizedItem>)
    requires SortedByAge(s)
    ensures SortedByAge(InsertByAge(x, s))
  {
    if s == [] || x.timestamp <= s[0].timestamp {
      assert forall y :: y in s ==> s[0].timestamp <= y.timestamp;
      SortedCons(x, s);
    } else {
      var rest := InsertByAge(x, s[1..]);
      InsertKeepsSorted(x, s[1..]);
      InsertMembers(x, s[1..]);
      assert forall y :: y in s[1..] ==> s[0].timestamp <= y.timestamp;
      SortedCons(s[0], rest);
    }
  }

  /** Insertion sort, oldest timestamp first. */
  function SortByAge(s: seq<SizedItem>): (r: seq<SizedItem>)
    ensures multiset(r) == multiset(s)
    ensures SortedByAge(r)
  {
    if s == [] then []
    else
      assert s == [s[0]] + s[1..];
      InsertKeepsSorted(s[0], SortByAge(s[1..]));
      InsertByAge(s[0], SortByAge(s[1..]))
  }

  // ---------------------------------------------------------------------------
  // Size-bound eviction (manageCacheSize)

  /** `p` without the keys in `gone`. */
  function Without(p: Partition, gone: seq<string>): (r: Partition)
    ensures forall k :: k in r <==> k in p && k !in gone
    ensures forall k :: k in r ==> r[k] == p[k]
  {
    map k | k in p && k !in gone :: p[k]
  }

  /**
   * The deletion loop over the oldest-first items: deletes while the
   * remaining total exceeds `maxSize` and returns how many were deleted.
   */
  method EvictionCount(sorted: seq<SizedItem>, total: int, maxSize: int) returns (n: nat)
    requires total == TotalOf(sorted)
    ensures n <= |sorted|
    ensures total <= maxSize ==> n == 0
    ensures maxSize >= 0 ==> TotalOf(sorted[n..]) <= maxSize
    ensures n > 0 ==> TotalOf(sorted[n - 1..]) > maxSize
  {
    var removed := 0;
    n := 0;
    while n < |sorted|
      invariant 0 <= n <= |sorted|
      invariant removed == TotalOf(sorted[..n])
      invariant n > 0 ==> total - TotalOf(sorted[..n - 1]) > maxSize
    {
      if total - removed <= maxSize {
        break;
      }
      PrefixTotalStep(sorted, n);
      removed := removed + sorted[n].size;
      n := n + 1;
    }
    SplitTotal(sorted, n);
    if n > 0 {
      SplitTotal(sorted, n - 1);
    }
  }

  /** The total of a prefix grows by the size of the next item. */
  lemma PrefixTotalStep(s: seq<SizedItem>, n: nat)
    requires n < |s|
    ensures TotalOf(s[..n + 1]) == TotalOf(s[..n]) + s[n].size
  {
    assert s[..n + 1][..n] == s[..n];
  }

  /** Cutting a sequence in two splits its total. */
  lemma SplitTotal(s: seq<SizedItem>, n: nat)
    requires n <= |s|
    ensures TotalOf(s) == TotalOf(s[..n]) + TotalOf(s[n..])
  {
    assert s == s[..n] + s[n..];
    TotalOfAppend(s[..n], s[n..]);
  }

  /** Every key deleted was stamped no later than every key kept (missing timestamps count as 0). */
  predicate EvictedBeforeKept(p: Partition, evicted: seq<string>, kept: Partition) {
    forall k, k' :: k in evicted && k' in kept ==>
      k in p && k' in p && ItemOf(k, p[k]).timestamp <= ItemOf(k', p[k']).timestamp
  }

  /**
   * Sums the content-lengths; when the sum exceeds `maxSize`, deletes entries
   * oldest-first and stops as soon as the remaining sum is at most `maxSize`.
   * `evicted` lists the deleted keys in deletion order.
   */
  method ManageCacheSize(p: Partition, order: seq<string>, maxSize: int) returns (r: Partition, evicted: seq<string>)
    requires Distinct(order) && Covers(order, p)
    ensures TotalOf(Items(order, p)) <= maxSize ==> r == p && evicted == []
    ensures var sorted := SortByAge(Items(order, p));
      && |evicted| <= |sorted|
      && evicted == KeysOf(sorted[..|evicted|])
      && r == Without(p, evicted)
      && (maxSize >= 0 ==> TotalOf(sorted[|evicted|..]) <= maxSize)
      && (|evicted| > 0 ==> TotalOf(sorted[|evicted| - 1..]) > maxSize)
    ensures EvictedBeforeKept(p, evicted, r)
    ensures maxSize >= 0 ==> PartitionSize(order, r) <= maxSize
  {
    var items := Items(order, p);
    var sorted := SortByAge(items);
    var total := TotalOf(items);
    assert total == TotalOf(sorted) by {
      TotalOfPermutation(items, sorted);
    }
    var n := 0;
    if total > maxSize {
      n := EvictionCount(sorted, total, maxSize);
    } else {
      NothingToEvict(sorted, maxSize);
    }
    evicted := KeysOf(sorted[..n]);
    r := Without(p, evicted);
    assert EvictedBeforeKept(p, evicted, r) by {
      SortedItemsMatch(p, order, sorted);
      EvictedAreOldest(p, sorted, n);
    }
    assert PartitionSize(order, r) == TotalOf(sorted[n..]) by {
      SortedItemsMatch(p, order, sorted);
      SortedNoDuplicates(p, order, sorted);
      KeptSize(p, order, sorted, n);
    }
  }

  /** What size management keeps sums to the total of the oldest-first suffix it did not delete. */
  lemma KeptSize(p: Partition, order: seq<string>, sorted: seq<SizedItem>, n: nat)
    requires Distinct(order) && Covers(order, p)
    requires NoDuplicates(sorted) && ItemsMatch(sorted, p)
    requires n <= |sorted|
    ensures PartitionSize(order, Without(p, KeysOf(sorted[..n]))) == TotalOf(sorted[n..])
  {
    var r := Without(p, KeysOf(sorted[..n]));
    var kept := Items(order, r);
    var tail := sorted[n..];
    ItemsNoDuplicates(order, r);
    ItemsMembers(order, r);
    TailMembers(p, sorted, n);
    assert sorted == sorted[..n] + tail;
    assert multiset(sorted) == multiset(sorted[..n]) + multiset(tail);
    forall x
      ensures multiset(tail)[x] <= 1
    {
      assert multiset(tail)[x] <= multiset(sorted)[x];
    }
    forall x
      ensures x in kept <==> x in tail
    {
      assert x.key in r ==> r[x.key] == p[x.key];
    }
    SameMembersPermutation(kept, tail);
    TotalOfPermutation(kept, tail);
  }

  /** Membership in the enumerated items, when the enumeration covers the partition. */
  lemma ItemsMembers(order: seq<string>, p: Partition)
    requires Covers(order, p)
    ensures forall x :: x in Items(order, p) <==> x.key in p && x == ItemOf(x.key, p[x.key])
  {
  }

  /** The deleted keys are exactly the keys of the first `n` items. */
  lemma DeletedKeys(sorted: seq<SizedItem>, n: nat, k: string)
    requires n <= |sorted|
    ensures k in KeysOf(sorted[..n]) <==> exists i :: 0 <= i < n && sorted[i].key == k
  {
    var gone := KeysOf(sorted[..n]);
    if k in gone {
      var i :| 0 <= i < n && gone[i] == k;
      assert sorted[..n][i] == sorted[i];
    }
    if exists i :: 0 <= i < n && sorted[i].key == k {
      var i :| 0 <= i < n && sorted[i].key == k;
      assert gone[i] == sorted[..n][i].key;
    }
  }

  /** An item of the suffix does not share its key with a deleted item. */
  lemma TailKeyKept(p: Partition, sorted: seq<SizedItem>, n: nat, x: SizedItem)
    requires NoDuplicates(sorted) && ItemsMatch(sorted, p)
    requires n <= |sorted| && x in sorted[n..]
    ensures x.key !in KeysOf(sorted[..n])
  {
    var j :| 0 <= j < |sorted[n..]| && sorted[n..][j] == x;
    assert sorted[n + j] == x;
    DeletedKeys(sorted, n, x.key);
    if x.key in KeysOf(sorted[..n]) {
      var i :| 0 <= i < n && sorted[i].key == x.key;
      assert sorted[i] in sorted && x in sorted;
      TwoPositionsCountTwice(sorted, i, n + j);
      assert false;
    }
  }

  /** An entry whose key was not deleted has its item in the suffix. */
  lemma KeptItemInTail(p: Partition, sorted: seq<SizedItem>, n: nat, x: SizedItem)
    requires ItemsMatch(sorted, p)
    requires n <= |sorted| && x.key in p && x.key !in KeysOf(sorted[..n]) && x == ItemOf(x.key, p[x.key])
    ensures x in sorted[n..]
  {
    var j :| 0 <= j < |sorted| && sorted[j] == x;
    DeletedKeys(sorted, n, x.key);
    assert j >= n;
    assert sorted[n..][j - n] == x;
  }

  /** The suffix left after deleting `n` items holds exactly the items whose keys were not deleted. */
  lemma TailMembers(p: Partition, sorted: seq<SizedItem>, n: nat)
    requires NoDuplicates(sorted) && ItemsMatch(sorted, p)
    requires n <= |sorted|
    ensures forall x :: x in sorted[n..] <==>
      x.key in p && x.key !in KeysOf(sorted[..n]) && x == ItemOf(x.key, p[x.key])
  {
    forall x
      ensures x in sorted[n..] <==> x.key in p && x.key !in KeysOf(sorted[..n]) && x == ItemOf(x.key, p[x.key])
    {
      if x in sorted[n..] {
        TailKeyKept(p, sorted, n, x);
        assert x in sorted;
      }
      if x.key in p && x.key !in KeysOf(sorted[..n]) && x == ItemOf(x.key, p[x.key]) {
        KeptItemInTail(p, sorted, n, x);
      }
    }
  }

  /** The oldest-first items of a duplicate-free enumeration are duplicate-free. */
  lemma SortedNoDuplicates(p: Partition, order: seq<string>, sorted: seq<SizedItem>)
    requires Distinct(order)
    requires sorted == SortByAge(Items(order, p))
    ensures NoDuplicates(sorted)
  {
    ItemsNoDuplicates(order, p);
  }

  lemma NothingToEvict(sorted: seq<SizedItem>, maxSize: int)
    requires TotalOf(sorted) <= maxSize
    ensures TotalOf(sorted[0..]) <= maxSize
    ensures forall p: Partition :: Without(p, KeysOf(sorted[..0])) == p
  {
    assert sorted[0..] == sorted;
  }

  /** The oldest-first items of `p` are exactly the items of its entries. */
  predicate ItemsMatch(sorted: seq<SizedItem>, p: Partition) {
    && (forall x :: x in sorted ==> x.key in p && x == ItemOf(x.key, p[x.key]))
    && (forall k :: k in p ==> ItemOf(k, p[k]) in sorted)
  }

  lemma SortedItemsMatch(p: Partition, order: seq<string>, sorted: seq<SizedItem>)
    requires Covers(order, p)
    requires sorted == SortByAge(Items(order, p))
    ensures ItemsMatch(sorted, p)
  {
    var items := Items(order, p);
    forall x | x in sorted
      ensures x.key in p && x == ItemOf(x.key, p[x.key])
    {
      assert x in multiset(items);
    }
    forall k | k in p
      ensures ItemOf(k, p[k]) in sorted
    {
      assert ItemOf(k, p[k]) in multiset(sorted);
    }
  }

  /** One deleted key against one kept key. */
  lemma OldestPair(p: Partition, sorted: seq<SizedItem>, n: nat, k: string, k': string)
    requires SortedByAge(sorted) && ItemsMatch(sorted, p)
    requires n <= |sorted|
    requires k in KeysOf(sorted[..n]) && k' in Without(p, KeysOf(sorted[..n]))
    ensures k in p && k' in p && ItemOf(k, p[k]).timestamp <= ItemOf(k', p[k']).timestamp
  {
    DeletedKeys(sorted, n, k);
    DeletedKeys(sorted, n, k');
    var i :| 0 <= i < n && sorted[i].key == k;
    assert sorted[i] in sorted;
    var j :| 0 <= j < |sorted| && sorted[j] == ItemOf(k', p[k']);
    assert j >= n;
  }

  /** A prefix of the oldest-first order is no younger than anything left behind it. */
  lemma EvictedAreOldest(p: Partition, sorted: seq<SizedItem>, n: nat)
    requires SortedByAge(sorted) && ItemsMatch(sorted, p)
    requires n <= |sorted|
    ensures EvictedBeforeKept(p, KeysOf(sorted[..n]), Without(p, KeysOf(sorted[..n])))
  {
    forall k, k' | k in KeysOf(sorted[..n]) && k' in Without(p, KeysOf(sorted[..n]))
      ensures k in p && k' in p && ItemOf(k, p[k]).timestamp <= ItemOf(k', p[k']).timestamp
    {
      OldestPair(p, sorted, n, k, k');
    }
  }
}

=== FILE: cache_strategies.dfy ===
/**
 * The four retrieval strategies of the service worker (website/static/sw.js)
 * and the fetch handler that dispatches to them.
 *
 * The network is a parameter: an `Arrival` says what the fetch would settle
 * with and after how many milliseconds, and the worker's timeout race turns a
 * late arrival into a rejection. A strategy's background cache write is
 * modelled as complete in the returned store.
 */
module CacheStrategies {
  import opened Wrappers
  import opened Strings
  import opened CachePolicy
  import opened CacheStore

  /** Default network timeout in milliseconds (sw.js line 56). */
  const NetworkTimeout: nat := 5000

  /** The shorter timeout of API requests (sw.js line 275). */
  const ApiTimeout: nat := 3000

  /** What `fetch(request)` settles with, and when. */
  datatype Arrival = Arrival(outcome: NetOutcome, afterMs: nat)

  /** What a strategy answers the page with. */
  datatype Reply =
    | Served(resp: Response)
    | Thrown        // the strategy's promise rejected
    | NoResponse    // the strategy resolved with `null`

  datatype StrategyResult = StrategyResult(store: Store, reply: Reply)

  /** Race of the fetch against a timer: only a response settling before the timer fires wins. */
  function FetchWithTimeout(a: Arrival, timeout: nat): (r: NetOutcome)
    ensures r.Fetched? <==> a.outcome.Fetched? && a.afterMs < timeout
    ensures r.Fetched? ==> r == a.outcome
  {
    if a.outcome.Fetched? && a.afterMs < timeout then a.outcome else Fail
  }

  /** A response that beats the API timeout beats the default one too, but not conversely. */
  lemma ApiTimeoutIsStricter(a: Arrival)
    ensures FetchWithTimeout(a, ApiTimeout).Fetched? ==> FetchWithTimeout(a, NetworkTimeout).Fetched?
    ensures a.outcome.Fetched? && ApiTimeout <= a.afterMs < NetworkTimeout ==>
      FetchWithTimeout(a, ApiTimeout).Fail? && FetchWithTimeout(a, NetworkTimeout).Fetched?
  {
  }

  /** Stores an ok network response, stamped with `now`, under the request URL; other responses are not cached. */
  function CacheIfOk(s: Store, name: string, url: string, resp: Response, now: int): (r: Store)
    requires name in s
    ensures name in r && r.Keys == s.Keys
    ensures forall n :: n in s && n != name ==> r[n] == s[n]
    ensures resp.Ok() ==> r[name] == s[name][url := Entry(Some(now), resp)]
    ensures !resp.Ok() ==> r == s
  {
    if resp.Ok() then PutStamped(s, name, url, resp, now) else s
  }

  /** `cache.match(request)`: the Cache API matches only GET requests. */
  function CachedCopy(store: Store, name: string, req: Request): (r: Option<Entry>)
    ensures r.Some? <==> req.verb == "GET" && name in store && req.url in store[name]
    ensures r.Some? ==> r.value == store[name][req.url]
  {
    if req.verb == "GET" && name in store then Lookup(store[name], req.url) else None
  }

  /** `cache.put(request, response)` rejects a request that is not a GET and a partial (206) response. */
  predicate PutAccepted(req: Request, resp: Response) {
    req.verb == "GET" && resp.status != 206
  }

  /**
   * The network response reaches the strategy's return: it settled in time
   * and, when ok, the awaited cache write did not reject inside the `try`.
   */
  predicate Delivered(req: Request, net: NetOutcome) {
    net.Fetched? && (!net.resp.Ok() || PutAccepted(req, net.resp))
  }

  /** Cache first (static assets and images): a fresh cached copy, else the network, else a stale copy. */
  function CacheFirst(store: Store, req: Request, a: Arrival, now: int): (r: StrategyResult)
    ensures var name := GetCacheName(req.path).Name();
      var cached := CachedCopy(store, name, req);
      var young := cached.Some? && !IsCacheExpired(cached.value, StaticMaxAge, now);
      var net := FetchWithTimeout(a, NetworkTimeout);
      && name in r.store
      && (forall n :: n in store && n != name ==> n in r.store && r.store[n] == store[n])
      && (young ==> r == StrategyResult(store, Served(cached.value.response)))
      && (!young && Delivered(req, net) ==>
            r.reply == Served(net.resp) && r.store == CacheIfOk(Open(store, name), name, req.url, net.resp, now))
      && (!young && !Delivered(req, net) ==> r.store == Open(store, name))
      && (!young && !Delivered(req, net) && cached.Some? ==> r.reply == Served(cached.value.response))
      && (r.reply.Thrown? <==> cached.None? && !Delivered(req, net))
  {
    var name := GetCacheName(req.path).Name();
    var s := Open(store, name);
    var cached := CachedCopy(s, name, req);
    var net := FetchWithTimeout(a, NetworkTimeout);
    if cached.Some? && !IsCacheExpired(cached.value, StaticMaxAge, now) then
      StrategyResult(s, Served(cached.value.response))
    else if Delivered(req, net) then
      StrategyResult(CacheIfOk(s, name, req.url, net.resp, now), Served(net.resp))
    else if cached.Some? then
      StrategyResult(s, Served(cached.value.response))
    else
      StrategyResult(s, Thrown)
  }

  /**
   * Network first (the default): the network response whatever its status,
   * else the cached copy at any age, else for a navigation the offline page of
   * the same cache.
   */
  function NetworkFirst(store: Store, req: Request, a: Arrival, now: int): (r: StrategyResult)
    ensures var name := GetCacheName(req.path).Name();
      var cached := CachedCopy(store, name, req);
      var offline := req.navigate && name in store && OfflinePageUrl in store[name];
      var net := FetchWithTimeout(a, NetworkTimeout);
      && name in r.store
      && (forall n :: n in store && n != name ==> n in r.store && r.store[n] == store[n])
      && (Delivered(req, net) ==>
            r.reply == Served(net.resp) && r.store == CacheIfOk(Open(store, name), name, req.url, net.resp, now))
      && (!Delivered(req, net) ==> r.store == Open(store, name))
      && (!Delivered(req, net) && cached.Some? ==> r.reply == Served(cached.value.response))
      && (!Delivered(req, net) && cached.None? && offline ==> r.reply == Served(store[name][OfflinePageUrl].response))
      && (r.reply.Thrown? <==> !Delivered(req, net) && cached.None? && !offline)
  {
    var name := GetCacheName(req.path).Name();
    var s := Open(store, name);
    var net := FetchWithTimeout(a, NetworkTimeout);
    if Delivered(req, net) then StrategyResult(CacheIfOk(s, name, req.url, net.resp, now), Served(net.resp))
    else
      var cached := CachedCopy(s, name, req);
      if cached.Some? then StrategyResult(s, Served(cached.value.response))
      else if req.navigate && OfflinePageUrl in s[name] then StrategyResult(s, Served(s[name][OfflinePageUrl].response))
      else StrategyResult(s, Thrown)
  }

  /**
   * Network first with a short timeout (API paths): always the API cache; on
   * failure only a copy younger than one hour is served.
   */
  function NetworkFirstShort(store: Store, req: Request, a: Arrival, now: int): (r: StrategyResult)
    ensures ApiCacheName in r.store
    ensures forall n :: n in store && n != ApiCacheName ==> n in r.store && r.store[n] == store[n]
    ensures var net := FetchWithTimeout(a, ApiTimeout);
      Delivered(req, net) ==>
        r.reply == Served(net.resp) && r.store == CacheIfOk(Open(store, ApiCacheName), ApiCacheName, req.url, net.resp, now)
    ensures var net := FetchWithTimeout(a, ApiTimeout);
      var cached := CachedCopy(store, ApiCacheName, req);
      !Delivered(req, net) ==>
        && r.store == Open(store, ApiCacheName)
        && (r.reply.Served? <==> cached.Some? && !IsCacheExpired(cached.value, ApiMaxAge, now))
        && (r.reply.Served? ==> r.reply.resp == cached.value.response)
  {
    var s := Open(store, ApiCacheName);
    var net := FetchWithTimeout(a, ApiTimeout);
    if Delivered(req, net) then StrategyResult(CacheIfOk(s, ApiCacheName, req.url, net.resp, now), Served(net.resp))
    else
      var cached := CachedCopy(s, ApiCacheName, req);
      if cached.Some? && !IsCacheExpired(cached.value, ApiMaxAge, now) then StrategyResult(s, Served(cached.value.response))
      else StrategyResult(s, Thrown)
  }

  /**
   * Stale while revalidate (documentation pages): the cached copy at any age
   * at once, the network otherwise; the network fetch always runs and refreshes
   * the cache when ok. A failed fetch or cache write is caught and resolves to
   * `null`, so with nothing cached the page receives no response; `rethrow`
   * instead lets the failure reach the fetch handler's offline fallback.
   */
  function StaleWhileRevalidateWith(store: Store, req: Request, a: Arrival, now: int, rethrow: bool): (r: StrategyResult)
    ensures var name := GetCacheName(req.path).Name();
      var cached := CachedCopy(store, name, req);
      var net := FetchWithTimeout(a, NetworkTimeout);
      && name in r.store
      && (forall n :: n in store && n != name ==> n in r.store && r.store[n] == store[n])
      && (Delivered(req, net) ==> r.store == CacheIfOk(Open(store, name), name, req.url, net.resp, now))
      && (!Delivered(req, net) ==> r.store == Open(store, name))
      && (cached.Some? ==> r.reply == Served(cached.value.response))
      && (cached.None? && Delivered(req, net) ==> r.reply == Served(net.resp))
      && (r.reply.NoResponse? <==> !rethrow && cached.None? && !Delivered(req, net))
      && (r.reply.Thrown? <==> rethrow && cached.None? && !Delivered(req, net))
  {
    var name := GetCacheName(req.path).Name();
    var s := Open(store, name);
    var cached := CachedCopy(s, name, req);
    var net := FetchWithTimeout(a, NetworkTimeout);
    var s' := if Delivered(req, net) then CacheIfOk(s, name, req.url, net.resp, now) else s;
    if cached.Some? then StrategyResult(s', Served(cached.value.response))
    else if Delivered(req, net) then StrategyResult(s', Served(net.resp))
    else if rethrow then StrategyResult(s', Thrown)
    else StrategyResult(s', NoResponse)
  }

  /**
   * Runs the strategy `GetCacheStrategy` picks for the request's path. It
   * writes only to the cache `GetCacheName` picks, and only
   * stale-while-revalidate can leave the page without a response.
   */
  function RunStrategy(store: Store, req: Request, a: Arrival, now: int, rethrow: bool): (r: StrategyResult)
    ensures GetCacheName(req.path).Name() in r.store
    ensures forall n :: n in store && n != GetCacheName(req.path).Name() ==> n in r.store && r.store[n] == store[n]
    ensures r.reply.NoResponse? ==> !rethrow && GetCacheStrategy(req.path) == Strategy.StaleWhileRevalidate
    ensures r.reply.Thrown? && GetCacheStrategy(req.path) == Strategy.StaleWhileRevalidate ==> rethrow
  {
    match GetCacheStrategy(req.path)
    case CacheFirst => CacheFirst(store, req, a, now)
    case NetworkFirstShort => NetworkFirstShort(store, req, a, now)
    case StaleWhileRevalidate => StaleWhileRevalidateWith(store, req, a, now, rethrow)
    case NetworkFirst => NetworkFirst(store, req, a, now)
  }

  /** The generic reply when nothing better is available. */
  const OfflineResponse: Response := Response(503, "Offline - Content not available", None)

  /** What the fetch handler does with an intercepted request. */
  datatype FetchResult =
    | PassThrough                  // not handled: the browser fetches as usual
    | Respond(store: Store, reply: Reply)

  /** The request is handled only for an http(s) URL without a (non-empty) range header. */
  predicate Handled(req: Request) {
    StartsWith(req.url, "http") && (req.range.None? || req.range.value == "")
  }

  /**
   * The fetch handler. A rejected strategy falls back, for a navigation, to
   * the offline page of the dynamic cache, and otherwise to a 503.
   */
  function HandleFetchWith(store: Store, req: Request, a: Arrival, now: int, rethrow: bool): (r: FetchResult)
    ensures r.PassThrough? <==> !Handled(req)
    ensures r.Respond? ==> !r.reply.Thrown?
    ensures r.Respond? && r.reply.NoResponse? ==> !rethrow && GetCacheStrategy(req.path) == Strategy.StaleWhileRevalidate
    ensures var res := RunStrategy(store, req, a, now, rethrow);
      Handled(req) && !res.reply.Thrown? ==> r == Respond(res.store, res.reply)
    ensures var res := RunStrategy(store, req, a, now, rethrow);
      var s := Open(res.store, DynamicCacheName);
      Handled(req) && res.reply.Thrown? && req.navigate && OfflinePageUrl in s[DynamicCacheName] ==>
        r == Respond(s, Served(s[DynamicCacheName][OfflinePageUrl].response))
    ensures var res := RunStrategy(store, req, a, now, rethrow);
      var s := if req.navigate then Open(res.store, DynamicCacheName) else res.store;
      Handled(req) && res.reply.Thrown? && !(req.navigate && OfflinePageUrl in s[DynamicCacheName]) ==>
        r == Respond(s, Served(OfflineResponse))
  {
    if !Handled(req) then PassThrough
    else
      var res := RunStrategy(store, req, a, now, rethrow);
      if !res.reply.Thrown? then Respond(res.store, res.reply)
      else
        var s := if req.navigate then Open(res.store, DynamicCacheName) else res.store;
        if req.navigate && OfflinePageUrl in s[DynamicCacheName] then Respond(s, Served(s[DynamicCacheName][OfflinePageUrl].response))
        else Respond(s, Served(OfflineResponse))
  }

  /** The fetch handler as written. */
  function HandleFetch(store: Store, req: Request, a: Arrival, now: int): (r: FetchResult)
    ensures r.PassThrough? <==> !Handled(req)
  {
    HandleFetchWith(store, req, a, now, false)
  }

  /** The fetch handler with stale-while-revalidate rethrowing a failed fetch when nothing is cached. */
  function HandleFetchCorrected(store: Store, req: Request, a: Arrival, now: int): (r: FetchResult)
    ensures r.PassThrough? <==> !Handled(req)
    ensures r.Respond? ==> r.reply.Served?
  {
    HandleFetchWith(store, req, a, now, true)
  }

  // ---------------------------------------------------------------------------
  // Properties of the handler

  /**
   * Round trip of a cache-first asset: a response fetched ok is stored
   * stamped, and for the next thirty days the same request is answered with
   * it from the cache whatever the network does, without changing the store.
   * Only a GET request with a complete response can be stored this way.
   */
  lemma AssetRoundTrip(store: Store, req: Request, resp: Response, a: Arrival, a2: Arrival, now: int, later: int)
    requires Handled(req) && GetCacheStrategy(req.path) == Strategy.CacheFirst
    requires req.verb == "GET" && resp.status != 206
    requires GetCacheName(req.path).Name() !in store || req.url !in store[GetCacheName(req.path).Name()]
    requires FetchWithTimeout(a, NetworkTimeout) == Fetched(resp) && resp.Ok()
    requires now <= later <= now + StaticMaxAge
    ensures var first := HandleFetch(store, req, a, now);
      && first == Respond(first.store, Served(resp))
      && HandleFetch(first.store, req, a2, later) == Respond(first.store, Served(resp))
  {
    var name := GetCacheName(req.path).Name();
    var first := CacheFirst(store, req, a, now);
    assert first.store[name][req.url] == Entry(Some(now), resp);
  }

  /** A cache-first GET request whose network fails is served the cached copy, however old. */
  lemma CacheFirstServesStaleOnFailure(store: Store, req: Request, a: Arrival, now: int)
    requires GetCacheStrategy(req.path) == Strategy.CacheFirst && req.verb == "GET"
    requires GetCacheName(req.path).Name() in store && req.url in store[GetCacheName(req.path).Name()]
    requires FetchWithTimeout(a, NetworkTimeout).Fail?
    ensures RunStrategy(store, req, a, now, false).reply == Served(store[GetCacheName(req.path).Name()][req.url].response)
  {
  }

  /**
   * An offline navigation to a network-first page that was never cached gets
   * the offline page of the dynamic cache.
   */
  lemma OfflineNavigationGetsOfflinePage(store: Store, req: Request, a: Arrival, now: int)
    requires Handled(req) && req.navigate && GetCacheStrategy(req.path) == Strategy.NetworkFirst
    requires FetchWithTimeout(a, NetworkTimeout).Fail?
    requires DynamicCacheName in store && req.url !in store[DynamicCacheName] && OfflinePageUrl in store[DynamicCacheName]
    ensures HandleFetch(store, req, a, now) == Respond(store, Served(store[DynamicCacheName][OfflinePageUrl].response))
  {
  }

  /** A handled request that is neither a navigation nor answerable from cache or network gets the 503 reply. */
  lemma UnanswerableRequestGets503(store: Store, req: Request, a: Arrival, now: int)
    requires Handled(req) && !req.navigate
    requires GetCacheStrategy(req.path) == Strategy.NetworkFirst || GetCacheStrategy(req.path) == Strategy.CacheFirst
    requires FetchWithTimeout(a, NetworkTimeout).Fail?
    requires GetCacheName(req.path).Name() !in store || req.url !in store[GetCacheName(req.path).Name()]
    ensures HandleFetch(store, req, a, now).reply == Served(OfflineResponse)
  {
  }

  /**
   * As written, an offline navigation to a documentation page that is not
   * cached receives no response at all: stale-while-revalidate turns the
   * failure into `null`, so the offline page of the dynamic cache is never
   * consulted.
   */
  lemma DocsOfflineNavigationGetsNoResponse(store: Store, req: Request, a: Arrival, now: int)
    requires Handled(req) && req.navigate && GetCacheStrategy(req.path) == Strategy.StaleWhileRevalidate
    requires FetchWithTimeout(a, NetworkTimeout).Fail?
    requires DynamicCacheName in store && req.url !in store[DynamicCacheName] && OfflinePageUrl in store[DynamicCacheName]
    ensures HandleFetch(store, req, a, now) == Respond(store, NoResponse)
  {
  }

  /** With the failure rethrown, the same navigation gets the offline page. */
  lemma DocsOfflineNavigationGetsOfflinePage(store: Store, req: Request, a: Arrival, now: int)
    requires Handled(req) && req.navigate && GetCacheStrategy(req.path) == Strategy.StaleWhileRevalidate
    requires FetchWithTimeout(a, NetworkTimeout).Fail?
    requires DynamicCacheName in store && req.url !in store[DynamicCacheName] && OfflinePageUrl in store[DynamicCacheName]
    ensures HandleFetchCorrected(store, req, a, now) == Respond(store, Served(store[DynamicCacheName][OfflinePageUrl].response))
  {
  }

  /**
   * An ok response to a request that is not a GET never reaches the page: the
   * awaited `cache.put` rejects inside each strategy's `try`, nothing matches
   * a non-GET request in the cache, and the handler answers with a fallback
   * (the 503 reply, the offline page for a navigation, or nothing).
   */
  lemma OkNonGetResponseIsLost(store: Store, req: Request, resp: Response, a: Arrival, now: int)
    requires Handled(req) && req.verb != "GET"
    requires a.outcome == Fetched(resp) && a.afterMs < ApiTimeout && resp.Ok()
    ensures HandleFetch(store, req, a, now).Respond?
    ensures !req.navigate && GetCacheStrategy(req.path) != Strategy.StaleWhileRevalidate ==>
      HandleFetch(store, req, a, now).reply == Served(OfflineResponse)
    ensures GetCacheStrategy(req.path) == Strategy.StaleWhileRevalidate ==>
      HandleFetch(store, req, a, now).reply == NoResponse
  {
  }

  /** The introduction page as a navigation request. */
  const DocsIntroRequest: Request := Request("http://h/docs/intro", "GET", "/docs/intro", true, None)

  lemma DocsIntroRequestHandled()
    ensures Handled(DocsIntroRequest)
    ensures DocsIntroRequest.url != OfflinePageUrl
  {
    var url := DocsIntroRequest.url;
    assert url == "http://h/docs/intro";
    assert StartsWith(url, "http");
    assert |url| != |OfflinePageUrl|;
  }

  /** The dynamic cache holding only the offline page. */
  function OfflineOnly(page: Response): Store {
    map[DynamicCacheName := map[OfflinePageUrl := Entry(Some(0), page)]]
  }

  lemma OfflineOnlyFacts(page: Response)
    ensures DynamicCacheName in OfflineOnly(page)
    ensures DocsIntroRequest.url !in OfflineOnly(page)[DynamicCacheName]
    ensures OfflinePageUrl in OfflineOnly(page)[DynamicCacheName]
    ensures OfflineOnly(page)[DynamicCacheName][OfflinePageUrl].response == page
  {
    DocsIntroRequestHandled();
  }

  /** A concrete instance as written: the introduction page, offline, with only the offline page cached, gets nothing. */
  lemma DocsIntroOfflineAsWritten(page: Response)
    ensures HandleFetch(OfflineOnly(page), DocsIntroRequest, Arrival(Fail, 0), 1) == Respond(OfflineOnly(page), NoResponse)
  {
    var store := OfflineOnly(page);
    DocsIntroIsRevalidated();
    DocsIntroRequestHandled();
    OfflineOnlyFacts(page);
    DocsOfflineNavigationGetsNoResponse(store, DocsIntroRequest, Arrival(Fail, 0), 1);
  }

  /** The same instance with the failure rethrown gets the offline page. */
  lemma DocsIntroOfflineCorrected(page: Response)
    ensures HandleFetchCorrected(OfflineOnly(page), DocsIntroRequest, Arrival(Fail, 0), 1) == Respond(OfflineOnly(page), Served(page))
  {
    DocsIntroIsRevalidated();
    DocsIntroRequestHandled();
    OfflineOnlyFacts(page);
    DocsOfflineNavigationGetsOfflinePage(OfflineOnly(page), DocsIntroRequest, Arrival(Fail, 0), 1);
  }

  /** Strategies touch only the cache the request is routed to. */
  lemma StrategyFrame(store: Store, req: Request, a: Arrival, now: int, rethrow: bool, n: string)
    requires n in store
    requires n != GetCacheName(req.path).Name()
    ensures var r := RunStrategy(store, req, a, now, rethrow); n in r.store && r.store[n] == store[n]
  {
  }
}

=== FILE: client_config.dfy ===
/**
 * The client configuration record of internal/provider/config.go (a second
 * `Config` type, distinct from the one provider.go hands to resources) and
 * its methods. Each pointer-receiver method becomes a function from the old
 * record to the new record and the returned error.
 */
module ClientConfig {
  import opened Wrappers
  import opened ProviderConfigure

  datatype Config = Config(
    ovhClient: Option<OvhClient>, ovhEndpoint: string, ovhApplicationKey: string, ovhApplicationSecret: string,
    ovhConsumerKey: string,
    snowflakeDb: Option<Db>, snowflakeAccount: string, snowflakeUsername: string, snowflakePassword: string,
    snowflakeRole: string, snowflakeWarehouse: string, snowflakeDatabase: string, snowflakeSchema: string,
    snowflakePrivateKey: string, snowflakePrivateKeyPath: string)

  /** `NewConfig`: every field at its zero value. */
  function NewConfig(): (c: Config)
    ensures c.ovhClient.None? && c.snowflakeDb.None?
    ensures c.ovhEndpoint == "" && c.ovhApplicationKey == "" && c.ovhApplicationSecret == "" && c.ovhConsumerKey == ""
    ensures c.snowflakeAccount == "" && c.snowflakeUsername == "" && c.snowflakePassword == ""
    ensures c.snowflakeRole == "" && c.snowflakeWarehouse == "" && c.snowflakeDatabase == "" && c.snowflakeSchema == ""
    ensures c.snowflakePrivateKey == "" && c.snowflakePrivateKeyPath == ""
  {
    Config(None, "", "", "", "", None, "", "", "", "", "", "", "", "", "")
  }

  /** A method's effect: the record afterwards and the error it returned, if any. */
  datatype Step = Step(config: Config, err: Option<string>)

  const MissingOvhCredentials: string := "OVH credentials are required: application_key, application_secret, and consumer_key"

  /** `ConfigureOVHClient`; `newClient` is the OVH library's constructor. */
  function ConfigureOvhClient(c: Config, newClient: (string, string, string, string) -> Result<OvhClient, string>): (r: Step)
    ensures r.err.None? <==> (
      && c.ovhApplicationKey != "" && c.ovhApplicationSecret != "" && c.ovhConsumerKey != ""
      && newClient(c.ovhEndpoint, c.ovhApplicationKey, c.ovhApplicationSecret, c.ovhConsumerKey).Ok?)
    ensures (c.ovhApplicationKey == "" || c.ovhApplicationSecret == "" || c.ovhConsumerKey == "") ==>
      r == Step(c, Some(MissingOvhCredentials))
    ensures r.err.Some? ==> r.config == c
    ensures r.err.None? ==>
      r.config == c.(ovhClient := Some(newClient(c.ovhEndpoint, c.ovhApplicationKey, c.ovhApplicationSecret, c.ovhConsumerKey).value))
  {
    if c.ovhApplicationKey == "" || c.ovhApplicationSecret == "" || c.ovhConsumerKey == "" then
      Step(c, Some(MissingOvhCredentials))
    else
      match newClient(c.ovhEndpoint, c.ovhApplicationKey, c.ovhApplicationSecret, c.ovhConsumerKey)
      case Err(e) => Step(c, Some("failed to create OVH client: " + e))
      case Ok(client) => Step(c.(ovhClient := Some(client)), None)
  }

  /**
   * `ConfigureSnowflakeClient`: only checks. It never changes the record, so
   * the result is just the error.
   */
  function ConfigureSnowflakeClient(c: Config): (err: Option<string>)
    ensures err.None? <==> (
      && c.snowflakeAccount != "" && c.snowflakeUsername != ""
      && (c.snowflakePassword != "" || c.snowflakePrivateKey != "" || c.snowflakePrivateKeyPath != ""))
    ensures (c.snowflakeAccount == "" || c.snowflakeUsername == "") ==> err == Some("snowflake account and username are required")
  {
    if c.snowflakeAccount == "" || c.snowflakeUsername == "" then Some("snowflake account and username are required")
    else
      var hasPassword := c.snowflakePassword != "";
      var hasPrivateKey := c.snowflakePrivateKey != "" || c.snowflakePrivateKeyPath != "";
      if !hasPassword && !hasPrivateKey then Some("either password or private key authentication is required for snowflake")
      else None
  }

  /** Overwrite `field` only when the model's attribute is not null. */
  function Overwrite(field: string, attr: Option<string>): (v: string)
    ensures attr.None? ==> v == field
    ensures attr.Some? ==> v == attr.value
  {
    if attr.Some? then attr.value else field
  }

  /** The loading half of `LoadConfiguration`: ten fields, `snowflake_user` into the username. */
  function Load(c: Config, m: ProviderModel): (r: Config)
    ensures r.ovhClient == c.ovhClient && r.snowflakeDb == c.snowflakeDb
    ensures r.snowflakePrivateKeyPath == c.snowflakePrivateKeyPath
    ensures r.snowflakeDatabase == c.snowflakeDatabase && r.snowflakeSchema == c.snowflakeSchema
    ensures r.ovhEndpoint == Overwrite(c.ovhEndpoint, m.ovhEndpoint)
    ensures r.ovhApplicationKey == Overwrite(c.ovhApplicationKey, m.ovhApplicationKey)
    ensures r.ovhApplicationSecret == Overwrite(c.ovhApplicationSecret, m.ovhApplicationSecret)
    ensures r.ovhConsumerKey == Overwrite(c.ovhConsumerKey, m.ovhConsumerKey)
    ensures r.snowflakeAccount == Overwrite(c.snowflakeAccount, m.snowflakeAccount)
    ensures r.snowflakeUsername == Overwrite(c.snowflakeUsername, m.snowflakeUser)
    ensures r.snowflakePassword == Overwrite(c.snowflakePassword, m.snowflakePassword)
    ensures r.snowflakeRole == Overwrite(c.snowflakeRole, m.snowflakeRole)
    ensures r.snowflakeWarehouse == Overwrite(c.snowflakeWarehouse, m.snowflakeWarehouse)
    ensures r.snowflakePrivateKey == Overwrite(c.snowflakePrivateKey, m.snowflakePrivateKey)
  {
    c.(
      ovhEndpoint := Overwrite(c.ovhEndpoint, m.ovhEndpoint),
      ovhApplicationKey := Overwrite(c.ovhApplicationKey, m.ovhApplicationKey),
      ovhApplicationSecret := Overwrite(c.ovhApplicationSecret, m.ovhApplicationSecret),
      ovhConsumerKey := Overwrite(c.ovhConsumerKey, m.ovhConsumerKey),
      snowflakeAccount := Overwrite(c.snowflakeAccount, m.snowflakeAccount),
      snowflakeUsername := Overwrite(c.snowflakeUsername, m.snowflakeUser),
      snowflakePassword := Overwrite(c.snowflakePassword, m.snowflakePassword),
      snowflakeRole := Overwrite(c.snowflakeRole, m.snowflakeRole),
      snowflakeWarehouse := Overwrite(c.snowflakeWarehouse, m.snowflakeWarehouse),
      snowflakePrivateKey := Overwrite(c.snowflakePrivateKey, m.snowflakePrivateKey))
  }

  /** An all-null model loads nothing. */
  lemma NullModelLoadsNothing(c: Config)
    ensures Load(c, ProviderModel(None, None, None, None, None, None, None, None, None, None)) == c
  {
  }

  /** Loading is idempotent: a second load of the same model changes nothing more. */
  lemma LoadIdempotent(c: Config, m: ProviderModel)
    ensures Load(Load(c, m), m) == Load(c, m)
  {
  }

  /**
   * `LoadConfiguration`: load, then the OVH client, then the Snowflake check.
   * The loaded fields stay loaded when a check fails, and the Snowflake check
   * is not reached after an OVH failure.
   */
  function LoadConfiguration(c: Config, m: ProviderModel, newClient: (string, string, string, string) -> Result<OvhClient, string>): (r: Step)
    ensures var loaded := Load(c, m); var ovh := ConfigureOvhClient(loaded, newClient);
      && (ovh.err.Some? ==> r == Step(loaded, Some("failed to configure OVH client: " + ovh.err.value)))
      && (ovh.err.None? ==> r.config == ovh.config)
      && (ovh.err.None? && ConfigureSnowflakeClient(ovh.config).Some? ==>
            r.err == Some("failed to configure Snowflake client: " + ConfigureSnowflakeClient(ovh.config).value))
    ensures r.err.None? ==> r.config.ovhClient.Some?
  {
    var loaded := Load(c, m);
    var ovh := ConfigureOvhClient(loaded, newClient);
    match ovh.err
    case Some(e) => Step(loaded, Some("failed to configure OVH client: " + e))
    case None =>
      match ConfigureSnowflakeClient(ovh.config)
      case Some(e) => Step(ovh.config, Some("failed to configure Snowflake client: " + e))
      case None => Step(ovh.config, None)
  }

  /** The Snowflake half never touches the OVH half: the OVH client survives a failed Snowflake check. */
  lemma SnowflakeFailureKeepsOvhClient(c: Config, m: ProviderModel, newClient: (string, string, string, string) -> Result<OvhClient, string>)
    requires ConfigureOvhClient(Load(c, m), newClient).err.None?
    ensures LoadConfiguration(c, m, newClient).config.ovhClient.Some?
  {
  }

  /**
   * `ValidateConfiguration`: an error exactly when no OVH client is set; the
   * outcome of the `/me` probe is logged and otherwise ignored.
   */
  function ValidateConfiguration(c: Config, probe: Result<string, string>): (err: Option<string>)
    ensures err.Some? <==> c.ovhClient.None?
    ensures err.Some? ==> err.value == "OVH client is not configured"
  {
    if c.ovhClient.None? then Some("OVH client is not configured") else None
  }

  /** A successful load always validates, whatever the probe returns. */
  lemma LoadedConfigurationValidates(c: Config, m: ProviderModel, newClient: (string, string, string, string) -> Result<OvhClient, string>, probe: Result<string, string>)
    requires LoadConfiguration(c, m, newClient).err.None?
    ensures ValidateConfiguration(LoadConfiguration(c, m, newClient).config, probe).None?
  {
  }

  /** A fresh record does not validate, and its load fails on the missing OVH credentials when the model has none. */
  lemma FreshConfigFails(newClient: (string, string, string, string) -> Result<OvhClient, string>, probe: Result<string, string>)
    ensures ValidateConfiguration(NewConfig(), probe) == Some("OVH client is not configured")
    ensures var m := ProviderModel(None, None, None, None, None, None, None, None, None, None);
      LoadConfiguration(NewConfig(), m, newClient) == Step(NewConfig(), Some("failed to configure OVH client: " + MissingOvhCredentials))
  {
    NullModelLoadsNothing(NewConfig());
  }
}

=== FILE: color_palette.dfy ===
/**
 * The colour-palette helpers of the documentation site's Tailwind
 * configuration (website/tailwind.config.js): flattening a nested palette
 * into dash-joined keys, and turning the flat palette into CSS variables.
 */
module ColorPalette {
  /**
   * A palette value: a colour string, JavaScript `null` (an object to
   * `typeof`, with no entries), or an object whose entries are listed in
   * `Object.entries` order.
   */
  datatype Palette = Leaf(value: string) | Null | Node(entries: seq<(string, Palette)>)

  type Flat = map<string, string>

  const DefaultKey: string := "DEFAULT"

  /** The key a nested entry `number` of `color` gets: the bare colour for `DEFAULT`, else `color-number`. */
  function JoinKey(color: string, number: string): string {
    if number == DefaultKey then color else color + "-" + number
  }

  lemma JoinKeyInjective(color: string, a: string, b: string)
    requires JoinKey(color, a) == JoinKey(color, b)
    ensures a == b
  {
    if a != DefaultKey && b != DefaultKey {
      assert (color + "-" + a)[|color| + 1..] == a;
      assert (color + "-" + b)[|color| + 1..] == b;
    }
  }

  /** One nested object's flattened entries, re-keyed under `color`; distinct keys stay distinct. */
  function JoinAll(color: string, inner: Flat): (r: Flat)
    ensures forall k :: k in inner ==> JoinKey(color, k) in r && r[JoinKey(color, k)] == inner[k]
    ensures forall j :: j in r ==> exists k :: k in inner && j == JoinKey(color, k)
  {
    forall a, b | a in inner && b in inner && JoinKey(color, a) == JoinKey(color, b)
      ensures a == b
    {
      JoinKeyInjective(color, a, b);
    }
    map k | k in inner :: JoinKey(color, k) := inner[k]
  }

  /**
   * `Object.assign({}, ...)` over the first `n` entries of an object: each
   * entry contributes its leaf, nothing for `null`, or its flattened
   * children re-keyed; a later contribution overwrites an earlier key.
   */
  function FlattenPrefix(p: Palette, n: nat): Flat
    requires p.Node? && n <= |p.entries|
    decreases p, n
  {
    if n == 0 then map[]
    else
      var (color, v) := p.entries[n - 1];
      var earlier := FlattenPrefix(p, n - 1);
      match v
      case Leaf(x) => earlier[color := x]
      case Null => earlier
      case Node(es) => earlier + JoinAll(color, FlattenPrefix(v, |es|))
  }

  /** `flattenColorPalette`; a nullish palette (`colors ?? {}`) flattens to the empty map. */
  function Flatten(p: Palette): (r: Flat)
    requires !p.Leaf?
    ensures p.Null? ==> r == map[]
  {
    if p.Null? then map[] else FlattenPrefix(p, |p.entries|)
  }

  /** Every colour string of the first `n` entries, at any depth. */
  function LeavesPrefix(p: Palette, n: nat): set<string>
    requires p.Node? && n <= |p.entries|
    decreases p, n
  {
    if n == 0 then {}
    else
      var v := p.entries[n - 1].1;
      LeavesPrefix(p, n - 1) + match v
        case Leaf(x) => {x}
        case Null => {}
        case Node(es) => LeavesPrefix(v, |es|)
  }

  /** Flattening changes keys only: every value of the flat palette is a colour of the tree. */
  lemma {:induction false} ValuesAreLeaves(p: Palette, n: nat)
    requires p.Node? && n <= |p.entries|
    ensures forall k :: k in FlattenPrefix(p, n) ==> FlattenPrefix(p, n)[k] in LeavesPrefix(p, n)
    decreases p, n
  {
    if n > 0 {
      ValuesAreLeaves(p, n - 1);
      var (color, v) := p.entries[n - 1];
      if v.Node? {
        ValuesAreLeaves(v, |v.entries|);
      }
    }
  }

  /** The flat palette depends only on the entries flattened so far. */
  lemma {:induction false} PrefixOnly(p: Palette, q: Palette, n: nat)
    requires p.Node? && q.Node? && n <= |p.entries| && n <= |q.entries|
    requires p.entries[..n] == q.entries[..n]
    ensures FlattenPrefix(p, n) == FlattenPrefix(q, n)
  {
    if n > 0 {
      assert p.entries[..n - 1] == q.entries[..n - 1] by {
        assert p.entries[..n - 1] == p.entries[..n][..n - 1];
        assert q.entries[..n - 1] == q.entries[..n][..n - 1];
      }
      assert p.entries[n - 1] == p.entries[..n][n - 1] == q.entries[n - 1];
      PrefixOnly(p, q, n - 1);
    }
  }

  /** Appending an entry applies its contribution on top of everything before it: the later entry wins. */
  lemma AppendEntry(es: seq<(string, Palette)>, color: string, v: Palette)
    ensures var r := Flatten(Node(es + [(color, v)]));
      match v
      case Leaf(x) => r == Flatten(Node(es))[color := x]
      case Null => r == Flatten(Node(es))
      case Node(cs) => r == Flatten(Node(es)) + JoinAll(color, Flatten(v))
  {
    var p := Node(es + [(color, v)]);
    assert p.entries[..|es|] == es;
    PrefixOnly(p, Node(es), |es|);
  }

  /** A top-level colour string keeps its key and value when it comes last. */
  lemma LastScalarWins(es: seq<(string, Palette)>, color: string, x: string)
    ensures var r := Flatten(Node(es + [(color, Leaf(x))])); color in r && r[color] == x
  {
    AppendEntry(es, color, Leaf(x));
  }

  /** A `null` entry contributes nothing. */
  lemma NullEntryIsIgnored(es: seq<(string, Palette)>, color: string)
    ensures Flatten(Node(es + [(color, Null)])) == Flatten(Node(es))
  {
    AppendEntry(es, color, Null);
  }

  /** A nested entry's keys are `color-number`, with `DEFAULT` mapped to the bare colour. */
  lemma NestedKeys(es: seq<(string, Palette)>, color: string, cs: seq<(string, Palette)>, number: string)
    requires number in Flatten(Node(cs))
    ensures var r := Flatten(Node(es + [(color, Node(cs))]));
      JoinKey(color, number) in r && r[JoinKey(color, number)] == Flatten(Node(cs))[number]
  {
    AppendEntry(es, color, Node(cs));
  }

  /** A one-entry object flattens to that entry's contribution alone. */
  lemma SingleEntry(color: string, v: Palette)
    ensures v.Leaf? ==> Flatten(Node([(color, v)])) == map[color := v.value]
    ensures v.Node? ==> Flatten(Node([(color, v)])) == JoinAll(color, Flatten(v))
  {
    AppendEntry([], color, v);
    assert [] + [(color, v)] == [(color, v)];
    assert Flatten(Node([])) == map[];
  }

  lemma JoinSingle(color: string, number: string, x: string)
    ensures JoinAll(color, map[number := x]) == map[JoinKey(color, number) := x]
  {
  }

  /** The system colours' `card: { DEFAULT: ... }` becomes the bare key `card`. */
  lemma CardDefaultExample()
    ensures Flatten(Node([("card", Node([("DEFAULT", Leaf("hsl(var(--card))"))]))])) == map["card" := "hsl(var(--card))"]
  {
    var card := Node([("DEFAULT", Leaf("hsl(var(--card))"))]);
    SingleEntry("DEFAULT", Leaf("hsl(var(--card))"));
    SingleEntry("card", card);
    JoinSingle("card", "DEFAULT", "hsl(var(--card))");
  }

  lemma PurpleLevel()
    ensures Flatten(Node([("purple", Node([("500", Leaf("#6c5ce7"))]))])) == map["purple-500" := "#6c5ce7"]
  {
    SingleEntry("500", Leaf("#6c5ce7"));
    SingleEntry("purple", Node([("500", Leaf("#6c5ce7"))]));
    JoinSingle("purple", "500", "#6c5ce7");
    PurpleKey();
  }

  lemma PurpleKey()
    ensures JoinKey("purple", "500") == "purple-500"
  {
    assert "500" != DefaultKey by { assert |"500"| != |DefaultKey|; }
    assert "purple" + "-" + "500" == "purple-500";
  }

  lemma SpectrumKey()
    ensures JoinKey("spectrum", "purple-500") == "spectrum-purple-500"
  {
    assert "purple-500" != DefaultKey by { assert |"purple-500"| != |DefaultKey|; }
    assert "spectrum" + "-" + "purple-500" == "spectrum-purple-500";
  }

  /** Flattening recurses to any depth: `spectrum.purple.500` becomes `spectrum-purple-500`. */
  lemma SpectrumPurpleExample()
    ensures Flatten(Node([("spectrum", Node([("purple", Node([("500", Leaf("#6c5ce7"))]))]))]))
      == map["spectrum-purple-500" := "#6c5ce7"]
  {
    var spectrum := Node([("purple", Node([("500", Leaf("#6c5ce7"))]))]);
    PurpleLevel();
    SingleEntry("spectrum", spectrum);
    JoinSingle("spectrum", "purple-500", "#6c5ce7");
    SpectrumKey();
  }

  /** `addVariablesForColors`: one `--key` custom property per flat entry, with the same value. */
  function AddVariables(flat: Flat): (vars: Flat)
    ensures forall k :: k in flat ==> "--" + k in vars && vars["--" + k] == flat[k]
    ensures forall v :: v in vars ==> |v| >= 2 && v[..2] == "--" && v[2..] in flat
  {
    forall a, b | a in flat && b in flat && "--" + a == "--" + b
      ensures a == b
    {
      assert ("--" + a)[2..] == a;
      assert ("--" + b)[2..] == b;
    }
    map k | k in flat :: "--" + k := flat[k]
  }

  /** Two strings with the same first two characters and the same rest are equal. */
  lemma SameTailSamePrefix(a: string, b: string)
    requires |a| >= 2 && |b| >= 2 && a[..2] == b[..2] && a[2..] == b[2..]
    ensures a == b
  {
    assert a == a[..2] + a[2..];
    assert b == b[..2] + b[2..];
  }

  /** The variables and the flat palette are in one-to-one correspondence: stripping `--` gives the palette back. */
  lemma VariablesRoundTrip(flat: Flat)
    ensures var vars := AddVariables(flat);
      (map v | v in vars :: v[2..] := vars[v]) == flat
  {
    var vars := AddVariables(flat);
    forall a, b | a in vars && b in vars && a[2..] == b[2..]
      ensures a == b
    {
      SameTailSamePrefix(a, b);
    }
    var back := map v | v in vars :: v[2..] := vars[v];
    forall k | k in flat
      ensures k in back && back[k] == flat[k]
    {
      assert ("--" + k)[2..] == k;
    }
    assert back.Keys == flat.Keys;
  }
}

=== FILE: grant_resource.dfy ===
/**
 * The SDK-v2 grant resource (internal/provider/resource_snowflake_grant.go).
 * Every input forces replacement, so there is nothing to update in place.
 */
module GrantResource {
  import opened Wrappers
  import opened Json
  import opened ResourceCrud

  const Privileges: set<string> := {
    "SELECT", "INSERT", "UPDATE", "DELETE", "TRUNCATE", "REFERENCES",
    "USAGE", "CREATE", "MONITOR", "OPERATE", "READ", "WRITE", "ALL", "ALL PRIVILEGES"}

  const ObjectTypes: set<string> := {
    "ACCOUNT", "DATABASE", "SCHEMA", "TABLE", "VIEW", "WAREHOUSE", "ROLE", "USER", "RESOURCE MONITOR", "INTEGRATION"}

  datatype GrantConfig = GrantConfig(
    privilege: string, on: string, objectName: Option<string>, toRole: Option<string>, toUser: Option<string>,
    withGrantOption: Option<bool>)

  /** The schema validators. Nothing requires a grantee: both `to_role` and `to_user` may be unset. */
  predicate ValidConfig(c: GrantConfig) {
    c.privilege in Privileges && c.on in ObjectTypes
  }

  lemma GranteeNotRequired()
    ensures ValidConfig(GrantConfig("USAGE", "WAREHOUSE", Some("wh"), None, None, None))
  {
  }

  /** The create payload: unset strings are sent empty and the grant option defaults to false. */
  function Payload(c: GrantConfig): (p: Object)
    ensures p.Keys == {"privilege", "on", "objectName", "toRole", "toUser", "withGrantOption"}
    ensures c.objectName.Some? ==> p["objectName"] == JStr(c.objectName.value)
    ensures c.objectName.None? ==> p["objectName"] == JStr("")
    ensures c.toRole.Some? ==> p["toRole"] == JStr(c.toRole.value)
    ensures c.toRole.None? ==> p["toRole"] == JStr("")
    ensures c.toUser.Some? ==> p["toUser"] == JStr(c.toUser.value)
    ensures c.toUser.None? ==> p["toUser"] == JStr("")
    ensures c.withGrantOption.Some? ==> p["withGrantOption"] == JBool(c.withGrantOption.value)
    ensures c.withGrantOption.None? ==> p["withGrantOption"] == JBool(false)
    ensures p["privilege"] == JStr(c.privilege) && p["on"] == JStr(c.on)
  {
    map[
      "privilege" := JStr(c.privilege), "on" := JStr(c.on),
      "objectName" := JStr(c.objectName.GetOr("")), "toRole" := JStr(c.toRole.GetOr("")),
      "toUser" := JStr(c.toUser.GetOr("")), "withGrantOption" := JBool(c.withGrantOption.GetOr(false))]
  }

  /** The input attributes, all of which force replacement. */
  const InputAttrs: set<string> := {"privilege", "on", "object_name", "to_role", "to_user", "with_grant_option"}

  const ReadFields: seq<FieldMap> := [
    FieldMap("privilege", "privilege"), FieldMap("on", "on"), FieldMap("object_name", "objectName"),
    FieldMap("to_role", "toRole"), FieldMap("to_user", "toUser"), FieldMap("with_grant_option", "withGrantOption"),
    FieldMap("granted_on", "grantedOn"), FieldMap("granted_to", "grantedTo"), FieldMap("granted_by", "grantedBy")
  ]

  const Kind: string := "grant"

  /** Terraform replaces a grant exactly when one of its inputs changes. */
  predicate NeedsReplacement(changed: set<string>) {
    changed * InputAttrs != {}
  }

  // Distinctness of a literal table is proved piecewise: three slices and their pairwise disjointness.

  lemma ReadFieldsPiece0()
    ensures DistinctFields(ReadFields[..3])
  {
  }

  lemma ReadFieldsPiece1()
    ensures DistinctFields(ReadFields[3..6])
  {
  }

  lemma ReadFieldsPiece2()
    ensures DistinctFields(ReadFields[6..])
  {
  }

  lemma ReadFieldsApart01()
    ensures Disjoint(ReadFields[..3], ReadFields[3..6])
  {
  }

  lemma ReadFieldsApart02()
    ensures Disjoint(ReadFields[..3], ReadFields[6..])
  {
  }

  lemma ReadFieldsApart12()
    ensures Disjoint(ReadFields[3..6], ReadFields[6..])
  {
  }

  lemma ReadFieldsDistinct()
    ensures DistinctFields(ReadFields)
    ensures forall i :: 0 <= i < |ReadFields| ==> ReadFields[i].attr != "tags"
  {
    ReadFieldsPiece0(); ReadFieldsPiece1(); ReadFieldsPiece2();
    ReadFieldsApart01(); ReadFieldsApart02(); ReadFieldsApart12();
    ChunkedDistinct(ReadFields, 3, 6);
  }

  /** The read handler reads back every input, under the key the create payload used. */
  function ReadGrant(data: ResourceData, fetched: Result<Object, string>): (r: Outcome)
    ensures fetched.Err? ==> r.data.id == "" && r.diag == Some("failed to read Snowflake " + Kind + ": " + fetched.error)
    ensures fetched.Ok? ==> r.data.id == data.id && r.diag.None?
    ensures fetched.Ok? ==> forall i :: 0 <= i < |ReadFields| ==>
      ReadFields[i].attr in r.data.state && r.data.state[ReadFields[i].attr] == Get(fetched.value, ReadFields[i].apiKey)
  {
    ReadFieldsDistinct();
    Read(Kind, data, fetched, ReadFields, false)
  }

  /** The inputs are exactly the first six read attributes. */
  lemma InputsAreRead()
    ensures InputAttrs == Attrs(ReadFields[..6])
  {
    var pre := ReadFields[..6];
    assert pre[0].attr == "privilege" && pre[1].attr == "on" && pre[2].attr == "object_name";
    assert pre[3].attr == "to_role" && pre[4].attr == "to_user" && pre[5].attr == "with_grant_option";
  }

  /**
   * The create handler. Round trip: when the API echoes the payload with an
   * id, every input reads back with the value the payload carried.
   */
  function CreateGrant(c: GrantConfig, data: ResourceData, posted: Result<Object, string>, fetched: Result<Object, string>): (r: CreateOutcome)
    ensures r.sent == Payload(c)
    ensures r.CreateFailed? <==> posted.Err?
    ensures r.Created? <==> posted.Ok? && Get(posted.value, "id").JStr?
    ensures r.Created? ==> r.read == ReadGrant(ResourceData(posted.value["id"].s, data.state), fetched)
  {
    var body := Payload(c);
    match posted
    case Err(e) => CreateFailed(body, "failed to create Snowflake " + Kind + ": " + e)
    case Ok(obj) =>
      match Get(obj, "id")
      case JStr(id) => Created(body, ReadGrant(ResourceData(id, data.state), fetched))
      case _ => IdPanic(body)
  }

  lemma CreateEchoRoundTrip(c: GrantConfig, data: ResourceData, i: nat)
    requires i < 6
    ensures var r := ReadGrant(data, Ok(Payload(c)));
      ReadFields[i].attr in r.data.state && r.data.state[ReadFields[i].attr] == Get(Payload(c), ReadFields[i].apiKey)
      && ReadFields[i].apiKey in Payload(c)
  {
    PayloadKeysAreRead(c, i);
  }

  lemma PayloadKeysAreRead(c: GrantConfig, i: nat)
    requires i < 6
    ensures ReadFields[i].apiKey in Payload(c)
  {
  }

  /**
   * The update handler is the read handler: it only runs for changes that do
   * not replace the grant, and it calls nothing else.
   */
  function UpdateGrant(data: ResourceData, changed: set<string>, fetched: Result<Object, string>): (r: Outcome)
    requires !NeedsReplacement(changed)
    ensures r == ReadGrant(data, fetched)
    ensures fetched.Err? ==> r.data.id == "" && r.diag == Some("failed to read Snowflake " + Kind + ": " + fetched.error)
    ensures fetched.Ok? ==> r.diag.None? && forall i :: 0 <= i < |ReadFields| ==>
      ReadFields[i].attr in r.data.state && r.data.state[ReadFields[i].attr] == Get(fetched.value, ReadFields[i].apiKey)
  {
    ReadGrant(data, fetched)
  }

  function DeleteGrant(data: ResourceData, deleteError: Option<string>): (r: Outcome)
    ensures r.data.id == "" <==> deleteError.None? || data.id == ""
    ensures r.diag.Some? <==> deleteError.Some?
  {
    Delete(Kind, data, deleteError)
  }
}

=== FILE: json.dfy ===
/**
 * The dynamically typed values the provider exchanges with the OVH API
 * (`map[string]interface{}` in Go): decoded JSON.
 */
module Json {
  datatype Json =
    | JNull
    | JBool(b: bool)
    | JInt(i: int)
    | JStr(s: string)
    | JList(items: seq<Json>)
    | JObject(fields: map<string, Json>)

  /** A JSON object, also the shape of every request payload. */
  type Object = map<string, Json>

  /** Go's `obj[key]` on a `map[string]interface{}`: `nil` when the key is absent. */
  function Get(obj: Object, key: string): (v: Json)
    ensures key !in obj ==> v == JNull
    ensures key in obj ==> v == obj[key]
  {
    if key in obj then obj[key] else JNull
  }
}

=== FILE: provider_configure.dfy ===
/**
 * The plugin-framework provider (internal/provider/provider.go): how each
 * setting is resolved from the configuration and the environment, the order
 * of the credential checks, when a Snowflake connection is opened, and the
 * provider's metadata and registries.
 *
 * The OVH client constructor, the Snowflake DSN builder and `sql.Open` are
 * foreign calls; they are parameters here, as pure functions of exactly the
 * arguments the provider passes them.
 */
module ProviderConfigure {
  import opened Wrappers

  /** The process environment: variable name to value. */
  type Env = map<string, string>

  /** `os.Getenv`: the empty string for an unset variable. */
  function Getenv(env: Env, name: string): (v: string)
    ensures name in env ==> v == env[name]
    ensures name !in env ==> v == ""
  {
    if name in env then env[name] else ""
  }

  /** The provider block as Terraform hands it over; `None` for a null attribute. */
  datatype ProviderModel = ProviderModel(
    ovhEndpoint: Option<string>, ovhApplicationKey: Option<string>, ovhApplicationSecret: Option<string>,
    ovhConsumerKey: Option<string>, snowflakeAccount: Option<string>, snowflakeUser: Option<string>,
    snowflakePassword: Option<string>, snowflakePrivateKey: Option<string>, snowflakeRole: Option<string>,
    snowflakeWarehouse: Option<string>)

  /** The ten settings after resolution. */
  datatype Settings = Settings(
    endpoint: string, applicationKey: string, applicationSecret: string, consumerKey: string,
    account: string, user: string, password: string, privateKey: string, role: string, warehouse: string)

  /** One setting: the environment variable, replaced by the attribute when it is not null (even when empty). */
  function Setting(configured: Option<string>, env: Env, name: string): (v: string)
    ensures configured.Some? ==> v == configured.value
    ensures configured.None? ==> v == Getenv(env, name)
  {
    match configured
    case Some(x) => x
    case None => Getenv(env, name)
  }

  const DefaultEndpoint: string := "ovh-eu"

  function Resolve(m: ProviderModel, env: Env): (s: Settings)
    ensures s.endpoint != ""
    ensures s.endpoint == DefaultEndpoint <==> Setting(m.ovhEndpoint, env, "OVH_ENDPOINT") in {"", DefaultEndpoint}
    ensures s.endpoint == if Setting(m.ovhEndpoint, env, "OVH_ENDPOINT") == "" then DefaultEndpoint else Setting(m.ovhEndpoint, env, "OVH_ENDPOINT")
    ensures s.applicationKey == Setting(m.ovhApplicationKey, env, "OVH_APPLICATION_KEY")
    ensures s.applicationSecret == Setting(m.ovhApplicationSecret, env, "OVH_APPLICATION_SECRET")
    ensures s.consumerKey == Setting(m.ovhConsumerKey, env, "OVH_CONSUMER_KEY")
    ensures s.account == Setting(m.snowflakeAccount, env, "SNOWFLAKE_ACCOUNT")
    ensures s.user == Setting(m.snowflakeUser, env, "SNOWFLAKE_USER")
    ensures s.password == Setting(m.snowflakePassword, env, "SNOWFLAKE_PASSWORD")
    ensures s.privateKey == Setting(m.snowflakePrivateKey, env, "SNOWFLAKE_PRIVATE_KEY")
    ensures s.role == Setting(m.snowflakeRole, env, "SNOWFLAKE_ROLE")
    ensures s.warehouse == Setting(m.snowflakeWarehouse, env, "SNOWFLAKE_WAREHOUSE")
  {
    var endpoint := Setting(m.ovhEndpoint, env, "OVH_ENDPOINT");
    Settings(
      if endpoint == "" then DefaultEndpoint else endpoint,
      Setting(m.ovhApplicationKey, env, "OVH_APPLICATION_KEY"),
      Setting(m.ovhApplicationSecret, env, "OVH_APPLICATION_SECRET"),
      Setting(m.ovhConsumerKey, env, "OVH_CONSUMER_KEY"),
      Setting(m.snowflakeAccount, env, "SNOWFLAKE_ACCOUNT"),
      Setting(m.snowflakeUser, env, "SNOWFLAKE_USER"),
      Setting(m.snowflakePassword, env, "SNOWFLAKE_PASSWORD"),
      Setting(m.snowflakePrivateKey, env, "SNOWFLAKE_PRIVATE_KEY"),
      Setting(m.snowflakeRole, env, "SNOWFLAKE_ROLE"),
      Setting(m.snowflakeWarehouse, env, "SNOWFLAKE_WAREHOUSE"))
  }

  /** Every attribute set in the configuration: the result no longer depends on the environment. */
  predicate FullyConfigured(m: ProviderModel) {
    && m.ovhEndpoint.Some? && m.ovhApplicationKey.Some? && m.ovhApplicationSecret.Some? && m.ovhConsumerKey.Some?
    && m.snowflakeAccount.Some? && m.snowflakeUser.Some? && m.snowflakePassword.Some? && m.snowflakePrivateKey.Some?
    && m.snowflakeRole.Some? && m.snowflakeWarehouse.Some?
  }

  lemma ConfigOverridesEnvironment(m: ProviderModel, env1: Env, env2: Env)
    requires FullyConfigured(m)
    ensures Resolve(m, env1) == Resolve(m, env2)
  {
  }

  /** With nothing configured, every setting comes from its environment variable. */
  lemma EnvironmentFallback(env: Env)
    ensures var s := Resolve(ProviderModel(None, None, None, None, None, None, None, None, None, None), env);
      && s.applicationKey == Getenv(env, "OVH_APPLICATION_KEY")
      && s.password == Getenv(env, "SNOWFLAKE_PASSWORD")
      && (Getenv(env, "OVH_ENDPOINT") == "" ==> s.endpoint == DefaultEndpoint)
  {
  }

  /** An opaque OVH API client, and an opaque database handle. */
  datatype OvhClient = OvhClient(handle: nat)
  datatype Db = Db(handle: nat)

  /**
   * gosnowflake's authenticator enumeration. `AuthTypeSnowflake` (user and
   * password) is its first constant, so it is also the value of an unset field.
   */
  datatype AuthType = AuthTypeSnowflake | AuthTypeJwt

  const UnsetAuthType: AuthType := AuthTypeSnowflake

  /**
   * The gosnowflake configuration the provider builds; an unset Go string
   * field is "", an unset private key is `None`.
   */
  datatype DriverConfig = DriverConfig(
    account: string, user: string, password: string, role: string, warehouse: string,
    authenticator: AuthType, privateKey: Option<string>)

  /**
   * As written: role and warehouse are copied only when non-empty, and a set
   * private key only assigns the authenticator its zero value.
   */
  function BuildDriverConfig(s: Settings): (cfg: DriverConfig)
    ensures cfg.account == s.account && cfg.user == s.user && cfg.password == s.password
    ensures cfg.authenticator == AuthTypeSnowflake && cfg.privateKey.None?
  {
    DriverConfig(
      s.account, s.user, s.password,
      if s.role != "" then s.role else "",
      if s.warehouse != "" then s.warehouse else "",
      if s.privateKey != "" then AuthTypeSnowflake else UnsetAuthType,
      None)
  }

  /**
   * The non-empty guards on role and warehouse change nothing, since the
   * unset field is already empty; and the private key never reaches the
   * driver: any other key, or none, yields the same configuration.
   */
  lemma DriverConfigFacts(s: Settings, otherKey: string)
    ensures BuildDriverConfig(s).role == s.role && BuildDriverConfig(s).warehouse == s.warehouse
    ensures BuildDriverConfig(s) == BuildDriverConfig(s.(privateKey := otherKey))
  {
  }

  /**
   * The evidently intended configuration: a set private key selects key-pair
   * (JWT) authentication and is handed to the driver; without one, the
   * configuration is the one built as written.
   */
  function BuildDriverConfigKeyPair(s: Settings): (cfg: DriverConfig)
    ensures cfg.account == s.account && cfg.user == s.user && cfg.password == s.password
    ensures cfg.role == s.role && cfg.warehouse == s.warehouse
    ensures cfg.authenticator == AuthTypeJwt <==> s.privateKey != ""
    ensures cfg.privateKey == (if s.privateKey == "" then None else Some(s.privateKey))
  {
    var base := BuildDriverConfig(s);
    if s.privateKey == "" then base else base.(authenticator := AuthTypeJwt, privateKey := Some(s.privateKey))
  }

  /** With the correction, two different keys reach the driver as two different configurations. */
  lemma KeyPairReachesDriver(s: Settings, otherKey: string)
    requires otherKey != s.privateKey
    ensures BuildDriverConfigKeyPair(s) != BuildDriverConfigKeyPair(s.(privateKey := otherKey))
    ensures s.privateKey == "" ==> BuildDriverConfigKeyPair(s) == BuildDriverConfig(s)
  {
    if s.privateKey != "" {
      assert BuildDriverConfigKeyPair(s).privateKey == Some(s.privateKey);
    } else {
      assert BuildDriverConfigKeyPair(s.(privateKey := otherKey)).privateKey == Some(otherKey);
    }
  }

  /** What `Configure` hands to resources and data sources (provider.go's own `Config`). */
  datatype ProviderData = ProviderData(ovhClient: OvhClient, snowflakeClient: Option<Db>)

  datatype Diagnostic = Diagnostic(summary: string, detail: string)

  /** The diagnostics raised, and what was handed to data sources and to resources. */
  datatype ConfigureResponse = ConfigureResponse(diags: seq<Diagnostic>, dataSourceData: Option<ProviderData>, resourceData: Option<ProviderData>)

  function Fail(d: Diagnostic): ConfigureResponse {
    ConfigureResponse([d], None, None)
  }

  /** The credential checks, in order; `None` when all three are present. */
  function CredentialError(s: Settings): (d: Option<Diagnostic>)
    ensures d.None? <==> s.applicationKey != "" && s.applicationSecret != "" && s.consumerKey != ""
    ensures s.applicationKey == "" ==> d == Some(Diagnostic("Unable to find OVH application key", "ovh_application_key cannot be an empty string"))
    ensures s.applicationKey != "" && s.applicationSecret == "" ==>
      d == Some(Diagnostic("Unable to find OVH application secret", "ovh_application_secret cannot be an empty string"))
    ensures s.applicationKey != "" && s.applicationSecret != "" && s.consumerKey == "" ==>
      d == Some(Diagnostic("Unable to find OVH consumer key", "ovh_consumer_key cannot be an empty string"))
  {
    if s.applicationKey == "" then Some(Diagnostic("Unable to find OVH application key", "ovh_application_key cannot be an empty string"))
    else if s.applicationSecret == "" then Some(Diagnostic("Unable to find OVH application secret", "ovh_application_secret cannot be an empty string"))
    else if s.consumerKey == "" then Some(Diagnostic("Unable to find OVH consumer key", "ovh_consumer_key cannot be an empty string"))
    else None
  }

  /** The Snowflake connection: opened only when both account and user are set. */
  function OpenSnowflake(s: Settings, dsn: DriverConfig -> Result<string, string>, open: string -> Result<Db, string>): (r: Result<Option<Db>, Diagnostic>)
    ensures (s.account == "" || s.user == "") ==> r == Ok(None)
    ensures r.Ok? && r.value.Some? ==> s.account != "" && s.user != ""
    ensures s.account != "" && s.user != "" && dsn(BuildDriverConfig(s)).Ok? && open(dsn(BuildDriverConfig(s)).value).Ok? ==>
      r == Ok(Some(open(dsn(BuildDriverConfig(s)).value).value))
    ensures r.Err? <==> s.account != "" && s.user != "" && (dsn(BuildDriverConfig(s)).Err? || open(dsn(BuildDriverConfig(s)).value).Err?)
    ensures s.account != "" && s.user != "" && dsn(BuildDriverConfig(s)).Err? ==>
      r == Err(Diagnostic("Unable to create Snowflake DSN", "Unable to create Snowflake DSN:\n\n" + dsn(BuildDriverConfig(s)).error))
    ensures s.account != "" && s.user != "" && dsn(BuildDriverConfig(s)).Ok? && open(dsn(BuildDriverConfig(s)).value).Err? ==>
      r == Err(Diagnostic("Unable to create Snowflake client", "Unable to create Snowflake client:\n\n" + open(dsn(BuildDriverConfig(s)).value).error))
  {
    if s.account != "" && s.user != "" then
      match dsn(BuildDriverConfig(s))
      case Err(e) => Err(Diagnostic("Unable to create Snowflake DSN", "Unable to create Snowflake DSN:\n\n" + e))
      case Ok(d) =>
        match open(d)
        case Err(e) => Err(Diagnostic("Unable to create Snowflake client", "Unable to create Snowflake client:\n\n" + e))
        case Ok(db) => Ok(Some(db))
    else Ok(None)
  }

  /**
   * `Configure`: resolve, check the three OVH credentials in order, create
   * the OVH client, optionally open Snowflake, and hand the same client to
   * resources and data sources. Every failure stops with one diagnostic.
   */
  function Configure(
    m: ProviderModel, env: Env,
    newClient: (string, string, string, string) -> Result<OvhClient, string>,
    dsn: DriverConfig -> Result<string, string>, open: string -> Result<Db, string>
  ): (r: ConfigureResponse)
    ensures |r.diags| <= 1
    ensures r.resourceData == r.dataSourceData
    ensures r.resourceData.Some? <==> r.diags == []
    ensures CredentialError(Resolve(m, env)).Some? ==> r.diags == [CredentialError(Resolve(m, env)).value]
    ensures r.resourceData.Some? ==>
      var s := Resolve(m, env);
      && CredentialError(s).None?
      && newClient(s.endpoint, s.applicationKey, s.applicationSecret, s.consumerKey) == Ok(r.resourceData.value.ovhClient)
      && (r.resourceData.value.snowflakeClient.Some? ==> s.account != "" && s.user != "")
    ensures var s := Resolve(m, env);
      CredentialError(s).None? && newClient(s.endpoint, s.applicationKey, s.applicationSecret, s.consumerKey).Err? ==>
        r.diags == [Diagnostic("Unable to create OVH client", "Unable to create OVH client:\n\n" + newClient(s.endpoint, s.applicationKey, s.applicationSecret, s.consumerKey).error)]
    ensures var s := Resolve(m, env);
      CredentialError(s).None? && newClient(s.endpoint, s.applicationKey, s.applicationSecret, s.consumerKey).Ok? ==>
        && (r.resourceData.Some? <==> OpenSnowflake(s, dsn, open).Ok?)
        && (OpenSnowflake(s, dsn, open).Ok? ==> r.resourceData.value.snowflakeClient == OpenSnowflake(s, dsn, open).value)
        && (OpenSnowflake(s, dsn, open).Err? ==> r.diags == [OpenSnowflake(s, dsn, open).error])
  {
    var s := Resolve(m, env);
    match CredentialError(s)
    case Some(d) => Fail(d)
    case None =>
      match newClient(s.endpoint, s.applicationKey, s.applicationSecret, s.consumerKey)
      case Err(e) => Fail(Diagnostic("Unable to create OVH client", "Unable to create OVH client:\n\n" + e))
      case Ok(ovh) =>
        match OpenSnowflake(s, dsn, open)
        case Err(d) => Fail(d)
        case Ok(db) =>
          var data := ProviderData(ovh, db);
          ConfigureResponse([], Some(data), Some(data))
  }

  /**
   * An attribute set to "" is not null: it hides its environment variable, so
   * an empty configured key fails even when the environment supplies one.
   */
  lemma EmptyAttributeHidesEnvironment(m: ProviderModel, env: Env,
    newClient: (string, string, string, string) -> Result<OvhClient, string>,
    dsn: DriverConfig -> Result<string, string>, open: string -> Result<Db, string>)
    requires m.ovhApplicationKey == Some("")
    ensures Configure(m, env, newClient, dsn, open).diags ==
      [Diagnostic("Unable to find OVH application key", "ovh_application_key cannot be an empty string")]
  {
  }

  /**
   * Without a Snowflake account or user, configuration succeeds as soon as
   * the OVH client does, whatever the DSN builder and `sql.Open` would do.
   */
  lemma SnowflakeIsOptional(m: ProviderModel, env: Env,
    newClient: (string, string, string, string) -> Result<OvhClient, string>,
    dsn: DriverConfig -> Result<string, string>, open: string -> Result<Db, string>)
    requires Resolve(m, env).account == "" || Resolve(m, env).user == ""
    requires CredentialError(Resolve(m, env)).None?
    requires var s := Resolve(m, env); newClient(s.endpoint, s.applicationKey, s.applicationSecret, s.consumerKey).Ok?
    ensures var r := Configure(m, env, newClient, dsn, open);
      r.diags == [] && r.resourceData.Some? && r.resourceData.value.snowflakeClient.None?
  {
  }

  /**
   * With account and user set, a DSN the driver cannot build fails the whole
   * configuration: no client reaches resources or data sources, even though
   * the OVH client was created.
   */
  lemma SnowflakeDsnFailureFailsConfigure(m: ProviderModel, env: Env,
    newClient: (string, string, string, string) -> Result<OvhClient, string>,
    dsn: DriverConfig -> Result<string, string>, open: string -> Result<Db, string>)
    requires Resolve(m, env).account != "" && Resolve(m, env).user != ""
    requires CredentialError(Resolve(m, env)).None?
    requires var s := Resolve(m, env); newClient(s.endpoint, s.applicationKey, s.applicationSecret, s.consumerKey).Ok?
    requires dsn(BuildDriverConfig(Resolve(m, env))).Err?
    ensures var r := Configure(m, env, newClient, dsn, open);
      && r.resourceData.None? && r.dataSourceData.None?
      && r.diags == [Diagnostic("Unable to create Snowflake DSN", "Unable to create Snowflake DSN:\n\n" + dsn(BuildDriverConfig(Resolve(m, env))).error)]
  {
  }

  /** The provider value `New` builds: it only remembers the version. */
  datatype Provider = Provider(version: string)

  /** `New(version)()`: the factory's product. */
  function New(version: string): (p: Provider)
    ensures p.version == version
  {
    Provider(version)
  }

  datatype Metadata = Metadata(typeName: string, version: string)

  function GetMetadata(p: Provider): (md: Metadata)
    ensures md.typeName == "snowflake-ovh"
    ensures md.version == p.version
  {
    Metadata("snowflake-ovh", p.version)
  }

  lemma MetadataReportsVersion(version: string)
    ensures GetMetadata(New(version)) == Metadata("snowflake-ovh", version)
  {
  }

  /** The registered resource constructors. */
  datatype ResourceConstructor =
    | WarehouseResource | DatabaseResource | SchemaResource | TableResource
    | UserResource | RoleResource | GrantResource | ResourceMonitorResource

  datatype DataSourceConstructor = AccountsDataSource

  function Resources(): (r: seq<ResourceConstructor>)
    ensures |r| == 8
    ensures forall i, j :: 0 <= i < j < |r| ==> r[i] != r[j]
  {
    [WarehouseResource, DatabaseResource, SchemaResource, TableResource, UserResource, RoleResource, GrantResource, ResourceMonitorResource]
  }

  /** Each constructor is registered exactly once. */
  lemma ResourcesComplete(c: ResourceConstructor)
    ensures c in Resources()
  {
    var r := Resources();
    match c
    case WarehouseResource => assert r[0] == c;
    case DatabaseResource => assert r[1] == c;
    case SchemaResource => assert r[2] == c;
    case TableResource => assert r[3] == c;
    case UserResource => assert r[4] == c;
    case RoleResource => assert r[5] == c;
    case GrantResource => assert r[6] == c;
    case ResourceMonitorResource => assert r[7] == c;
  }

  function DataSources(): (r: seq<DataSourceConstructor>)
    ensures |r| == 1
    ensures r[0] == AccountsDataSource
  {
    [AccountsDataSource]
  }
}

=== FILE: resource_crud.dfy ===
/**
 * The create/read/update/delete shape shared by the SDK-v2 resources of
 * internal/provider (warehouse, account, resource monitor, grant).
 *
 * Each handler is a function of the resource data, the planned values and the
 * outcome of its single OVH API call, which is a parameter: `Ok(object)` for
 * the decoded reply, `Err(message)` for a failed call.
 */
module ResourceCrud {
  import opened Wrappers
  import opened Json

  /** A Terraform attribute and the camelCase key the OVH API uses for it. */
  datatype FieldMap = FieldMap(attr: string, apiKey: string)

  /** The state of one resource instance: its ID (empty when gone) and its attribute values. */
  datatype ResourceData = ResourceData(id: string, state: map<string, Json>)

  /** What a handler leaves behind: the resource data and an error diagnostic, if any. */
  datatype Outcome = Outcome(data: ResourceData, diag: Option<string>)

  /** No attribute and no API key occurs twice. */
  predicate DistinctFields(fields: seq<FieldMap>) {
    forall i, j :: 0 <= i < j < |fields| ==> fields[i].attr != fields[j].attr && fields[i].apiKey != fields[j].apiKey
  }

  /** No attribute and no API key of `a` occurs in `b`. */
  predicate Disjoint(a: seq<FieldMap>, b: seq<FieldMap>) {
    forall i, j :: 0 <= i < |a| && 0 <= j < |b| ==> a[i].attr != b[j].attr && a[i].apiKey != b[j].apiKey
  }

  /** A table cut in three is distinct when each piece is and no two pieces share a name. */
  lemma ChunkedDistinct(fields: seq<FieldMap>, m: nat, n: nat)
    requires m <= n <= |fields|
    requires DistinctFields(fields[..m]) && DistinctFields(fields[m..n]) && DistinctFields(fields[n..])
    requires Disjoint(fields[..m], fields[m..n]) && Disjoint(fields[..m], fields[n..]) && Disjoint(fields[m..n], fields[n..])
    ensures DistinctFields(fields)
  {
    forall i, j | 0 <= i < j < |fields|
      ensures fields[i].attr != fields[j].attr && fields[i].apiKey != fields[j].apiKey
    {
      if j < m {
        assert fields[i] == fields[..m][i] && fields[j] == fields[..m][j];
      } else if i < m && j < n {
        assert fields[i] == fields[..m][i] && fields[j] == fields[m..n][j - m];
      } else if i < m {
        assert fields[i] == fields[..m][i] && fields[j] == fields[n..][j - n];
      } else if j < n {
        assert fields[i] == fields[m..n][i - m] && fields[j] == fields[m..n][j - m];
      } else if i < n {
        assert fields[i] == fields[m..n][i - m] && fields[j] == fields[n..][j - n];
      } else {
        assert fields[i] == fields[n..][i - n] && fields[j] == fields[n..][j - n];
      }
    }
  }

  /** Appending a field that clashes with none keeps a table distinct. */
  lemma AppendDistinct(fields: seq<FieldMap>, f: FieldMap)
    requires DistinctFields(fields)
    requires forall i :: 0 <= i < |fields| ==> fields[i].attr != f.attr && fields[i].apiKey != f.apiKey
    ensures DistinctFields(fields + [f])
  {
  }

  lemma PrefixDistinct(fields: seq<FieldMap>, n: nat)
    requires DistinctFields(fields) && n <= |fields|
    ensures DistinctFields(fields[..n])
  {
  }

  function Attrs(fields: seq<FieldMap>): set<string> {
    set i | 0 <= i < |fields| :: fields[i].attr
  }

  lemma NotInAttrs(fields: seq<FieldMap>, a: string)
    requires forall i :: 0 <= i < |fields| ==> fields[i].attr != a
    ensures a !in Attrs(fields)
  {
  }

  /** `d.HasChanges(...)` over the attributes of `fields`. */
  predicate AnyChanged(fields: seq<FieldMap>, changed: set<string>) {
    exists i :: 0 <= i < |fields| && fields[i].attr in changed
  }

  /**
   * The chain `if d.HasChange(attr) { payload[key] = d.Get(attr) }` over
   * `fields` in order; `values` holds what `d.Get` returns.
   */
  function PartialPayload(fields: seq<FieldMap>, changed: set<string>, values: Object): (r: Object)
    ensures forall k :: k in r <==> exists i :: 0 <= i < |fields| && fields[i].apiKey == k && fields[i].attr in changed
    ensures DistinctFields(fields) ==>
      forall i :: 0 <= i < |fields| && fields[i].attr in changed ==> r[fields[i].apiKey] == Get(values, fields[i].attr)
    decreases |fields|
  {
    if fields == [] then map[]
    else
      var init := fields[..|fields| - 1];
      var last := fields[|fields| - 1];
      var r0 := PartialPayload(init, changed, values);
      assert forall i :: 0 <= i < |init| ==> init[i] == fields[i];
      if last.attr in changed then r0[last.apiKey := Get(values, last.attr)] else r0
  }

  /** With exactly one attribute changed, the payload is that attribute's single entry. */
  lemma SingleChangePayload(fields: seq<FieldMap>, values: Object, i: nat)
    requires DistinctFields(fields) && i < |fields|
    ensures PartialPayload(fields, {fields[i].attr}, values) == map[fields[i].apiKey := Get(values, fields[i].attr)]
  {
    var p := PartialPayload(fields, {fields[i].attr}, values);
    forall k | k in p
      ensures k == fields[i].apiKey
    {
      var j :| 0 <= j < |fields| && fields[j].apiKey == k && fields[j].attr in {fields[i].attr};
      assert j == i;
    }
  }

  /** A create payload: every field under its key. */
  function FullPayload(fields: seq<FieldMap>, values: Object): (r: Object)
    ensures forall k :: k in r <==> exists i :: 0 <= i < |fields| && fields[i].apiKey == k
    ensures DistinctFields(fields) ==> forall i :: 0 <= i < |fields| ==> r[fields[i].apiKey] == Get(values, fields[i].attr)
  {
    PartialPayload(fields, Attrs(fields), values)
  }

  /** One entry of a create payload, for a table whose `i`-th field is known. */
  lemma FullPayloadEntry(fields: seq<FieldMap>, values: Object, i: nat, attr: string, key: string)
    requires DistinctFields(fields) && i < |fields| && fields[i] == FieldMap(attr, key)
    ensures key in FullPayload(fields, values) && FullPayload(fields, values)[key] == Get(values, attr)
  {
  }

  /** `d.Set(attr, obj[key])` for each field in order; an absent key stores `nil`. */
  function SetFields(state: map<string, Json>, fields: seq<FieldMap>, obj: Object): (r: map<string, Json>)
    ensures forall a :: a in r <==> a in state || a in Attrs(fields)
    ensures forall a :: a in state && a !in Attrs(fields) ==> r[a] == state[a]
    decreases |fields|
  {
    if fields == [] then state
    else
      var init := fields[..|fields| - 1];
      var last := fields[|fields| - 1];
      assert forall i :: 0 <= i < |init| ==> init[i] == fields[i];
      assert Attrs(fields) == Attrs(init) + {last.attr};
      SetFields(state, init, obj)[last.attr := Get(obj, last.apiKey)]
  }

  /** In a distinct table, each attribute ends up holding its own key's value: no later field overwrites it. */
  lemma {:induction false} SetFieldsValue(state: map<string, Json>, fields: seq<FieldMap>, obj: Object, i: nat)
    requires DistinctFields(fields) && i < |fields|
    ensures fields[i].attr in SetFields(state, fields, obj)
    ensures SetFields(state, fields, obj)[fields[i].attr] == Get(obj, fields[i].apiKey)
    decreases |fields|
  {
    var n := |fields| - 1;
    SetFieldsUnfold(state, fields, obj);
    if i < n {
      PrefixDistinct(fields, n);
      assert fields[..n][i] == fields[i] && fields[i].attr != fields[n].attr;
      SetFieldsValue(state, fields[..n], obj, i);
    }
  }

  /** The last field is set after all the others. */
  lemma SetFieldsUnfold(state: map<string, Json>, fields: seq<FieldMap>, obj: Object)
    requires |fields| > 0
    ensures SetFields(state, fields, obj) ==
      SetFields(state, fields[..|fields| - 1], obj)[fields[|fields| - 1].attr := Get(obj, fields[|fields| - 1].apiKey)]
  {
  }

  lemma SetFieldsValues(state: map<string, Json>, fields: seq<FieldMap>, obj: Object)
    ensures DistinctFields(fields) ==> forall i :: 0 <= i < |fields| ==>
      fields[i].attr in SetFields(state, fields, obj) && SetFields(state, fields, obj)[fields[i].attr] == Get(obj, fields[i].apiKey)
  {
    if DistinctFields(fields) {
      forall i | 0 <= i < |fields|
        ensures fields[i].attr in SetFields(state, fields, obj) && SetFields(state, fields, obj)[fields[i].attr] == Get(obj, fields[i].apiKey)
      {
        SetFieldsValue(state, fields, obj, i);
      }
    }
  }

  /** `if tags, ok := obj["tags"].(map[string]interface{}); ok { d.Set("tags", tags) }`. */
  function SetTagsIfObject(state: map<string, Json>, obj: Object): (r: map<string, Json>)
    ensures Get(obj, "tags").JObject? ==> r == state["tags" := Get(obj, "tags")]
    ensures !Get(obj, "tags").JObject? ==> r == state
  {
    if Get(obj, "tags").JObject? then state["tags" := Get(obj, "tags")] else state
  }

  /**
   * The read handler. A failed GET clears the ID, so Terraform forgets the
   * resource; otherwise each read field is copied into the state, and `tags`
   * when `readsTags` and the API returned an object for it.
   */
  function Read(kind: string, data: ResourceData, fetched: Result<Object, string>, fields: seq<FieldMap>, readsTags: bool): (r: Outcome)
    ensures fetched.Err? ==> r == Outcome(ResourceData("", data.state), Some("failed to read Snowflake " + kind + ": " + fetched.error))
    ensures fetched.Ok? ==> r.diag.None? && r.data.id == data.id
    ensures fetched.Ok? ==> forall a :: a in data.state && a !in Attrs(fields) && a != "tags" ==> a in r.data.state && r.data.state[a] == data.state[a]
    ensures fetched.Ok? && DistinctFields(fields) && (forall i :: 0 <= i < |fields| ==> fields[i].attr != "tags") ==>
      forall i :: 0 <= i < |fields| ==> fields[i].attr in r.data.state && r.data.state[fields[i].attr] == Get(fetched.value, fields[i].apiKey)
  {
    match fetched
    case Err(e) => Outcome(ResourceData("", data.state), Some("failed to read Snowflake " + kind + ": " + e))
    case Ok(obj) =>
      var s := SetFields(data.state, fields, obj);
      SetFieldsValues(data.state, fields, obj);
      Outcome(ResourceData(data.id, if readsTags then SetTagsIfObject(s, obj) else s), None)
  }

  /** The delete handler: a successful DELETE clears the ID; a failed one changes nothing. */
  function Delete(kind: string, data: ResourceData, deleteError: Option<string>): (r: Outcome)
    ensures deleteError.None? ==> r == Outcome(ResourceData("", data.state), None)
    ensures deleteError.Some? ==> r == Outcome(data, Some("failed to delete Snowflake " + kind + ": " + deleteError.value))
  {
    match deleteError
    case None => Outcome(ResourceData("", data.state), None)
    case Some(e) => Outcome(data, Some("failed to delete Snowflake " + kind + ": " + e))
  }

  /** What the update handler sent (if anything) and what it left behind. */
  datatype UpdateOutcome = UpdateOutcome(sent: Option<Object>, result: Outcome)

  /**
   * The update handler: a PUT of the changed updatable fields when any of them
   * changed, then a read; a failed PUT returns its error without reading.
   */
  function Update(
    kind: string, data: ResourceData, fields: seq<FieldMap>, changed: set<string>, values: Object,
    putError: Option<string>, fetched: Result<Object, string>, readFields: seq<FieldMap>, readsTags: bool
  ): (r: UpdateOutcome)
    ensures r.sent.Some? <==> AnyChanged(fields, changed)
    ensures r.sent.Some? ==> forall k :: k in r.sent.value <==>
      exists i :: 0 <= i < |fields| && fields[i].apiKey == k && fields[i].attr in changed
    ensures r.sent.Some? && DistinctFields(fields) ==> forall i :: 0 <= i < |fields| && fields[i].attr in changed ==>
      r.sent.value[fields[i].apiKey] == Get(values, fields[i].attr)
    ensures r.sent.Some? && putError.Some? ==>
      r.result == Outcome(data, Some("failed to update Snowflake " + kind + ": " + putError.value))
    ensures r.sent.None? || putError.None? ==> r.result == Read(kind, data, fetched, readFields, readsTags)
  {
    if AnyChanged(fields, changed) then
      var payload := PartialPayload(fields, changed, values);
      match putError
      case Some(e) => UpdateOutcome(Some(payload), Outcome(data, Some("failed to update Snowflake " + kind + ": " + e)))
      case None => UpdateOutcome(Some(payload), Read(kind, data, fetched, readFields, readsTags))
    else UpdateOutcome(None, Read(kind, data, fetched, readFields, readsTags))
  }

  /** The create handler's result after the POST, with the body it sent. */
  datatype CreateOutcome =
    | CreateFailed(sent: Object, diag: string)   // the POST failed
    | IdPanic(sent: Object)                      // `result["id"].(string)` on a reply without a string id
    | Created(sent: Object, read: Outcome)       // the ID was set and the resource read back

  /**
   * The create handler: POST the full payload, take the string `id` of the
   * reply as the resource ID, then read.
   */
  function Create(
    kind: string, data: ResourceData, fields: seq<FieldMap>, values: Object,
    posted: Result<Object, string>, fetched: Result<Object, string>, readFields: seq<FieldMap>, readsTags: bool
  ): (r: CreateOutcome)
    ensures r.sent == FullPayload(fields, values)
    ensures r.CreateFailed? <==> posted.Err?
    ensures r.Created? <==> posted.Ok? && Get(posted.value, "id").JStr?
    ensures r.Created? ==> r.read == Read(kind, ResourceData(posted.value["id"].s, data.state), fetched, readFields, readsTags)
  {
    var body := FullPayload(fields, values);
    match posted
    case Err(e) => CreateFailed(body, "failed to create Snowflake " + kind + ": " + e)
    case Ok(obj) =>
      match Get(obj, "id")
      case JStr(id) => Created(body, Read(kind, ResourceData(id, data.state), fetched, readFields, readsTags))
      case _ => IdPanic(body)
  }

  /**
   * Round trip: when the API echoes a create payload, reading it back gives
   * every attribute that is both sent and read the value that was sent.
   */
  lemma EchoReadBack(kind: string, data: ResourceData, sent: seq<FieldMap>, readFields: seq<FieldMap>, values: Object, readsTags: bool, i: nat)
    requires DistinctFields(sent) && DistinctFields(readFields)
    requires i < |sent| && sent[i] in readFields && sent[i].attr != "tags"
    ensures var r := Read(kind, data, Ok(FullPayload(sent, values)), readFields, readsTags);
      sent[i].attr in r.data.state && r.data.state[sent[i].attr] == Get(values, sent[i].attr)
  {
    var obj := FullPayload(sent, values);
    var j :| 0 <= j < |readFields| && readFields[j] == sent[i];
    SetFieldsValue(data.state, readFields, obj, j);
    FullPayloadEntry(sent, values, i, sent[i].attr, sent[i].apiKey);
  }
}

=== FILE: resource_monitor_resource.dfy ===
/**
 * The SDK-v2 resource monitor resource
 * (internal/provider/resource_snowflake_resource_monitor.go).
 */
module ResourceMonitorResource {
  import opened Wrappers
  import opened Json
  import opened ResourceCrud

  const Frequencies: set<string> := {"MONTHLY", "DAILY", "WEEKLY", "YEARLY", "NEVER"}

  /** The user's configuration; list attributes left unset are empty. */
  datatype MonitorConfig = MonitorConfig(
    name: string, creditQuota: Option<int>, frequency: Option<string>,
    startTimestamp: Option<string>, endTimestamp: Option<string>,
    notifyTriggers: seq<int>, suspendTriggers: seq<int>, suspendImmediateTriggers: seq<int>,
    notifyUsers: seq<string>, comment: Option<string>)

  datatype MonitorSettings = MonitorSettings(
    name: string, creditQuota: int, frequency: string, startTimestamp: string, endTimestamp: string,
    notifyTriggers: seq<int>, suspendTriggers: seq<int>, suspendImmediateTriggers: seq<int>,
    notifyUsers: seq<string>, comment: string)

  /** A trigger is a percentage of the quota from 1 to 100. */
  predicate ValidTriggers(ts: seq<int>) {
    forall i :: 0 <= i < |ts| ==> 1 <= ts[i] <= 100
  }

  /** The schema validators, on the attributes the user set. */
  predicate ValidConfig(c: MonitorConfig) {
    && (c.creditQuota.Some? ==> c.creditQuota.value >= 1)
    && (c.frequency.Some? ==> c.frequency.value in Frequencies)
    && ValidTriggers(c.notifyTriggers) && ValidTriggers(c.suspendTriggers) && ValidTriggers(c.suspendImmediateTriggers)
  }

  /** `frequency` defaults to MONTHLY; `credit_quota` has no default, so `d.Get` yields Go's zero value. */
  function Resolve(c: MonitorConfig): (s: MonitorSettings)
    ensures c.frequency.None? ==> s.frequency == "MONTHLY"
    ensures c.creditQuota.None? ==> s.creditQuota == 0
    ensures c.creditQuota.Some? ==> s.creditQuota == c.creditQuota.value
    ensures s.notifyTriggers == c.notifyTriggers && s.suspendTriggers == c.suspendTriggers
  {
    MonitorSettings(
      c.name, c.creditQuota.GetOr(0), c.frequency.GetOr("MONTHLY"), c.startTimestamp.GetOr(""), c.endTimestamp.GetOr(""),
      c.notifyTriggers, c.suspendTriggers, c.suspendImmediateTriggers, c.notifyUsers, c.comment.GetOr(""))
  }

  /**
   * Every validated configuration resolves to an accepted frequency and valid
   * triggers; the quota is valid exactly when it was configured.
   */
  lemma ResolvedSettings(c: MonitorConfig)
    requires ValidConfig(c)
    ensures Resolve(c).frequency in Frequencies
    ensures ValidTriggers(Resolve(c).notifyTriggers) && ValidTriggers(Resolve(c).suspendTriggers)
    ensures Resolve(c).creditQuota >= 1 <==> c.creditQuota.Some?
  {
  }

  function Ints(xs: seq<int>): seq<Json> {
    seq(|xs|, i requires 0 <= i < |xs| => JInt(xs[i]))
  }

  function Strs(xs: seq<string>): seq<Json> {
    seq(|xs|, i requires 0 <= i < |xs| => JStr(xs[i]))
  }

  function Values(s: MonitorSettings): Object {
    map[
      "name" := JStr(s.name), "credit_quota" := JInt(s.creditQuota), "frequency" := JStr(s.frequency),
      "start_timestamp" := JStr(s.startTimestamp), "end_timestamp" := JStr(s.endTimestamp),
      "notify_triggers" := JList(Ints(s.notifyTriggers)), "suspend_triggers" := JList(Ints(s.suspendTriggers)),
      "suspend_immediate_triggers" := JList(Ints(s.suspendImmediateTriggers)),
      "notify_users" := JList(Strs(s.notifyUsers)), "comment" := JStr(s.comment)]
  }

  /** The attributes a read copies; the first ten are exactly the create payload. */
  const ReadFields: seq<FieldMap> := [
    FieldMap("name", "name"), FieldMap("credit_quota", "creditQuota"), FieldMap("frequency", "frequency"),
    FieldMap("start_timestamp", "startTimestamp"), FieldMap("end_timestamp", "endTimestamp"),
    FieldMap("notify_triggers", "notifyTriggers"), FieldMap("suspend_triggers", "suspendTriggers"),
    FieldMap("suspend_immediate_triggers", "suspendImmediateTriggers"), FieldMap("notify_users", "notifyUsers"),
    FieldMap("comment", "comment"), FieldMap("created_on", "createdOn"), FieldMap("owner", "owner")
  ]

  const CreateFields: seq<FieldMap> := ReadFields[..10]

  /** Every created attribute but the name, which forces replacement instead. */
  const UpdateFields: seq<FieldMap> := ReadFields[1..10]

  const Kind: string := "resource monitor"

  // Distinctness of a literal table is proved piecewise: three slices and their pairwise disjointness.

  lemma ReadFieldsPiece0()
    ensures DistinctFields(ReadFields[..4])
  {
  }

  lemma ReadFieldsPiece1()
    ensures DistinctFields(ReadFields[4..8])
  {
  }

  lemma ReadFieldsPiece2()
    ensures DistinctFields(ReadFields[8..])
  {
  }

  lemma ReadFieldsApart01()
    ensures Disjoint(ReadFields[..4], ReadFields[4..8])
  {
  }

  lemma ReadFieldsApart02()
    ensures Disjoint(ReadFields[..4], ReadFields[8..])
  {
  }

  lemma ReadFieldsApart12()
    ensures Disjoint(ReadFields[4..8], ReadFields[8..])
  {
  }

  lemma ReadFieldsDistinct()
    ensures DistinctFields(ReadFields)
    ensures forall i :: 0 <= i < |ReadFields| ==> ReadFields[i].attr != "tags"
  {
    ReadFieldsPiece0(); ReadFieldsPiece1(); ReadFieldsPiece2();
    ReadFieldsApart01(); ReadFieldsApart02(); ReadFieldsApart12();
    ChunkedDistinct(ReadFields, 4, 8);
  }

  lemma CreateFieldsAt()
    ensures |CreateFields| == 10 && CreateFields[1] == FieldMap("credit_quota", "creditQuota")
    ensures forall i :: 0 <= i < 10 ==> CreateFields[i] == ReadFields[i]
  {
  }

  function CreateMonitor(c: MonitorConfig, data: ResourceData, posted: Result<Object, string>, fetched: Result<Object, string>): (r: CreateOutcome)
    ensures r.CreateFailed? <==> posted.Err?
    ensures r.Created? <==> posted.Ok? && Get(posted.value, "id").JStr?
    ensures r.sent == FullPayload(CreateFields, Values(Resolve(c)))
  {
    Create(Kind, data, CreateFields, Values(Resolve(c)), posted, fetched, ReadFields, false)
  }

  lemma QuotaValue(s: MonitorSettings)
    ensures Get(Values(s), "credit_quota") == JInt(s.creditQuota)
  {
  }

  /**
   * A monitor created without `credit_quota` is posted with quota 0, a value
   * the attribute's own validator refuses when it is configured.
   */
  lemma UnsetQuotaIsSentAsZero(c: MonitorConfig)
    requires c.creditQuota.None?
    ensures Get(FullPayload(CreateFields, Values(Resolve(c))), "creditQuota") == JInt(0)
    ensures !ValidConfig(c.(creditQuota := Some(0)))
  {
    CreateFieldsAt();
    ReadFieldsDistinct();
    PrefixDistinct(ReadFields, 10);
    QuotaValue(Resolve(c));
    FullPayloadEntry(CreateFields, Values(Resolve(c)), 1, "credit_quota", "creditQuota");
  }

  function ReadMonitor(data: ResourceData, fetched: Result<Object, string>): (r: Outcome)
    ensures fetched.Err? ==> r.data.id == "" && r.diag == Some("failed to read Snowflake " + Kind + ": " + fetched.error)
    ensures fetched.Ok? ==> r.data.id == data.id && r.diag.None?
    ensures fetched.Ok? ==> forall i :: 0 <= i < |ReadFields| ==>
      ReadFields[i].attr in r.data.state && r.data.state[ReadFields[i].attr] == Get(fetched.value, ReadFields[i].apiKey)
  {
    ReadFieldsDistinct();
    Read(Kind, data, fetched, ReadFields, false)
  }

  /** Round trip: when the API echoes the create payload, every one of the ten inputs reads back as sent. */
  lemma CreateEchoRoundTrip(s: MonitorSettings, data: ResourceData, i: nat)
    requires i < 10
    ensures var r := ReadMonitor(data, Ok(FullPayload(CreateFields, Values(s))));
      && CreateFields[i].attr in r.data.state
      && r.data.state[CreateFields[i].attr] == Get(Values(s), CreateFields[i].attr)
  {
    CreateFieldsAt();
    ReadFieldsDistinct();
    PrefixDistinct(ReadFields, 10);
    EchoReadBack(Kind, data, CreateFields, ReadFields, Values(s), false, i);
  }

  function UpdateMonitor(data: ResourceData, changed: set<string>, s: MonitorSettings, putError: Option<string>, fetched: Result<Object, string>): (r: UpdateOutcome)
    ensures r.sent.Some? <==> exists i :: 0 <= i < |UpdateFields| && UpdateFields[i].attr in changed
    ensures r.sent.Some? ==> "name" !in r.sent.value
  {
    assert forall i :: 0 <= i < |UpdateFields| ==> UpdateFields[i].apiKey != "name";
    Update(Kind, data, UpdateFields, changed, Values(s), putError, fetched, ReadFields, false)
  }

  /** Every created attribute other than the name is updatable in place. */
  lemma UpdateCoversCreate()
    ensures Attrs(UpdateFields) + {"name"} == Attrs(CreateFields)
  {
    CreateFieldsAt();
    assert forall i :: 0 <= i < |UpdateFields| ==> UpdateFields[i] == CreateFields[i + 1];
    forall a | a in Attrs(CreateFields)
      ensures a in Attrs(UpdateFields) + {"name"}
    {
      var i :| 0 <= i < |CreateFields| && CreateFields[i].attr == a;
      if i > 0 {
        assert UpdateFields[i - 1].attr == a;
      }
    }
    assert CreateFields[0].attr == "name";
  }

  function DeleteMonitor(data: ResourceData, deleteError: Option<string>): (r: Outcome)
    ensures r.data.id == "" <==> deleteError.None? || data.id == ""
    ensures r.diag.Some? <==> deleteError.Some?
  {
    Delete(Kind, data, deleteError)
  }
}

=== FILE: strings.dfy ===
/** The string tests the service worker performs on URL paths and URLs. */
module Strings {

  /** `s.startsWith(prefix)`. */
  predicate StartsWith(s: string, prefix: string) {
    |prefix| <= |s| && s[..|prefix|] == prefix
  }

  /** `s` ends with `suffix`: an anchored `$` regular-expression alternative. */
  predicate EndsWith(s: string, suffix: string) {
    |suffix| <= |s| && s[|s| - |suffix|..] == suffix
  }

  /** `s.includes(sub)`, scanning left to right. */
  predicate Contains(s: string, sub: string)
    decreases |s|
  {
    StartsWith(s, sub) || (|s| > 0 && Contains(s[1..], sub))
  }

  /** `sub` occurs in `s` starting at index `i`. */
  ghost predicate OccursAt(s: string, sub: string, i: int) {
    0 <= i && i + |sub| <= |s| && s[i..i + |sub|] == sub
  }

  /** The scanning search finds exactly the substrings that occur somewhere. */
  lemma {:induction false} ContainsIffOccurs(s: string, sub: string)
    ensures Contains(s, sub) <==> exists i :: OccursAt(s, sub, i)
    decreases |s|
  {
    if exists i :: OccursAt(s, sub, i) {
      var i :| OccursAt(s, sub, i);
      if i == 0 {
        assert StartsWith(s, sub);
      } else {
        assert s[1..][i - 1..i - 1 + |sub|] == s[i..i + |sub|];
        assert OccursAt(s[1..], sub, i - 1);
        ContainsIffOccurs(s[1..], sub);
      }
    }
    if Contains(s, sub) {
      if StartsWith(s, sub) {
        assert OccursAt(s, sub, 0);
      } else {
        ContainsIffOccurs(s[1..], sub);
        var j :| OccursAt(s[1..], sub, j);
        assert s[j + 1..j + 1 + |sub|] == s[1..][j..j + |sub|];
        assert OccursAt(s, sub, j + 1);
      }
    }
  }

  /** A suffix is in particular a substring. */
  lemma EndsWithContains(s: string, suffix: string)
    requires EndsWith(s, suffix)
    ensures Contains(s, suffix)
  {
    assert OccursAt(s, suffix, |s| - |suffix|);
    ContainsIffOccurs(s, suffix);
  }

  /** A string cannot contain a substring with a character it lacks. */
  lemma {:induction false} MissingCharNotContained(s: string, sub: string, c: char)
    requires c in sub && c !in s
    ensures !Contains(s, sub)
    decreases |s|
  {
    var i :| 0 <= i < |sub| && sub[i] == c;
    if |sub| <= |s| {
      assert s[..|sub|][i] != sub[i];
    }
    if |s| > 0 {
      assert forall x :: x in s[1..] ==> x in s;
      MissingCharNotContained(s[1..], sub, c);
    }
  }
}

=== FILE: warehouse_resource.dfy ===
/**
 * The SDK-v2 warehouse resource (internal/provider/resource_snowflake_warehouse.go):
 * its schema constraints and defaults, and the payloads of its handlers.
 */
module WarehouseResource {
  import opened Wrappers
  import opened Json
  import opened ResourceCrud
  import WarehouseValidators

  /** The sizes the schema accepts: hyphenated, with digit-prefixed large sizes. */
  const SchemaSizes: set<string> := {
    "X-SMALL", "SMALL", "MEDIUM", "LARGE", "X-LARGE", "2X-LARGE", "3X-LARGE", "4X-LARGE", "5X-LARGE", "6X-LARGE"
  }

  const ScalingPolicies: set<string> := {"STANDARD", "ECONOMY"}

  /** The user's configuration; `None` for an optional attribute left unset. */
  datatype WarehouseConfig = WarehouseConfig(
    name: string,
    size: Option<string>,
    maxClusterCount: Option<int>,
    minClusterCount: Option<int>,
    autoSuspend: Option<int>,
    autoResume: Option<bool>,
    initiallySuspended: Option<bool>,
    scalingPolicy: Option<string>,
    resourceMonitor: Option<string>,
    comment: Option<string>,
    ovhOptimization: Option<bool>,
    costTracking: Option<bool>,
    performanceInsights: Option<bool>,
    tags: Option<map<string, string>>)

  /** The values `d.Get` returns: defaults applied, Go zero values for unset attributes without one. */
  datatype WarehouseSettings = WarehouseSettings(
    name: string, size: string, maxClusterCount: int, minClusterCount: int, autoSuspend: int,
    autoResume: bool, initiallySuspended: bool, scalingPolicy: string, resourceMonitor: string, comment: string,
    ovhOptimization: bool, costTracking: bool, performanceInsights: bool, tags: map<string, string>)

  /** The schema validators, applied to the attributes the user set. */
  predicate ValidConfig(c: WarehouseConfig) {
    && (c.size.Some? ==> c.size.value in SchemaSizes)
    && (c.maxClusterCount.Some? ==> 1 <= c.maxClusterCount.value <= 10)
    && (c.minClusterCount.Some? ==> 1 <= c.minClusterCount.value <= 10)
    && (c.autoSuspend.Some? ==> c.autoSuspend.value >= 60)
    && (c.scalingPolicy.Some? ==> c.scalingPolicy.value in ScalingPolicies)
  }

  /** The same constraints on resolved values. */
  predicate ValidSettings(s: WarehouseSettings) {
    && s.size in SchemaSizes
    && 1 <= s.maxClusterCount <= 10
    && 1 <= s.minClusterCount <= 10
    && s.autoSuspend >= 60
    && s.scalingPolicy in ScalingPolicies
  }

  /** Applies the schema defaults. */
  function Resolve(c: WarehouseConfig): (s: WarehouseSettings)
    ensures c.size.None? ==> s.size == "X-SMALL"
    ensures c.maxClusterCount.None? ==> s.maxClusterCount == 1
    ensures c.minClusterCount.None? ==> s.minClusterCount == 1
    ensures c.autoSuspend.None? ==> s.autoSuspend == 60
    ensures c.scalingPolicy.None? ==> s.scalingPolicy == "STANDARD"
    ensures c.autoResume.None? ==> s.autoResume
    ensures c.initiallySuspended.None? ==> !s.initiallySuspended
    ensures c.ovhOptimization.None? ==> s.ovhOptimization
    ensures c.costTracking.None? ==> s.costTracking
    ensures c.performanceInsights.None? ==> !s.performanceInsights
  {
    WarehouseSettings(
      c.name, c.size.GetOr("X-SMALL"), c.maxClusterCount.GetOr(1), c.minClusterCount.GetOr(1), c.autoSuspend.GetOr(60),
      c.autoResume.GetOr(true), c.initiallySuspended.GetOr(false), c.scalingPolicy.GetOr("STANDARD"),
      c.resourceMonitor.GetOr(""), c.comment.GetOr(""), c.ovhOptimization.GetOr(true), c.costTracking.GetOr(true),
      c.performanceInsights.GetOr(false), c.tags.GetOr(map[]))
  }

  /** Every configuration the validators accept resolves to valid settings: the defaults lie in their domains. */
  lemma ResolvedSettingsValid(c: WarehouseConfig)
    requires ValidConfig(c)
    ensures ValidSettings(Resolve(c))
  {
  }

  /** Nothing relates the two cluster counts: a minimum above the maximum is accepted. */
  lemma ClusterCountsUnrelated()
    ensures var c := WarehouseConfig("wh", None, Some(1), Some(10), None, None, None, None, None, None, None, None, None, None);
      ValidConfig(c) && Resolve(c).minClusterCount > Resolve(c).maxClusterCount
  {
  }

  /** `auto_suspend` has a lower bound only: a week is accepted here, unlike the test helper's one-day limit. */
  lemma AutoSuspendUnbounded()
    ensures var c := WarehouseConfig("wh", None, None, None, Some(604800), None, None, None, None, None, None, None, None, None);
      ValidConfig(c) && !WarehouseValidators.IsValidAutoSuspend(604800)
  {
  }

  function TagsJson(tags: map<string, string>): Json {
    JObject(map k | k in tags :: JStr(tags[k]))
  }

  /** What `d.Get` returns for each attribute. */
  function Values(s: WarehouseSettings): Object {
    map[
      "name" := JStr(s.name), "size" := JStr(s.size),
      "max_cluster_count" := JInt(s.maxClusterCount), "min_cluster_count" := JInt(s.minClusterCount),
      "auto_suspend" := JInt(s.autoSuspend), "auto_resume" := JBool(s.autoResume),
      "initially_suspended" := JBool(s.initiallySuspended), "scaling_policy" := JStr(s.scalingPolicy),
      "resource_monitor" := JStr(s.resourceMonitor), "comment" := JStr(s.comment),
      "ovh_optimization" := JBool(s.ovhOptimization), "cost_tracking" := JBool(s.costTracking),
      "performance_insights" := JBool(s.performanceInsights), "tags" := TagsJson(s.tags)]
  }

  /** The create payload's fields, in source order. */
  const CreateFields: seq<FieldMap> := [
    FieldMap("name", "name"), FieldMap("size", "size"),
    FieldMap("max_cluster_count", "maxClusterCount"), FieldMap("min_cluster_count", "minClusterCount"),
    FieldMap("auto_suspend", "autoSuspend"), FieldMap("auto_resume", "autoResume"),
    FieldMap("initially_suspended", "initiallySuspended"), FieldMap("scaling_policy", "scalingPolicy"),
    FieldMap("resource_monitor", "resourceMonitor"), FieldMap("comment", "comment"),
    FieldMap("ovh_optimization", "ovhOptimization"), FieldMap("cost_tracking", "costTracking"),
    FieldMap("performance_insights", "performanceInsights"), FieldMap("tags", "tags")
  ]

  /** The nine attributes an update sends. */
  const UpdateFields: seq<FieldMap> := [
    FieldMap("size", "size"),
    FieldMap("max_cluster_count", "maxClusterCount"), FieldMap("min_cluster_count", "minClusterCount"),
    FieldMap("auto_suspend", "autoSuspend"), FieldMap("auto_resume", "autoResume"),
    FieldMap("scaling_policy", "scalingPolicy"), FieldMap("resource_monitor", "resourceMonitor"),
    FieldMap("comment", "comment"), FieldMap("tags", "tags")
  ]

  /** The attributes a read copies from the API object (`tags` is handled apart). */
  const ReadFields: seq<FieldMap> := [
    FieldMap("name", "name"), FieldMap("size", "size"),
    FieldMap("max_cluster_count", "maxClusterCount"), FieldMap("min_cluster_count", "minClusterCount"),
    FieldMap("auto_suspend", "autoSuspend"), FieldMap("auto_resume", "autoResume"),
    FieldMap("initially_suspended", "initiallySuspended"), FieldMap("scaling_policy", "scalingPolicy"),
    FieldMap("resource_monitor", "resourceMonitor"), FieldMap("comment", "comment"),
    FieldMap("ovh_optimization", "ovhOptimization"), FieldMap("cost_tracking", "costTracking"),
    FieldMap("performance_insights", "performanceInsights"),
    FieldMap("state", "state"), FieldMap("type", "type"), FieldMap("created_on", "createdOn")
  ]

  const Kind: string := "warehouse"

  /** The create handler on a configuration. */
  function CreateWarehouse(c: WarehouseConfig, data: ResourceData, posted: Result<Object, string>, fetched: Result<Object, string>): (r: CreateOutcome)
    ensures r.Created? <==> posted.Ok? && Get(posted.value, "id").JStr?
    ensures r.Created? ==> r.read.data.id == posted.value["id"].s || fetched.Err?
    ensures r.sent == FullPayload(CreateFields, Values(Resolve(c)))
  {
    Create(Kind, data, CreateFields, Values(Resolve(c)), posted, fetched, ReadFields, true)
  }

  // Distinctness of a literal table is proved piecewise: three slices and their pairwise disjointness.

  lemma ReadFieldsPiece0()
    ensures DistinctFields(ReadFields[..6])
  {
  }

  lemma ReadFieldsPiece1()
    ensures DistinctFields(ReadFields[6..11])
  {
  }

  lemma ReadFieldsPiece2()
    ensures DistinctFields(ReadFields[11..])
  {
  }

  lemma ReadFieldsApart01()
    ensures Disjoint(ReadFields[..6], ReadFields[6..11])
  {
  }

  lemma ReadFieldsApart02()
    ensures Disjoint(ReadFields[..6], ReadFields[11..])
  {
  }

  lemma ReadFieldsApart12()
    ensures Disjoint(ReadFields[6..11], ReadFields[11..])
  {
  }

  lemma ReadFieldsDistinct()
    ensures DistinctFields(ReadFields)
  {
    ReadFieldsPiece0(); ReadFieldsPiece1(); ReadFieldsPiece2();
    ReadFieldsApart01(); ReadFieldsApart02(); ReadFieldsApart12();
    ChunkedDistinct(ReadFields, 6, 11);
  }

  lemma ReadFieldsOmitTags()
    ensures forall i :: 0 <= i < |ReadFields| ==> ReadFields[i].attr != "tags"
  {
  }

  // Distinctness of a literal table is proved piecewise: three slices and their pairwise disjointness.

  lemma UpdateFieldsPiece0()
    ensures DistinctFields(UpdateFields[..3])
  {
  }

  lemma UpdateFieldsPiece1()
    ensures DistinctFields(UpdateFields[3..6])
  {
  }

  lemma UpdateFieldsPiece2()
    ensures DistinctFields(UpdateFields[6..])
  {
  }

  lemma UpdateFieldsApart01()
    ensures Disjoint(UpdateFields[..3], UpdateFields[3..6])
  {
  }

  lemma UpdateFieldsApart02()
    ensures Disjoint(UpdateFields[..3], UpdateFields[6..])
  {
  }

  lemma UpdateFieldsApart12()
    ensures Disjoint(UpdateFields[3..6], UpdateFields[6..])
  {
  }

  lemma UpdateFieldsDistinct()
    ensures DistinctFields(UpdateFields)
  {
    UpdateFieldsPiece0(); UpdateFieldsPiece1(); UpdateFieldsPiece2();
    UpdateFieldsApart01(); UpdateFieldsApart02(); UpdateFieldsApart12();
    ChunkedDistinct(UpdateFields, 3, 6);
  }

  /** The create table is the first thirteen read fields plus `tags`. */
  lemma CreateFieldsDistinct()
    ensures DistinctFields(CreateFields)
    ensures forall i :: 0 <= i < 13 ==> CreateFields[i] == ReadFields[i]
  {
    ReadFieldsDistinct();
    PrefixDistinct(ReadFields, 13);
    assert CreateFields == ReadFields[..13] + [FieldMap("tags", "tags")];
    AppendDistinct(ReadFields[..13], FieldMap("tags", "tags"));
  }

  /** The values `d.Get` returns for the defaulted attributes. */
  lemma DefaultedValues(s: WarehouseSettings)
    ensures Get(Values(s), "size") == JStr(s.size)
    ensures Get(Values(s), "max_cluster_count") == JInt(s.maxClusterCount)
    ensures Get(Values(s), "auto_suspend") == JInt(s.autoSuspend)
    ensures Get(Values(s), "scaling_policy") == JStr(s.scalingPolicy)
    ensures Get(Values(s), "resource_monitor") == JStr(s.resourceMonitor)
  {
  }

  lemma CreateFieldsAt()
    ensures CreateFields[1] == FieldMap("size", "size")
    ensures CreateFields[2] == FieldMap("max_cluster_count", "maxClusterCount")
    ensures CreateFields[4] == FieldMap("auto_suspend", "autoSuspend")
    ensures CreateFields[7] == FieldMap("scaling_policy", "scalingPolicy")
    ensures CreateFields[8] == FieldMap("resource_monitor", "resourceMonitor")
  {
  }

  /** The create payload carries the resolved settings under their camelCase keys. */
  lemma CreatePayloadCarries(s: WarehouseSettings)
    ensures var p := FullPayload(CreateFields, Values(s));
      && Get(p, "size") == JStr(s.size) && Get(p, "maxClusterCount") == JInt(s.maxClusterCount)
      && Get(p, "autoSuspend") == JInt(s.autoSuspend) && Get(p, "scalingPolicy") == JStr(s.scalingPolicy)
      && Get(p, "resourceMonitor") == JStr(s.resourceMonitor)
  {
    CreateFieldsAt();
    CreateFieldsDistinct();
    var v := Values(s);
    DefaultedValues(s);
    FullPayloadEntry(CreateFields, v, 1, "size", "size");
    FullPayloadEntry(CreateFields, v, 2, "max_cluster_count", "maxClusterCount");
    FullPayloadEntry(CreateFields, v, 4, "auto_suspend", "autoSuspend");
    FullPayloadEntry(CreateFields, v, 7, "scaling_policy", "scalingPolicy");
    FullPayloadEntry(CreateFields, v, 8, "resource_monitor", "resourceMonitor");
  }

  /** An unconfigured warehouse is created with the schema defaults, and the Go zero value for `resource_monitor`. */
  lemma CreatePayloadDefaults(c: WarehouseConfig)
    requires c.size.None? && c.maxClusterCount.None? && c.autoSuspend.None? && c.scalingPolicy.None? && c.resourceMonitor.None?
    ensures var p := FullPayload(CreateFields, Values(Resolve(c)));
      && Get(p, "size") == JStr("X-SMALL") && Get(p, "maxClusterCount") == JInt(1) && Get(p, "autoSuspend") == JInt(60)
      && Get(p, "scalingPolicy") == JStr("STANDARD") && Get(p, "resourceMonitor") == JStr("")
  {
    CreatePayloadCarries(Resolve(c));
  }

  /**
   * Round trip: when the API echoes the create payload, the read that follows
   * the create gives each of the thirteen non-tag inputs the value that was sent.
   */
  lemma CreateEchoRoundTrip(c: WarehouseConfig, data: ResourceData, i: nat)
    requires i < 13
    ensures var obj := FullPayload(CreateFields, Values(Resolve(c)));
      var r := CreateWarehouse(c, data, Ok(obj["id" := JStr("wh-1")]), Ok(obj));
      && r.Created? && r.read.data.id == "wh-1"
      && CreateFields[i].attr in r.read.data.state
      && r.read.data.state[CreateFields[i].attr] == Get(Values(Resolve(c)), CreateFields[i].attr)
  {
    CreateFieldsDistinct();
    ReadFieldsDistinct();
    assert CreateFields[i] == ReadFields[i];
    EchoReadBack(Kind, ResourceData("wh-1", data.state), CreateFields, ReadFields, Values(Resolve(c)), true, i);
  }

  /**
   * The read handler: a failed GET forgets the warehouse; a successful one
   * copies each of the sixteen read attributes from its camelCase key.
   */
  function ReadWarehouse(data: ResourceData, fetched: Result<Object, string>): (r: Outcome)
    ensures fetched.Err? ==> r.data.id == "" && r.diag == Some("failed to read Snowflake " + Kind + ": " + fetched.error)
    ensures fetched.Ok? ==> r.data.id == data.id && r.diag.None?
    ensures fetched.Ok? ==> forall i :: 0 <= i < |ReadFields| ==>
      ReadFields[i].attr in r.data.state && r.data.state[ReadFields[i].attr] == Get(fetched.value, ReadFields[i].apiKey)
  {
    ReadFieldsDistinct();
    ReadFieldsOmitTags();
    Read(Kind, data, fetched, ReadFields, true)
  }

  /** The delete handler: the ID is cleared only when the DELETE succeeds. */
  function DeleteWarehouse(data: ResourceData, deleteError: Option<string>): (r: Outcome)
    ensures r.data.id == "" <==> deleteError.None? || data.id == ""
    ensures r.diag.Some? <==> deleteError.Some?
  {
    Delete(Kind, data, deleteError)
  }

  /** The update handler: `changed` is the set of attributes whose planned value differs from the state. */
  function UpdateWarehouse(data: ResourceData, changed: set<string>, s: WarehouseSettings, putError: Option<string>, fetched: Result<Object, string>): (r: UpdateOutcome)
    ensures r.sent.Some? <==> exists i :: 0 <= i < |UpdateFields| && UpdateFields[i].attr in changed
  {
    Update(Kind, data, UpdateFields, changed, Values(s), putError, fetched, ReadFields, true)
  }

  /** Changes to the four OVH flags alone never reach the API: no update call is made. */
  lemma FlagChangesAreNotSent(data: ResourceData, changed: set<string>, s: WarehouseSettings, putError: Option<string>, fetched: Result<Object, string>)
    requires changed <= {"ovh_optimization", "cost_tracking", "performance_insights", "initially_suspended"}
    ensures UpdateWarehouse(data, changed, s, putError, fetched).sent.None?
  {
    NoUpdatableChange(changed);
  }

  lemma NoUpdatableChange(changed: set<string>)
    requires changed <= {"ovh_optimization", "cost_tracking", "performance_insights", "initially_suspended"}
    ensures !AnyChanged(UpdateFields, changed)
  {
    forall i | 0 <= i < |UpdateFields|
      ensures UpdateFields[i].attr !in changed
    {
    }
  }

  /** With only `size` changed, the update payload is the single `size` entry. */
  lemma SizeOnlyPayload(v: Object)
    ensures PartialPayload(UpdateFields, {"size"}, v) == map["size" := Get(v, "size")]
  {
    UpdateFieldsDistinct();
    assert UpdateFields[0] == FieldMap("size", "size");
    SingleChangePayload(UpdateFields, v, 0);
  }

  /** A size change alone sends exactly `{"size": new size}`. */
  lemma SizeChangeSendsOnlySize(data: ResourceData, s: WarehouseSettings, putError: Option<string>, fetched: Result<Object, string>)
    ensures UpdateWarehouse(data, {"size"}, s, putError, fetched).sent == Some(map["size" := JStr(s.size)])
  {
    assert UpdateFields[0].attr in {"size"};
    SizeOnlyPayload(Values(s));
    DefaultedValues(s);
  }

  /** The size vocabularies of the schema and of the test helper share only SMALL, MEDIUM and LARGE. */
  lemma SizeVocabulariesDiffer()
    ensures SchemaSizes * WarehouseValidators.TestSizes == {"SMALL", "MEDIUM", "LARGE"}
    ensures "X-SMALL" in SchemaSizes && !WarehouseValidators.IsValidWarehouseSize("X-SMALL")
    ensures "XSMALL" !in SchemaSizes && WarehouseValidators.IsValidWarehouseSize("XSMALL")
  {
  }
}

=== FILE: warehouse_validators.dfy ===
/**
 * The warehouse input validators that accompany the warehouse acceptance
 * tests (internal/provider/snowflake_warehouse_resource_test.go), with their
 * accept/reject tables.
 *
 * Go measures the name in bytes and iterates it in runes; here a name is a
 * sequence of characters. Both agree on every name: a name holding any
 * non-ASCII character is rejected either way.
 */
module WarehouseValidators {

  /** The sizes the test helper accepts: upper case, without hyphens. */
  const TestSizes: set<string> := {
    "XSMALL", "SMALL", "MEDIUM", "LARGE", "XLARGE", "XXLARGE", "XXXLARGE", "X4LARGE", "X5LARGE", "X6LARGE"
  }

  /** Map lookup with `false` for a missing key: membership, case-sensitive. */
  predicate IsValidWarehouseSize(size: string): (ok: bool)
    ensures ok ==> 4 <= |size| <= 8
    ensures ok ==> forall i :: 0 <= i < |size| ==> ('A' <= size[i] <= 'Z') || ('0' <= size[i] <= '9')
  {
    size in TestSizes
  }

  /** Auto-suspend in seconds, both bounds inclusive: from one minute to one day. */
  predicate IsValidAutoSuspend(value: int): (ok: bool)
    ensures ok <==> 1 * 60 <= value <= 24 * 60 * 60
  {
    60 <= value <= 86400
  }

  predicate IsNameStart(c: char) {
    ('a' <= c <= 'z') || ('A' <= c <= 'Z') || c == '_'
  }

  predicate IsNameChar(c: char) {
    IsNameStart(c) || ('0' <= c <= '9')
  }

  /** Declarative name rule: 1 to 64 characters, a letter or `_` first, letters, digits and `_` throughout. */
  predicate ValidWarehouseName(name: string) {
    && 0 < |name| <= 64
    && IsNameStart(name[0])
    && forall i :: 0 <= i < |name| ==> IsNameChar(name[i])
  }

  /** The character rule stated recursively, so that it unfolds on a given string. */
  predicate AllNameChars(s: string) {
    |s| == 0 || (IsNameChar(s[0]) && AllNameChars(s[1..]))
  }

  lemma {:induction false} AllNameCharsIff(s: string)
    ensures AllNameChars(s) <==> forall i :: 0 <= i < |s| ==> IsNameChar(s[i])
  {
    if |s| > 0 {
      AllNameCharsIff(s[1..]);
      assert forall i :: 1 <= i < |s| ==> s[1..][i - 1] == s[i];
    }
  }

  /** `isValidWarehouseName`: the length check, the first-character check, then the scan. */
  method IsValidWarehouseName(name: string) returns (ok: bool)
    ensures ok <==> ValidWarehouseName(name)
  {
    if |name| == 0 || |name| > 64 {
      return false;
    }
    if !IsNameStart(name[0]) {
      return false;
    }
    var i := 0;
    while i < |name|
      invariant 0 <= i <= |name|
      invariant forall j :: 0 <= j < i ==> IsNameChar(name[j])
    {
      if !IsNameChar(name[i]) {
        return false;
      }
      i := i + 1;
    }
    return true;
  }

  /** The size table: every listed valid size is accepted, every listed invalid one rejected. */
  lemma SizeTable()
    ensures forall s :: s in ["XSMALL", "SMALL", "MEDIUM", "LARGE", "XLARGE", "XXLARGE", "XXXLARGE", "X4LARGE", "X5LARGE", "X6LARGE"] ==> IsValidWarehouseSize(s)
    ensures !IsValidWarehouseSize("TINY") && !IsValidWarehouseSize("HUGE") && !IsValidWarehouseSize("")
    ensures !IsValidWarehouseSize("small") && !IsValidWarehouseSize("INVALID")
  {
  }

  /** The auto-suspend table, and the exact bounds. */
  lemma AutoSuspendTable()
    ensures IsValidAutoSuspend(60) && IsValidAutoSuspend(300) && IsValidAutoSuspend(3600) && IsValidAutoSuspend(86400)
    ensures !IsValidAutoSuspend(-1) && !IsValidAutoSuspend(0) && !IsValidAutoSuspend(30) && !IsValidAutoSuspend(90000)
    ensures !IsValidAutoSuspend(59) && !IsValidAutoSuspend(86401)
  {
  }

  /** A name passes when its first character may start a name and the recursive scan accepts it. */
  lemma ValidByScan(name: string)
    requires 0 < |name| <= 64 && IsNameStart(name[0]) && AllNameChars(name)
    ensures ValidWarehouseName(name)
  {
    AllNameCharsIff(name);
  }

  lemma AppendNameChars(a: string, b: string)
    requires AllNameChars(a) && AllNameChars(b)
    ensures AllNameChars(a + b)
  {
    AllNameCharsIff(a);
    AllNameCharsIff(b);
    AllNameCharsIff(a + b);
    assert forall i :: |a| <= i < |a + b| ==> (a + b)[i] == b[i - |a|];
  }

  /** A valid name start followed by name characters, joined, is a valid name. */
  lemma ValidJoin(a: string, b: string)
    requires 0 < |a| && |a| + |b| <= 64 && IsNameStart(a[0]) && AllNameChars(a) && AllNameChars(b)
    ensures ValidWarehouseName(a + b)
  {
    AppendNameChars(a, b);
    ValidByScan(a + b);
  }

  lemma NameCharsTest()
    ensures AllNameChars("test_")
  {
  }

  lemma NameCharsWarehouse()
    ensures AllNameChars("warehouse")
  {
  }

  lemma NameCharsAnalytics()
    ensures AllNameChars("analytics")
  {
  }

  lemma NameCharsWh123()
    ensures AllNameChars("_wh_123")
  {
  }

  lemma ValidWarehouse1()
    ensures ValidWarehouseName("warehouse1")
  {
    NameCharsWarehouse();
    assert AllNameChars("1");
    assert "warehouse1" == "warehouse" + "1";
    ValidJoin("warehouse", "1");
  }

  lemma ValidTestWarehouse()
    ensures ValidWarehouseName("test_warehouse")
  {
    NameCharsTest();
    NameCharsWarehouse();
    assert "test_warehouse" == "test_" + "warehouse";
    ValidJoin("test_", "warehouse");
  }

  lemma ValidAnalytics()
    ensures ValidWarehouseName("analytics_wh_123")
  {
    NameCharsAnalytics();
    NameCharsWh123();
    assert "analytics_wh_123" == "analytics" + "_wh_123";
    ValidJoin("analytics", "_wh_123");
  }

  /** The valid-name table: every listed name is accepted. */
  lemma ValidNameTable()
    ensures forall name :: name in ["warehouse1", "test_warehouse", "PROD_WH", "analytics_wh_123"] ==> ValidWarehouseName(name)
  {
    ValidWarehouse1();
    ValidTestWarehouse();
    ValidByScan("PROD_WH");
    ValidAnalytics();
  }

  /** The invalid-name table: every listed name is rejected. */
  lemma InvalidNameTable()
    ensures !ValidWarehouseName("") && !ValidWarehouseName("123warehouse")
    ensures !ValidWarehouseName("warehouse-name") && !ValidWarehouseName("warehouse name")
    ensures !ValidWarehouseName("very_long_warehouse_name_that_exceeds_maximum_length_allowed_by_snowflake")
  {
    assert "123warehouse"[0] == '1';
    assert "warehouse-name"[9] == '-';
    assert "warehouse name"[9] == ' ';
  }

  /** Exactly 64 characters is still a valid length; 65 is not. */
  lemma NameLengthBoundary(name: string)
    requires |name| > 0 && IsNameStart(name[0]) && forall i :: 0 <= i < |name| ==> IsNameChar(name[i])
    ensures ValidWarehouseName(name) <==> |name| <= 64
  {
  }
}

=== FILE: wrappers.dfy ===
/** Failure-compatible wrappers shared by every module of the model. */
module Wrappers {

  /** A value that may be absent: a missing header, a null attribute, a nil pointer. */
  datatype Option<+T> = None | Some(value: T) {

    /** The wrapped value, or `default` when absent. */
    function GetOr(default: T): T {
      match this
      case Some(v) => v
      case None => default
    }
  }

  /** The outcome of an operation that can fail with an error value. */
  datatype Result<+T, +E> = Ok(value: T) | Err(error: E) {

    predicate IsFailure() {
      Err?
    }

    function PropagateFailure<U>(): Result<U, E>
      requires Err?
    {
      Err(error)
    }

    function Extract(): T
      requires Ok?
    {
      value
    }
  }
}
